=== FILE: README.md ===
# IT asset management — a Dafny model of the state handlers

This project models the logic core of a single-page IT asset-management application.
The application keeps users, asset families (product definitions), asset instances,
requests and fulfilment tasks in memory. Its handlers turn one state into the next.
The model covers:

- **the smart data table** (`DataTable`, `TableSettings`, with `JsValues`, `Keys` and
  `Sorting` for the JavaScript semantics it relies on):
  - reconciling the column configuration with the schema;
  - the active columns;
  - global search in its three modes;
  - per-column filters;
  - the sort toggle and the sort itself;
  - the settings dialog's local edits and its apply step;
- **the application handlers** (`Inventory`, `History`, `Requests`, `AssetIds`):
  - saving a family;
  - bulk creation;
  - saving an asset, with its assignment-history rules;
  - saving a user profile and propagating it into assets;
  - submitting and acting on requests;
  - creating a task;
  - the role-filtered views;
  - the per-family counts;
- **the administrator's ID layout editor and picklists** (`IdLayout`);
- **the three dialogs** (`AssetForm`, `ProfileForm`, `TaskForm`):
  - the drafts they open with;
  - the user pickers;
  - the form edits;
  - the records they hand back;
- **the sheet import** (`DataImport`): user rows de-duplicated by e-mail, and asset rows
  attached to found-or-created families.

State is immutable. Every handler is a function from the old state, plus the clock
values it reads, to the new state. Clock readings (`Date.now()`, ISO timestamps,
today's date) are the fields of an `Entities.Clock` parameter.

The module layout follows the source:
- `entities.dfy` holds the records;
- one module per component or handler group.

Four helper modules hold the JavaScript library operations the handlers use:
- `wrappers.dfy`: `Option`, `Result`;
- `strings.dfy`: `toLowerCase`, `split`, `join`, `trim`, `padStart`, `String(n)`;
- `seqs.dfy`: `filter`, `find`, `some`, `every`, toggling membership;
- `sorting.dfy`: a stable sort by a total preorder.

## Model

| member | source | states |
|---|---|---|
| DataTable.WidthOrDefault | components/DataTable.tsx:43 | a configured width is kept unless it is missing or zero, which fall back to 150 |
| DataTable.DefaultConfig | components/DataTable.tsx:39-45 | one entry per schema column, in schema order, visible, numbered 1, 2, … and keyed by the accessor key |
| DataTable.Reconcile | components/DataTable.tsx:33-49 | an empty schema keeps the configuration; otherwise the result is the previous configuration or the schema-built one |
| DataTable.ReconcileRebuildsWhenKeysChange | components/DataTable.tsx:36-47 | for plain keys a non-empty configuration survives exactly when it names the same keys (as a multiset) as the schema, and is rebuilt otherwise |
| DataTable.ReconcileIdempotent | components/DataTable.tsx:33-49 | running the effect a second time with the same schema changes nothing |
| DataTable.ResolveConfigs | components/DataTable.tsx:71-75 | entries naming no schema column are dropped; each other entry becomes the first schema column with its key, carrying the entry's width |
| DataTable.ActiveColumns | components/DataTable.tsx:67-76 | with no configuration the schema is shown as it is; otherwise one column per rendered entry, in order, with that entry's key and width |
| DataTable.RenderedConfigs | components/DataTable.tsx:67-76 | never more entries than the configuration; each one is a visible configuration entry that names a schema column |
| DataTable.RenderedConfigsSpec | components/DataTable.tsx:67-76 | the rendered entries are exactly the visible entries that name a schema column, each as often as it occurs, in non-decreasing order |
| DataTable.OrderLeTotalPreorder | components/DataTable.tsx:70 | comparing by `order` is a total preorder, so the sort is well defined |
| DataTable.AllWordsInOneColumn | components/DataTable.tsx:95-99 | "All Words" matches a row exactly when one column value holds every word; words spread over columns do not match |
| DataTable.AnyWordsInSomeColumn | components/DataTable.tsx:92-94 | "Any Words" matches a row exactly when some column value holds some word |
| DataTable.OneWordQuery | components/DataTable.tsx:90-99 | for a query without whitespace, "Any Words" and "All Words" are the same substring test |
| DataTable.HandleColumnFilterChange | components/DataTable.tsx:125-127 | the key afterwards holds the new text; every other key keeps its text; unique keys stay unique |
| DataTable.ColumnFiltersConjunctive | components/DataTable.tsx:103-112 | narrowing the rows once per filter equals one filter by the conjunction of the non-empty filters |
| DataTable.FilteredRowsSpec | components/DataTable.tsx:82-112 | search plus filtering keeps exactly the rows passing every active test, as a subsequence of the data |
| DataTable.GlobalSearch | components/DataTable.tsx:84-101 | with advanced search off or an empty query every row stays; otherwise a row stays exactly when some column matches the query in the chosen mode; no row is added |
| DataTable.RowLeTotalPreorder | components/DataTable.tsx:114-120 | the row comparator, ascending or descending, is a total preorder |
| DataTable.FilteredAndSortedSpec | components/DataTable.tsx:82-123 | with a sort active the shown rows are a permutation of the filtered rows, ordered by the key's value in the chosen direction; never more rows than the data |
| DataTable.FilteredAndSorted | components/DataTable.tsx:82-123 | never more rows than the data, and a row is shown exactly when it is in the data and passes the search and every column filter |
| DataTable.HandleSort | components/DataTable.tsx:129-134 | the sort key becomes the clicked key |
| DataTable.NewKeySortsAscending | components/DataTable.tsx:129-134 | a key other than the current one sorts ascending |
| DataTable.SameKeyFlips | components/DataTable.tsx:129-134 | clicking the current key flips the direction, so two clicks restore it |
| DataTable.OnColumnFilterChange | components/DataTable.tsx:125-127 | only the filters of the table state change, and the key then holds the new text |
| DataTable.OnSort | components/DataTable.tsx:129-134 | only the sort of the table state changes |
| DataTable.OnApplySettings | components/DataTable.tsx:62-65 | the configuration and view settings are replaced; the search text, search mode, filters and sort stay |
| JsValues.LookupPartsAppend | components/DataTable.tsx:79 | folding over a concatenated path is folding over the first part, then the second |
| JsValues.FalsyAbsorbs | components/DataTable.tsx:79 | once the accumulator is falsy, `acc && acc[part]` carries it to the end |
| JsValues.LookupMatchesResolve | components/DataTable.tsx:78-80 | the nested lookup finds the value whenever each segment names an own property of a truthy value (an object field, or the length or an index of a string or array), and otherwise yields a falsy value |
| JsValues.Lookup | components/DataTable.tsx:78-80 | the lookup is the value the path resolves to, and a falsy value when the path breaks off |
| JsValues.IndexedProperty | components/DataTable.tsx:79 | `length` of a string or array is its length, and the decimal text of an index below it reads that element or character |
| JsValues.LookupSingleSegment | components/DataTable.tsx:78-80 | a path without dots is one property access |
| JsValues.DisplayString | components/DataTable.tsx:264 | a missing or null value shows as the empty text; any other value shows as `String(v)` |
| JsValues.MissingValueSearchText | components/DataTable.tsx:87 | a missing cell is searched as the text "undefined" while it displays as empty |
| JsValues.LessThanAgrees | components/DataTable.tsx:117-118 | on numbers and strings the model's strict order is JavaScript's `<` |
| JsValues.ValueLeTotalPreorder | components/DataTable.tsx:113-121 | the value order the sort uses is total and transitive |
| Keys.SortedJoinSameIds | components/DataTable.tsx:36-38 | for non-empty comma-free ids, two sorted-and-joined key texts are equal exactly when the id lists are equal as multisets |
| Keys.LexOrderIsLinear | components/DataTable.tsx:36 | the default `sort()` order on strings is total, transitive and antisymmetric |
| Sorting.SortBySorted | components/SmartTableSettings.tsx:135 | under a total preorder the sort's output is ordered by the comparator |
| Sorting.SortBy | components/SmartTableSettings.tsx:135 | the output is a rearrangement of the input: the same length and every element as often |
| Sorting.SortBySortedInput | components/SmartTableSettings.tsx:135 | an already ordered list is left as it is |
| Sorting.SortByStable | components/SmartTableSettings.tsx:135 | the sort is stable: the elements the comparator ties with any one element come out in their input order |
| TableSettings.Open | components/SmartTableSettings.tsx:100-111 | the dialog holds the incoming columns sorted by order, and the view flags as given |
| TableSettings.ToggleColumn | components/SmartTableSettings.tsx:115-117 | the columns with that id flip visibility; all other columns and fields stay |
| TableSettings.WidthChange | components/SmartTableSettings.tsx:119-121 | the columns with that id take the width; nothing else changes |
| TableSettings.OrderChange | components/SmartTableSettings.tsx:123-125 | the columns with that id take the order; nothing else changes |
| TableSettings.ToggleTwice | components/SmartTableSettings.tsx:115-117 | toggling a column twice gives back the dialog as it was |
| TableSettings.EditsKeepIdentity | components/SmartTableSettings.tsx:119-125 | width and order edits keep every column's id, title and visibility |
| TableSettings.Apply | components/SmartTableSettings.tsx:127-137 | the applied columns are the local columns re-sorted by order, and the view settings are the flags |
| TableSettings.ReopenAfterApply | components/SmartTableSettings.tsx:100-137 | reopening the dialog on what it applied shows the same columns and flags |
| TableSettings.ApplyAfterOpen | components/SmartTableSettings.tsx:100-137 | applying without edits gives back the opened configuration sorted by order |
| TableSettings.ApplyToTable | components/SmartTableSettings.tsx:127-137 | the table receives the dialog's columns, sorted by order, and its flags; its search text, search mode, filters and sort are kept |
| AssetIds.FamilyPrefix | App.tsx:407 | a licence family gets SOFT and every other family gets HARD |
| AssetIds.SequenceCode | App.tsx:413 | the code is only digits, four long or the number's length if longer, and ends with the number's decimal text |
| AssetIds.SequenceCodeRoundTrip | App.tsx:413 | the number can be read back from its padded code |
| AssetIds.AssetIdRoundTrip | App.tsx:414 | an identifier built from a dash-free prefix and code reads back into the same three parts |
| AssetIds.AssetIdInjective | App.tsx:412-414 | with the same dash-free prefix and code, different numbers give different identifiers |
| AssetIds.FamilyCount | App.tsx:409 | the family count is at most the number of assets |
| AssetIds.FamilyCountAppend | App.tsx:409-410 | the family count of two lists is the sum of their counts |
| AssetIds.CodeOf | App.tsx:408 | the family's product code, or the fallback when it has none |
| AssetIds.ProductCode | App.tsx:613 | the upper-cased first `n` characters of the name, or all of it when it is shorter |
| Inventory.SaveFamily | App.tsx:394-403 | an edit keeps the list's length and replaces the matching families; a new family goes last with its clock id and its four-letter code |
| Inventory.SaveFamilyEditKeepsIds | App.tsx:396 | editing a family keeps the list's ids and their order |
| Inventory.NewFamilyFirstInstance | App.tsx:398-400 | the first instance of a new family whose name has no dash is numbered 1 and carries the family's own code, or GEN for an unnamed family |
| Inventory.BulkCreate | App.tsx:405-434 | the existing assets are kept as a prefix and exactly `quantity` (or none when negative) assets are appended |
| Inventory.BulkCreateSpec | App.tsx:405-434 | each new asset is in the family, Available, titled and numbered consecutively from the family's count plus one |
| Inventory.InstanceIdInjective | App.tsx:419 | instance ids from different clock readings differ |
| Inventory.BulkCreateDistinctIds | App.tsx:419 | the assets of one bulk creation have pairwise different ids |
| Inventory.BulkCreateDistinctAssetIds | App.tsx:412-414 | for a dash-free product code, the asset ids of one bulk creation are pairwise different |
| Inventory.BulkCreateContinuesNumbering | App.tsx:409-410 | the family count grows by the quantity, so the next single creation continues the numbering |
| Inventory.SaveEdit | App.tsx:436-512 | the other assets stay; every asset with the edited id becomes the saved copy of the edit, which keeps the submitted history as a prefix and gains at most three entries |
| Inventory.SaveCreate | App.tsx:513-547 | the existing assets are kept and one asset is appended |
| Inventory.SaveCreateKeeps | App.tsx:520 | a caller-supplied identifier, the family and the title are kept, and the history starts afresh |
| Inventory.SaveCreateKnownFamily | App.tsx:514-518 | without a caller-supplied identifier, the identifier is the one the form proposes for the first family with that id |
| Inventory.SaveCreateUnknownFamily | App.tsx:514-518 | with no family of that id, the identifier falls back to HARD and GEN |
| Inventory.SaveUserSpec | App.tsx:706-723 | every user entry with the saved id becomes the saved profile; each asset is refreshed as its holder rule says, and assets not holding the user are unchanged; the current and the selected user become the profile exactly when their id matches |
| Inventory.SaveUser | App.tsx:706-723 | the directory and the asset list keep their lengths and ids, and a saved profile whose id is listed is in the directory |
| Inventory.RefreshHolderSpec | App.tsx:710-718 | a licence listing the user keeps its assignee count and order, with exactly the entries of that id replaced; a hardware item held by that id gets the profile; no other field changes, and an asset not holding the user is unchanged |
| Inventory.SaveUserKeepsActiveUsers | App.tsx:710-718 | the active users of assets are not refreshed |
| Inventory.FamiliesWithCounts | App.tsx:951-957 | one row per family |
| Inventory.FamiliesWithCountsSpec | App.tsx:951-957 | the total is the family's instances; assigned plus available equals the total; available counts the unassigned instances |
| History.SingleAssigneeEntries | App.tsx:448-471 | at most one entry, about the asset and dated today, never a usage update |
| History.MultiAssigneeEntries | App.tsx:473-484 | at most one entry, a reassignment about the asset dated today |
| History.UsageChanges | App.tsx:486-505 | one clause when some user was added and one when some user was removed |
| History.UsageEntries | App.tsx:486-505 | at most one usage entry, about the asset |
| History.EditedAsset | App.tsx:507-511 | the saved copy is the edited asset with this edit's entries after its history, stamped by Admin; nothing else changes |
| History.SingleAssigneeRule | App.tsx:448-471 | equal ids record nothing; a previous assignee gives a reassignment to the new name or "Unassigned"; otherwise a first assignment |
| History.MultiAssigneeRule | App.tsx:473-484 | for plain ids an entry is recorded exactly when the assignee ids changed as a multiset and the new list is not empty |
| History.UsageRule | App.tsx:486-505 | for plain ids a usage entry is recorded exactly when the active ids changed as a multiset |
| History.EditKeepsHistory | App.tsx:442-511 | an edit appends exactly its entries after the kept history, at most three, each about the saved asset; only the single-assignee entry can be a first assignment |
| History.EditEntries | App.tsx:442-505 | an edit records at most three entries, each about the saved asset and dated today |
| History.EditRule | App.tsx:448-510 | the entries come in the order the handler pushes them: the single-assignee entry, then the licence entry, then the usage entry, which alone is a usage update |
| History.EditRuleCount | App.tsx:448-510 | for plain ids an edit records one entry per rule that fires: a changed single assignee, a changed non-empty licence list, changed active users |
| History.UnchangedAssignmentsAddNothing | App.tsx:442-511 | an edit with no assignment change leaves the history as it was |
| History.UsageChangesNameTheDifference | App.tsx:486-505 | the usage clauses name exactly the users who appeared or disappeared by id |
| History.CreationRule | App.tsx:522-545 | a new asset's history is one first assignment when it has an assignee, then one usage entry when it has active users, and nothing else |
| History.CreationEntries | App.tsx:522-545 | a new asset gets at most two entries, each about it and dated today, and never a reassignment |
| Requests.SubmitRequest | App.tsx:725-747 | the old requests are kept, with at most one request put before them |
| Requests.SubmitRequestSpec | App.tsx:725-747 | the added request is pending, unlinked, from the requester, for the first matching family, of the matching type |
| Requests.RequestAction | App.tsx:762-771 | the list keeps its length; approving changes no request; any other action opens no task dialog |
| Requests.RequestActionSpec | App.tsx:762-771 | a non-approving action sets the status of exactly the requests with that id; approving opens the task dialog exactly when such a request exists, for the first one |
| Requests.TaskSubmit | App.tsx:773-778 | the task goes first and the request list keeps its length |
| Requests.TaskSubmitSpec | App.tsx:773-778 | only the requests with the task's request id change: they become in progress and linked to the task |
| Requests.ApprovalLinksTask | App.tsx:757-778 | approving a request and then submitting its task puts every request with that id in progress, linked to the task |
| Requests.VisibleAssets | App.tsx:780-786 | never more assets than there are |
| Requests.VisibleAssetsSpec | App.tsx:780-786 | a signed-in non-administrator sees exactly the assets they hold as single assignee or in their assignee list, in order |
| Requests.GuestSeesUnassigned | App.tsx:782-784 | with nobody signed in, exactly the assets without a single assignee are shown |
| Requests.VisibleRequests | App.tsx:788-791 | never more requests than there are |
| Requests.VisibleRequestsSpec | App.tsx:788-791 | a non-administrator sees exactly the requests they submitted, in order |
| IdLayout.Sections | components/AdminDashboard.tsx:32 | a stored layout, even an empty one, wins; otherwise the four default sections |
| IdLayout.Separator | components/AdminDashboard.tsx:33 | the separator is never empty; a non-empty stored one is kept |
| IdLayout.Merge | components/AdminDashboard.tsx:37 | the id is kept; the caption takes the patch's caption when it carries one, else stays |
| IdLayout.UpdateSection | components/AdminDashboard.tsx:36-39 | the separator and the picklists are unchanged |
| IdLayout.UpdateSectionSpec | components/AdminDashboard.tsx:36-39 | the sections with that id, and only those, take the patch |
| IdLayout.EmptyPatchChangesNothing | components/AdminDashboard.tsx:36-39 | an update carrying nothing leaves every section as it was |
| IdLayout.UpdateSeparator | components/AdminDashboard.tsx:40-42 | the sections stay; a non-empty separator is taken, an empty one reads as "-" |
| IdLayout.AddSection | components/AdminDashboard.tsx:43-55 | the section list grows by one and keeps the old sections as a prefix |
| IdLayout.AddSectionSpec | components/AdminDashboard.tsx:43-55 | the new section goes last and is upper-cased; a static section has no length and the others have 4; only a sequence is zero-padded |
| IdLayout.RemoveSection | components/AdminDashboard.tsx:56-58 | there are never more sections than before |
| IdLayout.RemoveSectionSpec | components/AdminDashboard.tsx:56-58 | every other section is kept in order; removing an absent id changes nothing |
| IdLayout.MoveSection | components/AdminDashboard.tsx:59-66 | a move with no neighbour changes nothing; otherwise the list keeps its length |
| IdLayout.SwapPermutes | components/AdminDashboard.tsx:63 | exchanging two positions keeps every section as often as before |
| IdLayout.MoveSectionSpec | components/AdminDashboard.tsx:59-66 | a move is a permutation that exchanges the section with its neighbour and leaves every other position alone |
| IdLayout.MoveUpThenDown | components/AdminDashboard.tsx:59-66 | moving a section up and back down gives back the same sections |
| IdLayout.ResetToDefault | components/AdminDashboard.tsx:67-71 | a confirmed reset stores the default sections and "-"; an unconfirmed one changes nothing |
| IdLayout.Placeholders | components/AdminDashboard.tsx:72-80 | one placeholder per section: the static text, ATTR, 0012 or 2025 |
| IdLayout.FixedPlaceholdersAvoidSeparators | components/AdminDashboard.tsx:72-91 | no offered separator occurs in a placeholder other than a static value |
| IdLayout.PreviewSpec | components/AdminDashboard.tsx:72-81 | the preview's length is the placeholders' plus one separator between neighbours; cutting it at an offered separator no static value contains gives back the placeholders |
| IdLayout.Preview | components/AdminDashboard.tsx:72-81 | with at least one section the preview is as long as the placeholders plus one separator between neighbours |
| IdLayout.DefaultPreview | components/AdminDashboard.tsx:24-81 | the default layout previews as ATTR-ATTR-ATTR-0012 |
| IdLayout.AddItem | components/AdminDashboard.tsx:117-121 | the keys and all other lists stay; an existing list holds the item afterwards |
| IdLayout.AddItemSpec | components/AdminDashboard.tsx:117-121 | adding is the duplicate-free append: adding twice is adding once, and a duplicate-free list stays so |
| IdLayout.RemoveItem | components/AdminDashboard.tsx:122-126 | the keys and all other lists stay; an existing list holds no copy of the item afterwards |
| IdLayout.RemoveItemSpec | components/AdminDashboard.tsx:122-126 | the other entries are kept in order; removing undoes an add of an absent item |
| AssetForm.LayoutKeyInjective | components/AssetFormModal.tsx:168 | each mode and asset type selects its own layout |
| AssetForm.OpenTabs | components/AssetFormModal.tsx:169-171 | the chosen layout's tabs, or none when there is no layout; the first tab becomes active, and no tabs leave the active tab alone |
| AssetForm.NewFamilyDraft | components/AssetFormModal.tsx:173 | a new family draft has the type and its default model (Multiple for licences, Single for hardware) |
| AssetForm.OpenDraft | components/AssetFormModal.tsx:172-181 | the draft is the edited family or asset when there is one, else a new family or the next instance; in instance mode with neither it stays unset |
| AssetForm.NewInstanceDraft | components/AssetFormModal.tsx:176-181 | the proposed identifier is the one the application generates on save, the title is the family name and the unpadded number, the status is Available and the purchase date today; no assignee and no assignee list are set |
| AssetForm.NewInstanceDraftNumber | components/AssetFormModal.tsx:177-180 | for a dash-free product code, the proposed identifier reads back to the family's count plus one |
| AssetForm.MultiSelectTwice | components/AssetFormModal.tsx:111 | selecting an id twice keeps the ids duplicate-free and restores them as a multiset; the list is exact when the id was absent or last |
| AssetForm.SelectSingle | components/AssetFormModal.tsx:113 | selecting a chosen id empties the selection; otherwise the id alone is selected |
| AssetForm.SelectedUsers | components/AssetFormModal.tsx:117 | never more users than the directory holds |
| AssetForm.SelectedUsersSpec | components/AssetFormModal.tsx:117 | the selected users are exactly the directory entries with a selected id, in directory order |
| AssetForm.SelectionChange | components/AssetFormModal.tsx:188-193 | under Multiple the selected users become the assignees; under Single only the single assignee changes |
| AssetForm.SingleSelectionSpec | components/AssetFormModal.tsx:189-191 | under Single the assignee is the first selected directory entry, and nobody exactly when none is selected |
| AssetForm.PickerSelection | components/AssetFormModal.tsx:220 | the picker fails exactly for a licence without an assignee list; hardware shows its one assignee id, or none |
| AssetForm.PickerFailsOnNewLicence | components/AssetFormModal.tsx:220 | opening the dialog to add an instance of a licence family gives a draft whose picker fails |
| AssetForm.PickerFixedSpec | components/AssetFormModal.tsx:220 | reading a missing assignee list as empty agrees with the picker wherever it succeeds, never shows a blank id, and shows nothing for a new instance draft |
| AssetForm.PickerShowsChoice | components/AssetFormModal.tsx:188-191 | with the family's model the default for its type, choosing one user shows exactly that id in the corrected picker |
| AssetForm.PickerIgnoresFamilyModel | components/AssetFormModal.tsx:190-191 | for a licence family with the Single model, a choice is written to the single assignee while the picker keeps showing the list |
| ProfileForm.FromUser | components/EditProfileModal.tsx:53 | the form holds the user's sites and details |
| ProfileForm.Open | components/EditProfileModal.tsx:51-58 | opening on a user loads that user; otherwise the form stays |
| ProfileForm.Change | components/EditProfileModal.tsx:60-63 | the named input takes the value; every other input and the sites are unchanged |
| ProfileForm.SiteChange | components/EditProfileModal.tsx:65-71 | the site is present afterwards exactly when it was absent; an absent site is appended at the end, a present one is removed with the rest kept in order; other sites keep their counts |
| ProfileForm.SiteChangeTwice | components/EditProfileModal.tsx:65-71 | ticking a site twice restores the sites as a multiset, and exactly when the site was absent or last |
| ProfileForm.Overlay | components/EditProfileModal.tsx:80-82 | each input takes the form's value when it holds one, else the user's; id and role are the user's |
| ProfileForm.Submit | components/EditProfileModal.tsx:77-88 | nothing is saved without a user; otherwise the id and role are kept, the form overrides the fields it holds, the full name is the trimmed first and last name, and the edit is stamped by Admin |
| ProfileForm.SubmitUnchanged | components/EditProfileModal.tsx:77-88 | saving right after opening changes only the rebuilt full name and the stamp |
| ProfileForm.SubmitAfterChange | components/EditProfileModal.tsx:60-88 | typing one value and saving changes exactly that field; other inputs and the sites keep the user's values |
| ProfileForm.FullNameSpec | components/EditProfileModal.tsx:83 | the full name is both names joined by a space, the one present name, or empty |
| TaskForm.Open | components/TaskModal.tsx:20-33 | opening sets the due date and description and picks the first administrator when there is one; a closed dialog keeps its state |
| TaskForm.DescriptionLines | components/TaskModal.tsx:26 | the default description splits into exactly the item line and the requester line |
| TaskForm.Submit | components/TaskModal.tsx:35-52 | the task is for the request, titled "Fulfill: item", To Do, with the draft's priority, due date and description |
| TaskForm.SubmitAssignee | components/TaskModal.tsx:37 | the task is assigned exactly when some administrator has the chosen id, and then to the first one |
| TaskForm.OpenThenSubmit | components/TaskModal.tsx:20-52 | submitting straight after opening assigns the first administrator, with the default description |
| TaskForm.SubmittedTaskLinksRequest | App.tsx:773-778 | handing the task to the application lists it first and puts the request in progress, linked to it |
| DataImport.NumberOrZero | App.tsx:561 | a digit string reads as its value; anything else reads as 0 |
| DataImport.MaxNumericId | App.tsx:561 | the maximum bounds every user's numeric id and is 0 or attained |
| DataImport.RowIdFresh | App.tsx:561 | a row's id reads as the maximum plus its position plus one; it is no existing user's id, and other rows' ids differ |
| DataImport.RowUser | App.tsx:560-592 | the row's id reads as the maximum plus its position plus one; the name defaults to "Unknown", the e-mail is kept, the site list holds the location exactly when there is one, and job title and department are never blank |
| DataImport.RowUsers | App.tsx:560-594 | one user per row, in row order |
| DataImport.RowUserIdsFresh | App.tsx:560-561 | the imported ids are fresh against the directory and pairwise distinct |
| DataImport.ImportedNamesRecompose | App.tsx:564-565 | for a name without surrounding whitespace, first and last names rejoin (as the profile dialog does) to the full name |
| DataImport.ImportUsers | App.tsx:559-598 | the import succeeds exactly when every row has an e-mail, and then keeps the directory as a prefix |
| DataImport.ImportUsersSpec | App.tsx:595-597 | the appended users are exactly the row users whose lower-cased e-mail no existing user has, in row order |
| DataImport.MissingEmailAbortsImport | App.tsx:596 | one row without an e-mail makes the import fail, while the corrected import brings that row in |
| DataImport.ImportUsersFixed | App.tsx:595-597 | the corrected import keeps the directory as a prefix and adds at most one user per row |
| DataImport.ImportUsersFixedSpec | App.tsx:595-597 | the corrected import keeps rows without an e-mail, and agrees with the original when every e-mail is present and non-blank |
| DataImport.SheetPrefix | App.tsx:633 | a sheet's prefix is the one its asset type gets elsewhere |
| DataImport.FamilyFor | App.tsx:605-626 | the first matching family (same lower-cased name and type) is used; otherwise a new family with a three-letter code is appended, and no earlier family matched |
| DataImport.CreatedGrows | App.tsx:606-624 | families created by earlier rows stay as created, and so does a newly added one |
| DataImport.ImportRow | App.tsx:604-661 | a row's asset is the row's asset built from the first family matching the row, numbered as given, and carries the row's status, dates, cost, variant and holder |
| DataImport.RowAsset | App.tsx:627-660 | an asset from a matching family and numbered as given, with the row's status (Available by default), purchase date (today by default), cost and variant (Standard by default); it has a holder exactly when some user has the row's e-mail ignoring case, and then the list holds that user alone; without one the list is missing |
| DataImport.ImportedLicencePickerFails | App.tsx:627-660 | a licence imported without a matching holder has no assignee list, so the dialog's picker fails on it |
| DataImport.ImportAssets | App.tsx:599-666 | one asset per row, each from the first family matching its row and numbered from the global asset count plus its position, carrying the row's status, dates, cost, variant and holder; the old families are a prefix; every added family matched none before it |
| DataImport.ImportedIdsDistinct | App.tsx:633-636 | with dash-free family codes, assets numbered differently get different identifiers, even across families |

## Left out

- Rendering, navigation, styling, modal visibility flags and React's effect scheduling are
  not modelled. A memoised value is a function of its inputs, and an effect is a function
  from the previous state.
- Dashboard statistics, the global search box, vendors, JSON export and the image upload
  tab are outside the modelled core.
- Clock readings become parameters: the ISO timestamp, today's date, milliseconds and the
  locale date. The due date three days ahead (`TaskModal.tsx:22-25`) is a parameter of
  `TaskForm.Open`. Formatting dates for input fields in the asset dialog is left out.
- `Math.random()` avatar URLs and the constant user fields the import fills in are left
  out: organisation, user type, permission groups, the dates of joining and creation,
  and the like.
- The confirmation dialog of the ID-layout reset is a boolean parameter of
  `IdLayout.ResetToDefault`. The import's alerts are left out.
- Partial records are modelled only for the fields the handlers read. A patch field set
  to `undefined` is not modelled.
- Inventory.BulkCreate: bulk creation's `commonData` is a partial asset spread before the
  fixed fields, so it may carry any field those do not overwrite (assignees, active
  users, history, location and the rest). The model keeps only the purchase date and
  cost from it and drops every other field. A modelled bulk asset therefore has no
  assignee, no assignee list, no active users and an empty history.
- DataImport.NumberOrZero: models `Number(id) || 0` only for decimal digit strings. Any
  other text counts as 0, whereas JavaScript also reads hexadecimal, exponent and
  whitespace-padded text.
- DataImport.RowUsers: the import stores the new id as a JavaScript number. The model
  stores its decimal text.
- Numbers are integers. Costs and widths are not floating point, and sequence numbers
  are unbounded, so `padStart` never truncates.
- TableSettings.WidthChange: the width input passes `parseInt` of its text, and an emptied
  input gives NaN. The model takes an integer, so that edit is not modelled.
- TableSettings.OrderChange: the same holds for the order input. A NaN order makes the
  `a.order - b.order` comparators of the settings dialog and the table return NaN, which
  the sort reads as equal. That comparator is not a preorder, so after such an edit the
  order that TableSettings.Apply and TableSettings.ApplyToTable produce is unspecified.
  Their ordering promise holds only for integer orders.
- String order is modelled on characters. UTF-16 code-unit order, case folding beyond
  ASCII and Unicode whitespace are left out.
- The table's sort is a stable sort by a total preorder that agrees with JavaScript's
  `<` and `>` on numbers and strings. Comparisons across mixed kinds are not modelled as
  JavaScript performs them. The in-place mutation of the filtered array is not modelled.
- IdLayout.MoveSection: requires an index of a listed section, as the editor only calls it
  for rendered rows.
- AssetForm.MultiSelectTwice: selecting an id twice restores the selection only as a
  multiset. The list is restored exactly only when the id was absent or last; otherwise
  the id moves to the end.
- ProfileForm.SiteChangeTwice: the same caveat as AssetForm.MultiSelectTwice, for sites.
- AssetForm.PickerShowsChoice: stated for the corrected picker and only when the family's
  assignment model is the default for its type. No handler sets another model;
  AssetForm.PickerIgnoresFamilyModel shows what a licence family with the Single model
  would do.
- JsValues.Property: reads own properties only: object fields, and the length and indices
  of strings and arrays. Properties inherited from prototypes (methods such as `toString`)
  and properties of numbers and booleans read as `undefined`.
- An asset's missing `activeUsers` list is modelled as an empty one; no modelled path
  dereferences it without a fallback.
- That a submit calls `onCreateTask` exactly once is structural: `TaskForm.Submit`
  returns one task.
- The user import defaults a missing name to "Unknown" and fails on a missing e-mail; the
  model follows the code.

## Findings

| source | as written | input that shows it | evidently intended | confidence | as-written member | corrected member |
|---|---|---|---|---|---|---|
| components/AssetFormModal.tsx:220 | for a licence the picker calls `.filter` on `formData.assignedUsers?.map(...)`, which is `undefined` when the draft has no assignee list, so rendering throws a TypeError | opening "add instance" for a licence family: the new draft (lines 176-181) sets no `assignedUsers`; likewise editing a licence imported without a matching holder (App.tsx:658 stores `undefined`) | a missing assignee list shows as an empty selection | medium, not executed | AssetForm.PickerFailsOnNewLicence | AssetForm.PickerFixedSpec |
| App.tsx:596 | every new user's e-mail is lower-cased, so one row without an e-mail throws and aborts the whole user import | a sheet with one row `{fullName: "Ann Lee"}` and no e-mail column | rows without an e-mail are imported, with blank e-mails never counted as duplicates; imports never fail outright | medium, not executed | DataImport.MissingEmailAbortsImport | DataImport.ImportUsersFixedSpec |


=== FILE: assetform.dfy ===
/**
 * The asset and family dialog of components/AssetFormModal.tsx: the layout it picks,
 * the draft it starts from, and the user picker with the projection of its selection
 * onto the family's assignment model.
 */
module AssetForm {
  import opened Wrappers
  import opened Strings
  import opened Seqs
  import opened Entities
  import opened AssetIds

  datatype Mode = FamilyMode | InstanceMode

  // ---------------------------------------------------------------------------
  // layout and starting draft

  /** The key of the tab layout the dialog shows. */
  function LayoutKey(mode: Mode, t: AssetType): string {
    match (mode, t)
    case (FamilyMode, License) => "licenseFamily"
    case (FamilyMode, Hardware) => "hardwareFamily"
    case (InstanceMode, License) => "licenseInstance"
    case (InstanceMode, Hardware) => "hardwareInstance"
  }

  /** Each mode and type has a layout of its own. */
  lemma LayoutKeyInjective(m1: Mode, t1: AssetType, m2: Mode, t2: AssetType)
    requires LayoutKey(m1, t1) == LayoutKey(m2, t2)
    ensures m1 == m2 && t1 == t2
  {
  }

  /**
   * The tabs of the chosen layout, none when the configuration has no layout for the
   * key, and the tab made active: the first one, or no change when there are none.
   */
  function OpenTabs(layouts: map<string, seq<string>>, mode: Mode, t: AssetType): (r: (seq<string>, Option<string>))
    ensures LayoutKey(mode, t) !in layouts ==> r.0 == [] && r.1 == None
    ensures r.1.Some? <==> |r.0| > 0
    ensures r.1.Some? ==> r.1.value == r.0[0]
  {
    var key := LayoutKey(mode, t);
    var tabs := if key in layouts then layouts[key] else [];
    (tabs, if |tabs| > 0 then Some(tabs[0]) else None)
  }

  /** The assignment model a type gets when its family does not say. */
  function DefaultModel(t: AssetType): AssignmentModel {
    if t == License then Multiple else Single
  }

  /** A draft of a new family: only its type and default assignment model are filled in. */
  function NewFamilyDraft(t: AssetType): (f: Family)
    ensures f.assetType == t && f.assignmentModel == Some(DefaultModel(t))
    ensures f.id == "" && f.name == "" && f.productCode == ""
  {
    Family("", t, "", "", Some(DefaultModel(t)), "", "")
  }

  /**
   * The draft of the next instance of a family: it proposes exactly the identifier the
   * application generates when the instance is saved without one, titles the instance
   * with its number unpadded, is Available and dated today, and has no assignee and
   * no assignee list; fields the dialog leaves unset are blank.
   */
  function NewInstanceDraft(family: Family, allAssets: seq<Asset>, today: string): (d: Asset)
    ensures d.assetId == NextAssetId(allAssets, family)
    ensures d.title == family.name + " " + NatToString(FamilyCount(allAssets, family.id) + 1)
    ensures d.status == Available && d.familyId == family.id && d.assetType == family.assetType
    ensures d.purchaseDate == today && d.assignedUser.None? && d.assignedUsers.None?
  {
    var n := FamilyCount(allAssets, family.id) + 1;
    var code := SequenceCode(n);
    StripPaddedNumber(n, 4);
    Asset(
      id := "",
      assetId := FamilyPrefix(family.assetType) + "-" + CodeOf(family, "GEN") + "-" + code,
      familyId := family.id,
      title := family.name + " " + StripLeadingZeros(code),
      assetType := family.assetType,
      status := Available,
      variantType := "",
      purchaseDate := today,
      cost := 0,
      assignedUser := None,
      assignedUsers := None,
      activeUsers := [],
      history := [],
      created := "",
      createdBy := "",
      modified := "",
      modifiedBy := "")
  }

  datatype Draft = FamilyDraft(family: Family) | InstanceDraft(asset: Asset)

  /**
   * The draft the dialog starts from when it opens: the family or asset being edited,
   * else a new family or the next instance of the given family; with neither an asset
   * nor a family in instance mode the draft is left as it was (None).
   */
  function OpenDraft(mode: Mode, t: AssetType, family: Option<Family>, asset: Option<Asset>,
                     allAssets: seq<Asset>, today: string): (r: Option<Draft>)
    ensures mode == FamilyMode ==> r.Some? && r.value.FamilyDraft?
    ensures mode == InstanceMode ==> (r.Some? <==> asset.Some? || family.Some?)
    ensures mode == InstanceMode && asset.Some? ==> r == Some(InstanceDraft(asset.value))
  {
    match mode
    case FamilyMode => Some(FamilyDraft(family.GetOr(NewFamilyDraft(t))))
    case InstanceMode =>
      if asset.Some? then Some(InstanceDraft(asset.value))
      else if family.Some? then Some(InstanceDraft(NewInstanceDraft(family.value, allAssets, today)))
      else None
  }

  /** For a dash-free product code the proposed identifier reads back to the family's count plus one. */
  lemma NewInstanceDraftNumber(family: Family, allAssets: seq<Asset>, today: string)
    requires '-' !in family.productCode
    ensures ParseAssetId(NewInstanceDraft(family, allAssets, today).assetId)
      == Some(IdParts(FamilyPrefix(family.assetType), CodeOf(family, "GEN"), FamilyCount(allAssets, family.id) + 1))
  {
    AssetIdRoundTrip(FamilyPrefix(family.assetType), CodeOf(family, "GEN"), FamilyCount(allAssets, family.id) + 1);
  }

  // ---------------------------------------------------------------------------
  // the user picker

  /**
   * `handleSelect` of a multiple picker is `Toggle`: every copy of a selected id goes,
   * an unselected one is appended. Selecting twice gives back the same ids, and the
   * very same list when the id was not selected or was the last one; an id selected
   * once somewhere else moves to the end.
   */
  lemma MultiSelectTwice(ids: seq<string>, id: string)
    requires NoDuplicates(ids)
    ensures NoDuplicates(Toggle(ids, id))
    ensures multiset(Toggle(Toggle(ids, id), id)) == multiset(ids)
    ensures id !in ids ==> Toggle(Toggle(ids, id), id) == ids
    ensures |ids| > 0 && ids[|ids| - 1] == id ==> Toggle(Toggle(ids, id), id) == ids
    ensures id in ids ==> Toggle(Toggle(ids, id), id) == RemoveAll(ids, id) + [id]
  {
    ToggleNoDuplicates(ids, id);
    ToggleTwiceSameElements(ids, id);
    if id !in ids {
      ToggleTwiceAbsent(ids, id);
    } else {
      ToggleTwicePresent(ids, id);
      if ids[|ids| - 1] == id {
        ToggleTwiceLast(ids, id);
      }
    }
  }

  /** `handleSelect` of a single picker: deselect, or select only this id. */
  function SelectSingle(ids: seq<string>, id: string): (r: seq<string>)
    ensures |r| <= 1
    ensures r == [] <==> id in ids
    ensures r != [] ==> r == [id]
  {
    if id in ids then [] else [id]
  }

  function IdIn(ids: seq<string>): User -> bool {
    (u: User) => u.id in ids
  }

  /** `users.filter(u => ids.includes(u.id))`: the selected users, in directory order. */
  function SelectedUsers(allUsers: seq<User>, ids: seq<string>): (r: seq<User>)
    ensures |r| <= |allUsers|
  {
    Filter(allUsers, IdIn(ids))
  }

  /** The selected users are exactly the directory entries whose id is selected, in directory order. */
  lemma SelectedUsersSpec(allUsers: seq<User>, ids: seq<string>, u: User)
    ensures u in SelectedUsers(allUsers, ids) <==> u in allUsers && u.id in ids
    ensures SubsequenceOf(SelectedUsers(allUsers, ids), allUsers)
  {
    FilterMembership(allUsers, IdIn(ids), u);
    FilterIsSubsequence(allUsers, IdIn(ids));
  }

  /** `family?.assignmentModel || default`: the model the selection is written into. */
  function EffectiveModel(family: Option<Family>, t: AssetType): AssignmentModel {
    if family.Some? && family.value.assignmentModel.Some? then family.value.assignmentModel.value else DefaultModel(t)
  }

  /**
   * `handleUserSelectionChange`: under the Multiple model the selected users become the
   * assignees; under Single the first of them becomes the assignee, or nobody.
   */
  function SelectionChange(d: Asset, allUsers: seq<User>, ids: seq<string>, family: Option<Family>, t: AssetType): (r: Asset)
    ensures EffectiveModel(family, t) == Multiple ==> r == d.(assignedUsers := Some(SelectedUsers(allUsers, ids)))
    ensures EffectiveModel(family, t) == Single ==> r.assignedUsers == d.assignedUsers
    ensures EffectiveModel(family, t) == Single ==> r == d.(assignedUser := r.assignedUser)
  {
    var selected := SelectedUsers(allUsers, ids);
    if EffectiveModel(family, t) == Multiple then d.(assignedUsers := Some(selected))
    else d.(assignedUser := if |selected| > 0 then Some(selected[0]) else None)
  }

  /**
   * Under Single the assignee is the first directory entry among the selected ones, and
   * nobody exactly when no directory entry is selected.
   */
  lemma SingleSelectionSpec(d: Asset, allUsers: seq<User>, ids: seq<string>, family: Option<Family>, t: AssetType)
    requires EffectiveModel(family, t) == Single
    ensures var r := SelectionChange(d, allUsers, ids, family, t);
      (r.assignedUser.None? <==> forall i :: 0 <= i < |allUsers| ==> allUsers[i].id !in ids)
      && (r.assignedUser.Some? ==> exists i :: 0 <= i < |allUsers| && allUsers[i] == r.assignedUser.value && allUsers[i].id in ids
                                              && forall j :: 0 <= j < i ==> allUsers[j].id !in ids)
  {
    var selected := SelectedUsers(allUsers, ids);
    FirstOfFilter(allUsers, IdIn(ids));
  }

  /** The first element a filter keeps is the first element of the sequence that passes. */
  lemma {:induction false} FirstOfFilter(s: seq<User>, p: User -> bool)
    ensures |Filter(s, p)| == 0 <==> forall i :: 0 <= i < |s| ==> !p(s[i])
    ensures |Filter(s, p)| > 0 ==>
      exists i :: 0 <= i < |s| && s[i] == Filter(s, p)[0] && p(s[i]) && forall j :: 0 <= j < i ==> !p(s[j])
    decreases |s|
  {
    if |s| > 0 {
      FirstOfFilter(s[1..], p);
      assert forall i :: 0 < i < |s| ==> s[i] == s[1..][i - 1];
      if !p(s[0]) && |Filter(s[1..], p)| > 0 {
        var i :| 0 <= i < |s[1..]| && s[1..][i] == Filter(s[1..], p)[0] && p(s[1..][i])
          && forall j :: 0 <= j < i ==> !p(s[1..][j]);
        assert s[i + 1] == Filter(s, p)[0];
      }
    }
  }

  /** The non-empty ids, as `.filter(Boolean)` keeps them. */
  function NonEmpty(): string -> bool {
    (id: string) => id != ""
  }

  /** `[formData.assignedUser?.id].filter(Boolean)`: the single assignee's id, if any. */
  function SingleShown(d: Asset): seq<string> {
    Filter(if d.assignedUser.Some? then [d.assignedUser.value.id] else [], NonEmpty())
  }

  /**
   * The picker's selection as written: a licence maps its assignee list to ids and
   * filters them, and a missing list makes `.filter` throw; hardware shows its single
   * assignee. The field is chosen by the asset type, whatever the family's model.
   */
  function PickerSelection(d: Asset, t: AssetType): (r: Result<seq<string>>)
    ensures r.Err? <==> t == License && d.assignedUsers.None?
    ensures t == Hardware ==> r == Ok(SingleShown(d))
  {
    if t == License then
      match d.assignedUsers
      case None => Err("TypeError: cannot read properties of undefined (reading 'filter')")
      case Some(us) => Ok(Filter(UserIds(us), NonEmpty()))
    else Ok(SingleShown(d))
  }

  /**
   * Opening the dialog to add an instance of a licence family gives a draft without an
   * assignee list, so the licence picker throws as soon as it is shown.
   */
  lemma PickerFailsOnNewLicence(family: Family, allAssets: seq<Asset>, today: string)
    requires family.assetType == License
    ensures var d := OpenDraft(InstanceMode, License, Some(family), None, allAssets, today);
      d.Some? && d.value.InstanceDraft? && PickerSelection(d.value.asset, License).Err?
  {
  }

  /** The picker's selection with a missing assignee list read as an empty one. */
  function PickerSelectionFixed(d: Asset, t: AssetType): seq<string> {
    if t == License then Filter(UserIds(Holders(d)), NonEmpty()) else SingleShown(d)
  }

  /**
   * The corrected picker never fails, agrees with the picker as written wherever that
   * one does not throw, holds only non-empty ids, and shows nothing selected on a new
   * instance draft.
   */
  lemma PickerFixedSpec(d: Asset, t: AssetType, family: Family, allAssets: seq<Asset>, today: string)
    ensures PickerSelection(d, t).Ok? ==> PickerSelection(d, t).value == PickerSelectionFixed(d, t)
    ensures "" !in PickerSelectionFixed(d, t)
    ensures PickerSelectionFixed(NewInstanceDraft(family, allAssets, today), t) == []
  {
    var ids := if t == License then UserIds(Holders(d)) else if d.assignedUser.Some? then [d.assignedUser.value.id] else [];
    FilterMembership(ids, NonEmpty(), "");
  }

  /**
   * With the family's model the type's default, choosing one existing user shows
   * exactly that user's id as selected in the corrected picker, for either type.
   */
  lemma PickerShowsChoice(d: Asset, allUsers: seq<User>, id: string, family: Option<Family>, t: AssetType, x: string)
    requires id != "" && HasUserId(allUsers, id)
    requires EffectiveModel(family, t) == DefaultModel(t)
    ensures var r := SelectionChange(d, allUsers, [id], family, t);
      x in PickerSelectionFixed(r, t) <==> x == id
  {
    var r := SelectionChange(d, allUsers, [id], family, t);
    var selected := SelectedUsers(allUsers, [id]);
    var i :| 0 <= i < |allUsers| && allUsers[i].id == id;
    SelectedUsersSpec(allUsers, [id], allUsers[i]);
    assert |selected| > 0;
    var ids := if t == License then UserIds(Holders(r))
               else if r.assignedUser.Some? then [r.assignedUser.value.id] else [];
    FilterMembership(ids, NonEmpty(), x);
    if t == License {
      assert Holders(r) == selected;
      if x == id {
        assert UserIds(selected)[IndexIn(selected, allUsers[i])] == id;
      } else if x in ids {
        var k :| 0 <= k < |ids| && ids[k] == x;
        SelectedUsersSpec(allUsers, [id], selected[k]);
      }
    } else {
      SelectedUsersSpec(allUsers, [id], selected[0]);
      assert selected[0] in selected;
    }
  }

  /**
   * The picker chooses its field by the asset type, the selection handler by the
   * family's model: for a licence family whose model is Single, choosing a user writes
   * the single assignee and leaves the selection the picker shows as it was.
   */
  lemma PickerIgnoresFamilyModel(d: Asset, u: User, family: Family)
    requires family.assetType == License && family.assignmentModel == Some(Single)
    ensures var r := SelectionChange(d, [u], [u.id], Some(family), License);
      r.assignedUser == Some(u) && PickerSelectionFixed(r, License) == PickerSelectionFixed(d, License)
  {
    assert SelectedUsers([u], [u.id]) == [u];
  }

  /** A position of an element of a sequence. */
  function IndexIn(s: seq<User>, u: User): (k: nat)
    requires u in s
    ensures k < |s| && s[k] == u
  {
    if s[0] == u then 0 else 1 + IndexIn(s[1..], u)
  }
}

=== FILE: assetids.dfy ===
/**
 * Asset identifiers of the form PREFIX-CODE-NNNN (App.tsx, components/AssetFormModal.tsx):
 * SOFT for licences and HARD for hardware, the family's product code (or a fallback),
 * and a sequence number zero-padded to at least four digits.
 */
module AssetIds {
  import opened Wrappers
  import opened Strings
  import opened Seqs
  import opened Entities

  function FamilyPrefix(t: AssetType): (r: string)
    ensures r == "SOFT" <==> t == License
    ensures r == "HARD" <==> t == Hardware
  {
    match t
    case License => "SOFT"
    case Hardware => "HARD"
  }

  /** `String(n).padStart(4, '0')`: never truncated, so numbers above 9999 take five digits or more. */
  function SequenceCode(n: nat): (r: string)
    ensures AllDigits(r)
    ensures |r| == if |NatToString(n)| >= 4 then |NatToString(n)| else 4
    ensures r[|r| - |NatToString(n)|..] == NatToString(n)
  {
    var digits := NatToString(n);
    var r := PadStart(digits, 4, '0');
    assert r == Repeat('0', |r| - |digits|) + digits;
    ParseLeadingZeros(|r| - |digits|, digits);
    r
  }

  /** The sequence number can be read back from its code. */
  lemma SequenceCodeRoundTrip(n: nat)
    ensures ParseDigits(SequenceCode(n)) == n
  {
    var digits := NatToString(n);
    var r := SequenceCode(n);
    assert r == Repeat('0', |r| - |digits|) + digits;
    ParseLeadingZeros(|r| - |digits|, digits);
    ParseNatToString(n);
  }

  lemma SequenceCodeInjective(a: nat, b: nat)
    requires SequenceCode(a) == SequenceCode(b)
    ensures a == b
  {
    SequenceCodeRoundTrip(a);
    SequenceCodeRoundTrip(b);
  }

  /** `${prefix}-${code}-${sequenceNumber}`. */
  function ComposeAssetId(prefix: string, code: string, n: nat): string {
    prefix + "-" + code + "-" + SequenceCode(n)
  }

  datatype IdParts = IdParts(prefix: string, code: string, sequence: nat)

  /** Reads an identifier back into its three parts, when it has that shape. */
  function ParseAssetId(id: string): Option<IdParts> {
    var parts := Split(id, '-');
    if |parts| == 3 && |parts[2]| > 0 && AllDigits(parts[2]) then
      Some(IdParts(parts[0], parts[1], ParseDigits(parts[2])))
    else None
  }

  /** An identifier built from a dash-free prefix and code reads back into the same parts. */
  lemma {:induction false} AssetIdRoundTrip(prefix: string, code: string, n: nat)
    requires '-' !in prefix && '-' !in code
    ensures ParseAssetId(ComposeAssetId(prefix, code, n)) == Some(IdParts(prefix, code, n))
  {
    var s := SequenceCode(n);
    assert '-' !in s by {
      forall k | 0 <= k < |s|
        ensures s[k] != '-'
      {
        assert IsDigit(s[k]);
      }
    }
    var parts := [prefix, code, s];
    assert Join(parts, "-") == prefix + "-" + Join([code, s], "-");
    assert Join([code, s], "-") == code + "-" + Join([s], "-");
    assert ComposeAssetId(prefix, code, n) == Join(parts, "-");
    SplitJoin(parts, '-');
    SequenceCodeRoundTrip(n);
  }

  /** Two identifiers with the same dash-free prefix and code differ when their numbers do. */
  lemma AssetIdInjective(prefix: string, code: string, a: nat, b: nat)
    requires '-' !in prefix && '-' !in code
    requires ComposeAssetId(prefix, code, a) == ComposeAssetId(prefix, code, b)
    ensures a == b
  {
    AssetIdRoundTrip(prefix, code, a);
    AssetIdRoundTrip(prefix, code, b);
  }

  function InFamily(familyId: string): Asset -> bool {
    (a: Asset) => a.familyId == familyId
  }

  /** `assets.filter(a => a.familyId === familyId).length`. */
  function FamilyCount(assets: seq<Asset>, familyId: string): (n: nat)
    ensures n <= |assets|
  {
    |Filter(assets, InFamily(familyId))|
  }

  lemma {:induction false} FamilyCountAppend(a: seq<Asset>, b: seq<Asset>, familyId: string)
    ensures FamilyCount(a + b, familyId) == FamilyCount(a, familyId) + FamilyCount(b, familyId)
  {
    FilterAppend(a, b, InFamily(familyId));
  }

  /** The code part: the family's product code, or `fallback` when it has none. */
  function CodeOf(family: Family, fallback: string): (r: string)
    ensures family.productCode != "" ==> r == family.productCode
    ensures family.productCode == "" ==> r == fallback
  {
    OrElse(family.productCode, fallback)
  }

  /** The identifier the next instance of a family gets: its family count plus one. */
  function NextAssetId(assets: seq<Asset>, family: Family): string {
    ComposeAssetId(FamilyPrefix(family.assetType), CodeOf(family, "GEN"), FamilyCount(assets, family.id) + 1)
  }

  /** `name.substring(0, n).toUpperCase()`: the product code made from a family name. */
  function ProductCode(name: string, n: nat): (r: string)
    ensures |r| == if |name| < n then |name| else n
    ensures forall k :: 0 <= k < |r| ==> !IsLower(r[k])
    ensures r == ToUpper(name)[..|r|]
  {
    var p := Prefix(name, n);
    assert forall k :: 0 <= k < |p| ==> p[k] == name[k];
    ToUpper(p)
  }
}

=== FILE: dataimport.dfy ===
/**
 * The sheet import of App.tsx (`handleDataImport`): user rows appended with fresh
 * numeric ids unless their e-mail is already known, and asset rows attached to a
 * family found by name or created for them, numbered from the global asset count.
 */
module DataImport {
  import opened Wrappers
  import opened Strings
  import opened Seqs
  import opened Entities
  import opened AssetIds
  import ProfileForm
  import AssetForm

  // ---------------------------------------------------------------------------
  // users

  /** One row of a user sheet; an empty cell is "", a missing e-mail cell is None. */
  datatype UserRow = UserRow(
    fullName: string,
    email: Option<string>,
    jobTitle: string,
    department: string,
    businessPhone: string,
    location: string)

  /** `Number(id) || 0` for the decimal ids the model reads; any other text counts as 0. */
  function NumberOrZero(id: string): (n: nat)
    ensures id != "" && AllDigits(id) ==> n == ParseDigits(id)
  {
    if id != "" && AllDigits(id) then ParseDigits(id) else 0
  }

  /** `Math.max(...users.map(u => Number(u.id) || 0), 0)`. */
  function MaxNumericId(users: seq<User>): (m: nat)
    ensures forall i :: 0 <= i < |users| ==> NumberOrZero(users[i].id) <= m
    ensures m == 0 || exists i :: 0 <= i < |users| && NumberOrZero(users[i].id) == m
  {
    if |users| == 0 then 0
    else
      var rest := MaxNumericId(users[1..]);
      var n := NumberOrZero(users[0].id);
      if n >= rest then n else rest
  }

  /** `fullName?.split(' ')[0] || ''`. */
  function FirstWord(fullName: string): string {
    Split(fullName, ' ')[0]
  }

  /** `fullName?.split(' ').slice(1).join(' ') || ''`. */
  function OtherWords(fullName: string): string {
    Join(Split(fullName, ' ')[1..], " ")
  }

  /** The id the `index`-th row gets: counting on from the largest numeric id. */
  function RowId(users: seq<User>, index: nat): string {
    NatToString(MaxNumericId(users) + index + 1)
  }

  lemma RowIdFresh(users: seq<User>, i: nat, j: nat)
    ensures NumberOrZero(RowId(users, i)) == MaxNumericId(users) + i + 1
    ensures forall k :: 0 <= k < |users| ==> RowId(users, i) != users[k].id
    ensures i != j ==> RowId(users, i) != RowId(users, j)
  {
    RowIdValue(users, i);
    RowIdValue(users, j);
    RowIdAboveExisting(users, i);
  }

  lemma RowIdValue(users: seq<User>, i: nat)
    ensures NumberOrZero(RowId(users, i)) == MaxNumericId(users) + i + 1
  {
    NumberOrZeroOfNat(MaxNumericId(users) + i + 1);
  }

  lemma RowIdAboveExisting(users: seq<User>, i: nat)
    requires NumberOrZero(RowId(users, i)) == MaxNumericId(users) + i + 1
    ensures forall k :: 0 <= k < |users| ==> RowId(users, i) != users[k].id
  {
    forall k | 0 <= k < |users|
      ensures RowId(users, i) != users[k].id
    {
      assert NumberOrZero(users[k].id) <= MaxNumericId(users);
    }
  }

  /** The decimal text of a number reads back as that number. */
  lemma NumberOrZeroOfNat(n: nat)
    ensures NumberOrZero(NatToString(n)) == n
  {
    ParseNatToString(n);
  }


  /** The user the `index`-th row becomes, before the e-mail check. */
  /**
   * The user a row becomes: numbered one past the largest numeric id plus its position,
   * named "Unknown" when the name cell is empty, a member stamped by the import, with
   * the location as its only site and its address, and a job title and department that
   * are never blank.
   */
  function RowUser(users: seq<User>, row: UserRow, index: nat, clock: Clock): (r: User)
    ensures NumberOrZero(r.id) == MaxNumericId(users) + index + 1
    ensures row.fullName != "" ==> r.fullName == row.fullName
    ensures row.fullName == "" ==> r.fullName == "Unknown"
    ensures row.email.Some? ==> r.email == row.email.value
    ensures r.role == Member && r.modifiedBy == "Import" && r.modifiedDate == clock.iso
    ensures (r.site == [] <==> row.location == "") && (row.location != "" ==> r.site == [row.location])
    ensures Address in r.details && r.details[Address] == row.location
    ensures JobTitle in r.details && r.details[JobTitle] != "" && Department in r.details && r.details[Department] != ""
  {
    RowIdValue(users, index);
    User(
      id := RowId(users, index),
      fullName := OrElse(row.fullName, "Unknown"),
      firstName := FirstWord(row.fullName),
      lastName := OtherWords(row.fullName),
      email := row.email.GetOr(""),
      role := Member,
      site := if row.location != "" then [row.location] else [],
      details := map[
        JobTitle := OrElse(row.jobTitle, "Staff"),
        Department := OrElse(row.department, "General"),
        BusinessPhone := row.businessPhone,
        MobileNo := "",
        Address := row.location,
        City := "",
        Linkedin := "",
        Twitter := ""],
      modifiedDate := clock.iso,
      modifiedBy := "Import")
  }

  /** Every row as a user, in sheet order. */
  function RowUsers(users: seq<User>, rows: seq<UserRow>, clock: Clock): (r: seq<User>)
    ensures |r| == |rows|
    ensures forall i :: 0 <= i < |rows| ==> r[i] == RowUser(users, rows[i], i, clock)
  {
    seq(|rows|, i requires 0 <= i < |rows| => RowUser(users, rows[i], i, clock))
  }

  /** Some existing user has this e-mail, compared lower-cased. */
  predicate HasEmail(users: seq<User>, key: string) {
    exists i :: 0 <= i < |users| && ToLower(users[i].email) == key
  }

  /** The test of the import filter: the user's lower-cased e-mail is not an existing one. */
  function NewEmail(users: seq<User>): User -> bool {
    (u: User) => !HasEmail(users, ToLower(u.email))
  }

  /**
   * The user import as written: `u.email.toLowerCase()` throws on a row without an
   * e-mail, which aborts the whole import; otherwise the rows whose e-mail is not
   * already known are appended.
   */
  function ImportUsers(users: seq<User>, rows: seq<UserRow>, clock: Clock): (r: Result<seq<User>>)
    ensures r.Ok? <==> forall i :: 0 <= i < |rows| ==> rows[i].email.Some?
    ensures r.Ok? ==> users <= r.value && |r.value| <= |users| + |rows|
  {
    if exists i :: 0 <= i < |rows| && rows[i].email.None? then Err("TypeError: email is undefined")
    else Ok(users + Filter(RowUsers(users, rows, clock), NewEmail(users)))
  }

  /**
   * When every row has an e-mail, the appended users are exactly the row users whose
   * lower-cased e-mail no existing user has, in sheet order. Rows repeating a new
   * e-mail among themselves are all kept: only existing users are compared against.
   */
  lemma ImportUsersSpec(users: seq<User>, rows: seq<UserRow>, clock: Clock, u: User)
    requires forall i :: 0 <= i < |rows| ==> rows[i].email.Some?
    ensures var added := ImportUsers(users, rows, clock).value[|users|..];
      (u in added <==> u in RowUsers(users, rows, clock) && !HasEmail(users, ToLower(u.email)))
      && SubsequenceOf(added, RowUsers(users, rows, clock))
  {
    var r := ImportUsers(users, rows, clock).value;
    assert r[|users|..] == Filter(RowUsers(users, rows, clock), NewEmail(users));
    FilterMembership(RowUsers(users, rows, clock), NewEmail(users), u);
    FilterIsSubsequence(RowUsers(users, rows, clock), NewEmail(users));
  }

  /** Distinct numbers print as distinct decimal texts. */
  lemma NatToStringInjective(a: nat, b: nat)
    requires NatToString(a) == NatToString(b)
    ensures a == b
  {
    ParseNatToString(a);
    ParseNatToString(b);
  }

  /**
   * Every row user's id is the number after the largest numeric id so far, shifted by
   * its row: so it is no existing user's id, and no two rows share one.
   */
  lemma RowUserIdsFresh(users: seq<User>, rows: seq<UserRow>, clock: Clock, i: nat, j: nat)
    requires i < |rows| && j < |rows|
    ensures var r := RowUsers(users, rows, clock);
      NumberOrZero(r[i].id) == MaxNumericId(users) + i + 1
      && (forall k :: 0 <= k < |users| ==> r[i].id != users[k].id)
      && (i != j ==> r[i].id != r[j].id)
  {
    var r := RowUsers(users, rows, clock);
    assert r[i].id == RowId(users, i) && r[j].id == RowId(users, j);
    RowIdFresh(users, i, j);
  }

  /**
   * The names the import splits a full name into compose back to it the way the
   * profile dialog composes a full name, whenever the full name has no surrounding
   * whitespace.
   */
  lemma ImportedNamesRecompose(fullName: string)
    requires fullName != "" ==> !IsWhitespace(fullName[0]) && !IsWhitespace(fullName[|fullName| - 1])
    ensures Trim(FirstWord(fullName) + " " + OtherWords(fullName)) == fullName
    ensures ' ' in fullName ==> FirstWord(fullName) + " " + OtherWords(fullName) == fullName
  {
    var parts := Split(fullName, ' ');
    JoinSplit(fullName, ' ');
    assert Join(parts, " ") == fullName;
    if |parts| == 1 {
      assert OtherWords(fullName) == "";
      assert FirstWord(fullName) == fullName;
      ProfileForm.FullNameSpec(fullName, "");
    } else {
      assert FirstWord(fullName) + " " + OtherWords(fullName) == fullName;
      TrimNoop(fullName);
    }
  }

  /** The test the corrected import applies: a blank e-mail is never a duplicate. */
  function NewOrBlankEmail(users: seq<User>): User -> bool {
    (u: User) => u.email == "" || !HasEmail(users, ToLower(u.email))
  }

  /** The user import with the e-mail optional: a row without one is imported rather than aborting the batch. */
  function ImportUsersFixed(users: seq<User>, rows: seq<UserRow>, clock: Clock): (r: seq<User>)
    ensures users <= r && |r| <= |users| + |rows|
  {
    users + Filter(RowUsers(users, rows, clock), NewOrBlankEmail(users))
  }

  /**
   * As written, a sheet with one row lacking an e-mail imports nothing at all, while
   * the corrected import brings that row's user in.
   */
  lemma MissingEmailAbortsImport(users: seq<User>, clock: Clock)
    ensures ImportUsers(users, [UserRow("Ann Lee", None, "", "", "", "")], clock).Err?
    ensures RowUser(users, UserRow("Ann Lee", None, "", "", "", ""), 0, clock)
      in ImportUsersFixed(users, [UserRow("Ann Lee", None, "", "", "", "")], clock)
  {
    var row := UserRow("Ann Lee", None, "", "", "", "");
    var u := RowUser(users, row, 0, clock);
    assert RowUsers(users, [row], clock) == [u];
    FilterMembership([u], NewOrBlankEmail(users), u);
  }

  /**
   * The corrected import never fails, imports every row without an e-mail, and on a
   * sheet whose rows all carry a non-blank e-mail it does exactly what the import as
   * written does.
   */
  lemma ImportUsersFixedSpec(users: seq<User>, rows: seq<UserRow>, clock: Clock, i: nat)
    requires i < |rows|
    ensures rows[i].email.None? ==> RowUsers(users, rows, clock)[i] in ImportUsersFixed(users, rows, clock)
    ensures (forall k :: 0 <= k < |rows| ==> rows[k].email.Some? && rows[k].email.value != "") ==>
      ImportUsers(users, rows, clock) == Ok(ImportUsersFixed(users, rows, clock))
  {
    var all := RowUsers(users, rows, clock);
    FilterMembership(all, NewOrBlankEmail(users), all[i]);
    if forall k :: 0 <= k < |rows| ==> rows[k].email.Some? && rows[k].email.value != "" {
      forall x | x in all
        ensures NewEmail(users)(x) == NewOrBlankEmail(users)(x)
      {
        var k :| 0 <= k < |all| && all[k] == x;
        assert x.email == rows[k].email.value;
      }
      FilterExtensional(all, NewEmail(users), NewOrBlankEmail(users));
    }
  }

  // ---------------------------------------------------------------------------
  // assets

  datatype SheetKind = HardwareSheet | LicenseSheet

  function SheetType(k: SheetKind): AssetType {
    if k == HardwareSheet then Hardware else License
  }

  /** The identifier prefix of a sheet: the one its asset type gets everywhere else. */
  function SheetPrefix(k: SheetKind): (r: string)
    ensures r == FamilyPrefix(SheetType(k))
  {
    if k == HardwareSheet then "HARD" else "SOFT"
  }

  /** One row of an asset sheet; an empty cell is "". */
  datatype AssetRow = AssetRow(
    familyName: string,
    title: string,
    assignedUserEmail: string,
    status: Option<AssetStatus>,
    purchaseDate: string,
    cost: int,
    variantType: string)

  /** The family a row names, or the sheet's catch-all family. */
  function RowFamilyName(row: AssetRow, k: SheetKind): string {
    OrElse(row.familyName, if k == HardwareSheet then "Imported Hardware" else "Imported Software")
  }

  /** A family with this name, compared lower-cased, and of this type. */
  function SameFamily(name: string, t: AssetType): Family -> bool {
    (f: Family) => ToLower(f.name) == ToLower(name) && f.assetType == t
  }

  /** The family an unmatched row creates: a three-letter code from its name. */
  function ImportedFamily(name: string, k: SheetKind, index: nat, clock: Clock): Family {
    Family(
      id := "fam-imp-" + NatToString(clock.millis) + "-" + NatToString(index),
      assetType := SheetType(k),
      name := name,
      productCode := ProductCode(name, 3),
      assignmentModel := Some(if k == HardwareSheet then Single else Multiple),
      createdDate := clock.iso,
      lastModifiedDate := clock.iso)
  }

  function EmailIs(email: string): User -> bool {
    (u: User) => ToLower(u.email) == ToLower(email)
  }

  /** Position `j` holds the first family of the list matching the row's family name and the sheet's type. */
  predicate FirstMatchAt(fams: seq<Family>, j: nat, row: AssetRow, k: SheetKind) {
    j < |fams| && SameFamily(RowFamilyName(row, k), SheetType(k))(fams[j])
    && forall m :: 0 <= m < j ==> !SameFamily(RowFamilyName(row, k), SheetType(k))(fams[m])
  }

  /** The family of a row: the first one matching by name and type, else a new one appended. */
  function FamilyFor(families: seq<Family>, row: AssetRow, index: nat, k: SheetKind, clock: Clock): (r: (seq<Family>, Family))
    ensures families <= r.0 && |r.0| <= |families| + 1
    ensures r.1 in r.0 && SameFamily(RowFamilyName(row, k), SheetType(k))(r.1)
    ensures exists j: nat :: FirstMatchAt(r.0, j, row, k) && r.1 == r.0[j]
    ensures |r.0| == |families| ==>
      exists j: nat :: j < |families| && FirstMatchAt(families, j, row, k) && r.1 == families[j]
    ensures |r.0| == |families| + 1 ==>
      r.1 == r.0[|families|] && r.1.productCode == ProductCode(r.1.name, 3)
      && forall m :: 0 <= m < |families| ==> !SameFamily(RowFamilyName(row, k), SheetType(k))(families[m])
  {
    var name := RowFamilyName(row, k);
    match Find(families, SameFamily(name, SheetType(k)))
    case Some(f) => (families, f)
    case None =>
      var f := ImportedFamily(name, k, index, clock);
      assert FirstMatchAt(families + [f], |families|, row, k);
      (families + [f], f)
  }

  /**
   * The fields `a` takes from `row` whatever its family: the status (Available by
   * default), the purchase date (today by default), the cost, the variant (Standard by
   * default), and the holder, the first user whose e-mail matches the row's ignoring
   * case, which is also the whole assignee list; without one there is neither.
   */
  predicate CarriesRow(a: Asset, users: seq<User>, row: AssetRow, clock: Clock) {
    a.status == row.status.GetOr(Available)
    && a.purchaseDate == OrElse(row.purchaseDate, clock.today)
    && a.cost == row.cost && a.variantType == OrElse(row.variantType, "Standard")
    && a.createdBy == "Import" && a.modifiedBy == "Import"
    && (a.assignedUsers.Some? <==> a.assignedUser.Some?)
    && (a.assignedUser.Some? ==>
          a.assignedUsers == Some([a.assignedUser.value]) && a.assignedUser.value in users
          && ToLower(a.assignedUser.value.email) == ToLower(row.assignedUserEmail))
    && (a.assignedUser.None? <==>
          row.assignedUserEmail == "" || forall i :: 0 <= i < |users| ==> ToLower(users[i].email) != ToLower(row.assignedUserEmail))
  }

  /**
   * The asset a row becomes, numbered `n`: the global count of assets before it plus
   * one, whatever its family.
   */
  function RowAsset(family: Family, users: seq<User>, row: AssetRow, index: nat, n: nat, k: SheetKind, clock: Clock): (r: Asset)
    ensures SameFamily(RowFamilyName(row, k), SheetType(k))(family) ==> ImportedFrom(r, family, row, n, k)
    ensures r.assignedUsers.Some? <==> r.assignedUser.Some?
    ensures r.assignedUser.Some? ==>
      r.assignedUsers == Some([r.assignedUser.value]) && r.assignedUser.value in users
      && ToLower(r.assignedUser.value.email) == ToLower(row.assignedUserEmail)
    ensures r.assignedUser.None? <==>
      row.assignedUserEmail == "" || forall i :: 0 <= i < |users| ==> ToLower(users[i].email) != ToLower(row.assignedUserEmail)
    ensures r.status == row.status.GetOr(Available) && r.createdBy == "Import" && r.modifiedBy == "Import"
    ensures CarriesRow(r, users, row, clock)
  {
    var holder := if row.assignedUserEmail != "" then Find(users, EmailIs(row.assignedUserEmail)) else None;
    Asset(
      id := "inst-imp-" + NatToString(clock.millis) + "-" + NatToString(index),
      assetId := ComposeAssetId(SheetPrefix(k), CodeOf(family, "IMP"), n),
      familyId := family.id,
      title := OrElse(row.title, family.name + " " + SequenceCode(n)),
      assetType := SheetType(k),
      status := row.status.GetOr(Available),
      variantType := OrElse(row.variantType, "Standard"),
      purchaseDate := OrElse(row.purchaseDate, clock.today),
      cost := row.cost,
      assignedUser := holder,
      assignedUsers := if holder.Some? then Some([holder.value]) else None,
      activeUsers := [],
      history := [],
      created := clock.iso,
      createdBy := "Import",
      modified := clock.iso,
      modifiedBy := "Import")
  }

  /**
   * A licence row whose holder is not found is stored without an assignee list, so
   * opening it in the asset dialog makes the licence picker throw.
   */
  lemma ImportedLicencePickerFails(family: Family, users: seq<User>, row: AssetRow, index: nat, n: nat, clock: Clock)
    requires row.assignedUserEmail == "" || forall i :: 0 <= i < |users| ==> ToLower(users[i].email) != ToLower(row.assignedUserEmail)
    ensures AssetForm.PickerSelection(RowAsset(family, users, row, index, n, LicenseSheet, clock), License).Err?
  {
  }

  /**
   * `a` is what `row` became under the sheet kind from family `f`, numbered `n`: `f`
   * matches the row's family name and type, and `a` carries its id, its code (IMP
   * when it has none) and the row's title or the family name with the padded number.
   */
  predicate ImportedFrom(a: Asset, f: Family, row: AssetRow, n: nat, k: SheetKind) {
    a.assetType == SheetType(k) && a.familyId == f.id
    && SameFamily(RowFamilyName(row, k), SheetType(k))(f)
    && a.assetId == ComposeAssetId(SheetPrefix(k), CodeOf(f, "IMP"), n)
    && a.title == OrElse(row.title, f.name + " " + SequenceCode(n))
  }

  /** `a` is what `row` became from one of the families of the list. */
  ghost predicate ImportedAs(a: Asset, families: seq<Family>, row: AssetRow, n: nat, k: SheetKind) {
    exists j :: 0 <= j < |families| && ImportedFrom(a, families[j], row, n, k)
  }

  /** The family at `j` was created by the import: of the sheet's type, coded from its name, matching no family before it. */
  ghost predicate CreatedAt(families: seq<Family>, j: nat, k: SheetKind) {
    j < |families| && families[j].assetType == SheetType(k) && families[j].productCode == ProductCode(families[j].name, 3)
    && forall m :: 0 <= m < j ==> !SameFamily(families[j].name, SheetType(k))(families[m])
  }

  /** A row's lookup keeps every family the import created so far as created, and the one it adds too. */
  lemma CreatedGrows(families: seq<Family>, fams: seq<Family>, row: AssetRow, index: nat, k: SheetKind, clock: Clock)
    requires CreatedSince(fams, |families|, k)
    ensures CreatedSince(FamilyFor(fams, row, index, k, clock).0, |families|, k)
  {
    var step := FamilyFor(fams, row, index, k, clock);
    var more := step.0;
    forall j | |families| <= j < |more|
      ensures CreatedAt(more, j, k)
    {
      if j < |fams| {
        assert CreatedAt(fams, j, k);
        assert forall m :: 0 <= m <= j ==> more[m] == fams[m];
      } else {
        assert more[j] == step.1;
        assert ToLower(step.1.name) == ToLower(RowFamilyName(row, k));
        assert forall m :: 0 <= m < j ==> !SameFamily(RowFamilyName(row, k), SheetType(k))(fams[m]);
        assert forall m :: 0 <= m < j ==> more[m] == fams[m];
      }
    }
  }

  /** One row of the import: its family lookup, then its asset and where its family sits. */
  method ImportRow(fams: seq<Family>, users: seq<User>, row: AssetRow, index: nat, n: nat, k: SheetKind, clock: Clock)
    returns (next: seq<Family>, a: Asset, ghost j: nat)
    ensures next == FamilyFor(fams, row, index, k, clock).0
    ensures fams <= next && |next| <= |fams| + 1
    ensures a == RowAsset(FamilyFor(fams, row, index, k, clock).1, users, row, index, n, k, clock)
    ensures FirstMatchAt(next, j, row, k) && ImportedFrom(a, next[j], row, n, k)
    ensures CarriesRow(a, users, row, clock)
  {
    var step := FamilyFor(fams, row, index, k, clock);
    next := step.0;
    a := RowAsset(step.1, users, row, index, n, k, clock);
    j :| FirstMatchAt(next, j, row, k) && next[j] == step.1;
  }

  /** Every family from position `from` on was created by the import. */
  ghost predicate CreatedSince(fams: seq<Family>, from: nat, k: SheetKind) {
    forall j :: from <= j < |fams| ==> CreatedAt(fams, j, k)
  }

  /**
   * The assets imported so far, each from the first family matching its row, at the
   * matching position of `at`, and carrying its row's fields.
   */
  ghost predicate ImportedSoFar(added: seq<Asset>, at: seq<nat>, fams: seq<Family>, users: seq<User>,
                                rows: seq<AssetRow>, base: nat, k: SheetKind, clock: Clock) {
    |added| == |at| <= |rows|
    && forall m :: 0 <= m < |added| ==>
      FirstMatchAt(fams, at[m], rows[m], k) && ImportedFrom(added[m], fams[at[m]], rows[m], base + m + 1, k)
      && CarriesRow(added[m], users, rows[m], clock)
  }

  /** `a` is what `row` became from the first family of the list that matches it. */
  ghost predicate ImportedFirst(a: Asset, fams: seq<Family>, row: AssetRow, n: nat, k: SheetKind) {
    exists j: nat :: FirstMatchAt(fams, j, row, k) && ImportedFrom(a, fams[j], row, n, k)
  }

  /** A first match stays the first match when the list grows at its end. */
  lemma FirstMatchGrows(fams: seq<Family>, next: seq<Family>, j: nat, row: AssetRow, k: SheetKind)
    requires FirstMatchAt(fams, j, row, k) && fams <= next
    ensures FirstMatchAt(next, j, row, k)
  {
    assert forall m :: 0 <= m <= j ==> next[m] == fams[m];
  }

  /**
   * The loop step of the import: the assets imported so far still come from the same
   * positions of the grown family list, and the new asset joins them.
   */
  lemma ImportedStep(added: seq<Asset>, at: seq<nat>, fams: seq<Family>, next: seq<Family>, users: seq<User>,
                     rows: seq<AssetRow>, base: nat, k: SheetKind, clock: Clock, a: Asset, j: nat)
    requires ImportedSoFar(added, at, fams, users, rows, base, k, clock) && |added| < |rows| && fams <= next
    requires FirstMatchAt(next, j, rows[|added|], k) && ImportedFrom(a, next[j], rows[|added|], base + |added| + 1, k)
    requires CarriesRow(a, users, rows[|added|], clock)
    ensures ImportedSoFar(added + [a], at + [j], next, users, rows, base, k, clock)
  {
    forall m | 0 <= m < |added| + 1
      ensures FirstMatchAt(next, (at + [j])[m], rows[m], k)
        && ImportedFrom((added + [a])[m], next[(at + [j])[m]], rows[m], base + m + 1, k)
        && CarriesRow((added + [a])[m], users, rows[m], clock)
    {
      if m < |added| {
        assert (at + [j])[m] == at[m] && (added + [a])[m] == added[m];
        FirstMatchGrows(fams, next, at[m], rows[m], k);
        assert next[at[m]] == fams[at[m]];
      } else {
        assert (at + [j])[m] == j && (added + [a])[m] == a;
      }
    }
  }

  /**
   * The asset import: each row in turn finds or creates its family and becomes an
   * asset numbered from the global asset count; the families created along the way
   * are available to the later rows.
   */
  method ImportAssets(assets: seq<Asset>, families: seq<Family>, users: seq<User>, rows: seq<AssetRow>,
                      k: SheetKind, clock: Clock) returns (fams: seq<Family>, added: seq<Asset>)
    ensures |added| == |rows|
    ensures families <= fams && |fams| <= |families| + |rows|
    ensures forall i :: 0 <= i < |rows| ==> ImportedAs(added[i], fams, rows[i], |assets| + i + 1, k)
    ensures forall i :: 0 <= i < |rows| ==>
      ImportedFirst(added[i], fams, rows[i], |assets| + i + 1, k) && CarriesRow(added[i], users, rows[i], clock)
    ensures forall j :: |families| <= j < |fams| ==> CreatedAt(fams, j, k)
  {
    fams := families;
    added := [];
    ghost var at: seq<nat> := [];
    var i := 0;
    while i < |rows|
      invariant 0 <= i <= |rows| && |added| == i
      invariant families <= fams && |fams| <= |families| + i
      invariant ImportedSoFar(added, at, fams, users, rows, |assets|, k, clock)
      invariant CreatedSince(fams, |families|, k)
    {
      var next, a, j := ImportRow(fams, users, rows[i], i, |assets| + i + 1, k, clock);
      CreatedGrows(families, fams, rows[i], i, k, clock);
      ImportedStep(added, at, fams, next, users, rows, |assets|, k, clock, a, j);
      fams := next;
      added := added + [a];
      at := at + [j];
      i := i + 1;
    }
    ImportedAtPositions(added, at, fams, users, rows, |assets|, k, clock);
  }

  /** Assets imported from known positions of the family list are imported from that list. */
  lemma ImportedAtPositions(added: seq<Asset>, at: seq<nat>, fams: seq<Family>, users: seq<User>,
                            rows: seq<AssetRow>, base: nat, k: SheetKind, clock: Clock)
    requires ImportedSoFar(added, at, fams, users, rows, base, k, clock) && |added| == |rows|
    ensures forall m :: 0 <= m < |rows| ==> ImportedAs(added[m], fams, rows[m], base + m + 1, k)
    ensures forall m :: 0 <= m < |rows| ==>
      ImportedFirst(added[m], fams, rows[m], base + m + 1, k) && CarriesRow(added[m], users, rows[m], clock)
  {
    forall m | 0 <= m < |rows|
      ensures ImportedAs(added[m], fams, rows[m], base + m + 1, k)
      ensures ImportedFirst(added[m], fams, rows[m], base + m + 1, k) && CarriesRow(added[m], users, rows[m], clock)
    {
      assert FirstMatchAt(fams, at[m], rows[m], k);
      assert ImportedFrom(added[m], fams[at[m]], rows[m], base + m + 1, k);
    }
  }

  /**
   * The import numbers its assets consecutively from the global asset count: for
   * dash-free family codes no two imported assets of one sheet share an identifier,
   * even across families.
   */
  lemma ImportedIdsDistinct(a: Asset, b: Asset, families: seq<Family>, ra: AssetRow, rb: AssetRow, m: nat, n: nat, k: SheetKind)
    requires ImportedAs(a, families, ra, m, k) && ImportedAs(b, families, rb, n, k)
    requires forall j :: 0 <= j < |families| ==> '-' !in families[j].productCode
    requires m != n
    ensures a.assetId != b.assetId
  {
    var i :| 0 <= i < |families| && ImportedFrom(a, families[i], ra, m, k);
    var j :| 0 <= j < |families| && ImportedFrom(b, families[j], rb, n, k);
    AssetIdRoundTrip(SheetPrefix(k), CodeOf(families[i], "IMP"), m);
    AssetIdRoundTrip(SheetPrefix(k), CodeOf(families[j], "IMP"), n);
  }
}

=== FILE: datatable.dfy ===
/**
 * The generic table of components/DataTable.tsx: the column configuration kept in
 * step with the schema, the columns actually rendered, and the pipeline that turns
 * the data rows into the rows shown (global search, per-column filters, sort).
 * Every memo and handler is a pure function of the table state here.
 */
module DataTable {
  import opened Wrappers
  import opened Strings
  import opened Seqs
  import opened Sorting
  import opened JsValues
  import Keys

  /** A schema column (`ColumnDef`): the dot path it shows, its header and an optional width. */
  datatype Column = Column(accessorKey: string, header: string, width: Option<int>)

  /** One entry of the user's column configuration (`SmartTableColumnConfig`). */
  datatype ColumnConfig = ColumnConfig(id: string, title: string, isVisible: bool, width: int, order: int)

  datatype TableHeight = Flexible | Fixed

  datatype ViewSettings = ViewSettings(
    showHeader: bool,
    showColumnFilter: bool,
    showAdvancedSearch: bool,
    tableHeight: TableHeight)

  datatype SearchMode = AllWords | AnyWords | ExactPhrase

  /** The active sort: the accessor key and the direction. */
  datatype SortState = SortState(id: string, desc: bool)

  /** One `[key, value]` pair of `columnFilters`, kept in insertion order. */
  datatype FilterEntry = FilterEntry(key: string, value: string)

  datatype TableState = TableState(
    globalFilter: string,
    searchMode: SearchMode,
    columnFilters: seq<FilterEntry>,
    sorting: Option<SortState>,
    columnConfig: seq<ColumnConfig>,
    viewSettings: ViewSettings)

  const DefaultWidth := 150

  const InitialState := TableState("", AllWords, [], None, [], ViewSettings(true, true, true, Flexible))

  // ---------------------------------------------------------------------------
  // keeping the column configuration in step with the schema

  /** `col.width || 150`: a missing or zero width falls back to the default. */
  function WidthOrDefault(w: Option<int>): (r: int)
    ensures r != 0
    ensures w.Some? && w.value != 0 ==> r == w.value
    ensures !(w.Some? && w.value != 0) ==> r == DefaultWidth
  {
    if w.Some? && w.value != 0 then w.value else DefaultWidth
  }

  function AccessorKeys(columns: seq<Column>): (keys: seq<string>)
    ensures |keys| == |columns|
    ensures forall i :: 0 <= i < |columns| ==> keys[i] == columns[i].accessorKey
  {
    seq(|columns|, i requires 0 <= i < |columns| => columns[i].accessorKey)
  }

  function ConfigIds(config: seq<ColumnConfig>): (ids: seq<string>)
    ensures |ids| == |config|
    ensures forall i :: 0 <= i < |config| ==> ids[i] == config[i].id
  {
    seq(|config|, i requires 0 <= i < |config| => config[i].id)
  }

  /** The configuration built fresh from the schema: every column visible, numbered from 1 in schema order. */
  function DefaultConfig(columns: seq<Column>): (config: seq<ColumnConfig>)
    ensures |config| == |columns|
    ensures ConfigIds(config) == AccessorKeys(columns)
    ensures forall i :: 0 <= i < |columns| ==>
      config[i].title == columns[i].header && config[i].isVisible
      && config[i].width == WidthOrDefault(columns[i].width) && config[i].order == i + 1
  {
    seq(|columns|, i requires 0 <= i < |columns| =>
      ColumnConfig(columns[i].accessorKey, columns[i].header, true, WidthOrDefault(columns[i].width), i + 1))
  }

  /** The effect run when the schema changes, as a function of the previous configuration. */
  function Reconcile(columns: seq<Column>, prev: seq<ColumnConfig>): (r: seq<ColumnConfig>)
    ensures |columns| == 0 ==> r == prev
    ensures |columns| > 0 && |prev| == 0 ==> r == DefaultConfig(columns)
    ensures r == prev || r == DefaultConfig(columns)
  {
    if |columns| == 0 then prev
    else if |prev| == 0 || Keys.SortedJoin(AccessorKeys(columns)) != Keys.SortedJoin(ConfigIds(prev)) then
      DefaultConfig(columns)
    else prev
  }

  /**
   * For plain keys (non-empty, no commas) a non-empty configuration survives exactly
   * when it names the same keys as the schema; otherwise it is rebuilt from the schema.
   */
  lemma ReconcileRebuildsWhenKeysChange(columns: seq<Column>, prev: seq<ColumnConfig>)
    requires |columns| > 0 && |prev| > 0
    requires Keys.PlainIds(AccessorKeys(columns)) && Keys.PlainIds(ConfigIds(prev))
    ensures multiset(AccessorKeys(columns)) == multiset(ConfigIds(prev)) ==> Reconcile(columns, prev) == prev
    ensures multiset(AccessorKeys(columns)) != multiset(ConfigIds(prev)) ==> Reconcile(columns, prev) == DefaultConfig(columns)
  {
    Keys.SortedJoinSameIds(AccessorKeys(columns), ConfigIds(prev));
  }

  /** Running the effect again with the same schema changes nothing. */
  lemma ReconcileIdempotent(columns: seq<Column>, prev: seq<ColumnConfig>)
    ensures Reconcile(columns, Reconcile(columns, prev)) == Reconcile(columns, prev)
  {
  }

  // ---------------------------------------------------------------------------
  // the rendered columns

  /** `columns.find(c => c.accessorKey === key)`. */
  function FindColumn(columns: seq<Column>, key: string): (r: Option<Column>)
    ensures r.None? <==> forall i :: 0 <= i < |columns| ==> columns[i].accessorKey != key
    ensures r.Some? ==> r.value.accessorKey == key
    ensures r.Some? ==>
      exists i :: 0 <= i < |columns| && columns[i] == r.value && (forall j :: 0 <= j < i ==> columns[j].accessorKey != key)
    decreases |columns|
  {
    if |columns| == 0 then None
    else if columns[0].accessorKey == key then Some(columns[0])
    else
      var r := FindColumn(columns[1..], key);
      assert forall i :: 0 < i < |columns| ==> columns[i] == columns[1..][i - 1];
      if r.Some? then
        ghost var i :| 0 <= i < |columns[1..]| && columns[1..][i] == r.value
          && (forall j :: 0 <= j < i ==> columns[1..][j].accessorKey != key);
        assert columns[i + 1] == r.value;
        r
      else r
  }

  predicate HasColumn(columns: seq<Column>, key: string) {
    FindColumn(columns, key).Some?
  }

  /** The order `(a, b) => a.order - b.order` sorts by. */
  function OrderLe(): (ColumnConfig, ColumnConfig) -> bool {
    (a: ColumnConfig, b: ColumnConfig) => a.order <= b.order
  }

  lemma OrderLeTotalPreorder()
    ensures TotalPreorder(OrderLe())
  {
  }

  function IsVisible(): ColumnConfig -> bool {
    (c: ColumnConfig) => c.isVisible
  }

  function InSchema(columns: seq<Column>): ColumnConfig -> bool {
    (c: ColumnConfig) => HasColumn(columns, c.id)
  }

  /** The schema column a configuration entry points at, with the entry's width. */
  function Placed(column: Column, conf: ColumnConfig): Column {
    column.(width := Some(conf.width))
  }

  /**
   * `confs.map(conf => find ... ? {...original, width} : null).filter(Boolean)`: each entry
   * whose id names a schema column becomes that column with the entry's width; the others vanish.
   */
  function ResolveConfigs(confs: seq<ColumnConfig>, columns: seq<Column>): (r: seq<Column>)
    ensures |r| == |Filter(confs, InSchema(columns))|
    ensures forall i :: 0 <= i < |r| ==>
      FindColumn(columns, Filter(confs, InSchema(columns))[i].id).Some?
      && r[i] == Placed(FindColumn(columns, Filter(confs, InSchema(columns))[i].id).value, Filter(confs, InSchema(columns))[i])
    decreases |confs|
  {
    if |confs| == 0 then []
    else
      var rest := ResolveConfigs(confs[1..], columns);
      match FindColumn(columns, confs[0].id)
      case None =>
        assert !InSchema(columns)(confs[0]);
        assert Filter(confs, InSchema(columns)) == Filter(confs[1..], InSchema(columns));
        rest
      case Some(c) =>
        assert InSchema(columns)(confs[0]);
        var kept := Filter(confs, InSchema(columns));
        assert kept == [confs[0]] + Filter(confs[1..], InSchema(columns));
        var r := [Placed(c, confs[0])] + rest;
        assert forall i :: 1 <= i < |r| ==> r[i] == rest[i - 1] && kept[i] == Filter(confs[1..], InSchema(columns))[i - 1];
        r
  }

  /** The configuration entries that end up rendered, in rendering order. */
  function RenderedConfigs(columns: seq<Column>, config: seq<ColumnConfig>): (r: seq<ColumnConfig>)
    ensures |r| <= |config|
    ensures forall x :: x in r ==> x in config && x.isVisible && HasColumn(columns, x.id)
  {
    RenderedMembers(columns, config);
    Filter(SortBy(Filter(config, IsVisible()), OrderLe()), InSchema(columns))
  }

  /** Every rendered entry is a visible configuration entry naming a schema column. */
  lemma RenderedMembers(columns: seq<Column>, config: seq<ColumnConfig>)
    ensures |Filter(SortBy(Filter(config, IsVisible()), OrderLe()), InSchema(columns))| <= |config|
    ensures forall x :: x in Filter(SortBy(Filter(config, IsVisible()), OrderLe()), InSchema(columns)) ==>
      x in config && x.isVisible && HasColumn(columns, x.id)
  {
    var sorted := SortBy(Filter(config, IsVisible()), OrderLe());
    forall x | x in Filter(sorted, InSchema(columns))
      ensures x in config && x.isVisible && HasColumn(columns, x.id)
    {
      FilterMembership(sorted, InSchema(columns), x);
      assert x in multiset(sorted);
      FilterMembership(config, IsVisible(), x);
    }
  }

  /** `activeColumns`: the schema as it is while there is no configuration, else the visible entries by order. */
  function ActiveColumns(columns: seq<Column>, config: seq<ColumnConfig>): (r: seq<Column>)
    ensures |config| == 0 ==> r == columns
    ensures |config| > 0 ==> |r| == |RenderedConfigs(columns, config)|
    ensures |config| > 0 ==> forall i :: 0 <= i < |r| ==>
      r[i].accessorKey == RenderedConfigs(columns, config)[i].id
      && r[i].width == Some(RenderedConfigs(columns, config)[i].width)
  {
    if |config| == 0 then columns
    else ResolveConfigs(SortBy(Filter(config, IsVisible()), OrderLe()), columns)
  }

  /**
   * The rendered entries are exactly the visible entries whose id names a schema
   * column (each as often as it occurs), in non-decreasing `order`.
   */
  lemma RenderedConfigsSpec(columns: seq<Column>, config: seq<ColumnConfig>)
    ensures SortedBy(RenderedConfigs(columns, config), OrderLe())
    ensures multiset(RenderedConfigs(columns, config))
      == multiset(Filter(config, (c: ColumnConfig) => c.isVisible && HasColumn(columns, c.id)))
  {
    var visible := Filter(config, IsVisible());
    var sorted := SortBy(visible, OrderLe());
    SortBySorted(visible, OrderLe());
    FilterSorted(sorted, InSchema(columns), OrderLe());
    FilterCounts(sorted, InSchema(columns));
    FilterCounts(visible, IsVisible());
    FilterCounts(config, IsVisible());
    FilterCounts(config, (c: ColumnConfig) => c.isVisible && HasColumn(columns, c.id));
  }

  // ---------------------------------------------------------------------------
  // global search

  /** `String(getNestedValue(row, key)).toLowerCase()`. */
  function SearchText(row: Value, key: string): string {
    ToLower(JsString(Lookup(row, key)))
  }

  /** One column value against the lower-cased query, in the chosen mode. */
  predicate ValueMatches(value: string, filter: string, mode: SearchMode) {
    match mode
    case ExactPhrase => value == filter
    case AnyWords => Any(SplitWs(filter), (w: string) => Contains(value, w))
    case AllWords => All(SplitWs(filter), (w: string) => Contains(value, w))
  }

  /** The callback of `columns.some`: this column's value of the row matches the query. */
  function ColumnMatches(row: Value, query: string, mode: SearchMode): Column -> bool {
    (col: Column) => ValueMatches(SearchText(row, col.accessorKey), ToLower(query), mode)
  }

  /** `columns.some(column => ...)`: some single schema column's value matches. */
  predicate RowMatchesGlobal(row: Value, columns: seq<Column>, query: string, mode: SearchMode) {
    Any(columns, ColumnMatches(row, query, mode))
  }

  predicate GlobalSearchActive(st: TableState) {
    st.globalFilter != "" && st.viewSettings.showAdvancedSearch
  }

  /** The test the global search applies to a row. */
  function GlobalHit(columns: seq<Column>, st: TableState): Value -> bool {
    (row: Value) => RowMatchesGlobal(row, columns, st.globalFilter, st.searchMode)
  }

  /**
   * The global search: while it is active it keeps exactly the rows some schema column
   * of which matches the query; otherwise every row stays.
   */
  function GlobalSearch(rows: seq<Value>, columns: seq<Column>, st: TableState): (r: seq<Value>)
    ensures !GlobalSearchActive(st) ==> r == rows
    ensures |r| <= |rows|
    ensures forall row :: row in r <==>
      row in rows && (!GlobalSearchActive(st) || RowMatchesGlobal(row, columns, st.globalFilter, st.searchMode))
  {
    if GlobalSearchActive(st) then
      FilterMembers(rows, GlobalHit(columns, st));
      Filter(rows, GlobalHit(columns, st))
    else rows
  }

  /** Every word occurs in the value. */
  predicate HasEveryWord(value: string, words: seq<string>) {
    forall k :: 0 <= k < |words| ==> Contains(value, words[k])
  }

  /** Some word occurs in the value. */
  predicate HasSomeWord(value: string, words: seq<string>) {
    exists k :: 0 <= k < |words| && Contains(value, words[k])
  }

  /**
   * "All Words" asks for one column whose value holds every word; words spread over
   * several columns do not make a match.
   */
  lemma AllWordsInOneColumn(row: Value, columns: seq<Column>, query: string)
    ensures RowMatchesGlobal(row, columns, query, AllWords) <==>
      exists i :: 0 <= i < |columns| && HasEveryWord(SearchText(row, columns[i].accessorKey), SplitWs(ToLower(query)))
  {
    forall i | 0 <= i < |columns|
      ensures ColumnMatches(row, query, AllWords)(columns[i])
        == HasEveryWord(SearchText(row, columns[i].accessorKey), SplitWs(ToLower(query)))
    {
      var value := SearchText(row, columns[i].accessorKey);
      var b := All(SplitWs(ToLower(query)), (w: string) => Contains(value, w));
    }
    var b := Any(columns, ColumnMatches(row, query, AllWords));
  }

  /** "Any Words" asks for one column value holding at least one word of the query. */
  lemma AnyWordsInSomeColumn(row: Value, columns: seq<Column>, query: string)
    ensures RowMatchesGlobal(row, columns, query, AnyWords) <==>
      exists i :: 0 <= i < |columns| && HasSomeWord(SearchText(row, columns[i].accessorKey), SplitWs(ToLower(query)))
  {
    forall i | 0 <= i < |columns|
      ensures ColumnMatches(row, query, AnyWords)(columns[i])
        == HasSomeWord(SearchText(row, columns[i].accessorKey), SplitWs(ToLower(query)))
    {
      var value := SearchText(row, columns[i].accessorKey);
      var b := Any(SplitWs(ToLower(query)), (w: string) => Contains(value, w));
    }
    var b := Any(columns, ColumnMatches(row, query, AnyWords));
  }

  lemma ToLowerKeepsNoWhitespace(s: string)
    requires NoWhitespace(s)
    ensures NoWhitespace(ToLower(s))
  {
    forall k | 0 <= k < |s|
      ensures !IsWhitespace(ToLower(s)[k])
    {
      assert s[k] in s;
    }
  }

  /** For a one-word query, "Any Words" and "All Words" coincide: a substring test of the query. */
  lemma OneWordQuery(value: string, query: string)
    requires NoWhitespace(query)
    ensures ValueMatches(value, ToLower(query), AnyWords) == Contains(value, ToLower(query))
    ensures ValueMatches(value, ToLower(query), AllWords) == Contains(value, ToLower(query))
  {
    ToLowerKeepsNoWhitespace(query);
    SplitWsSingleWord(ToLower(query));
  }

  // ---------------------------------------------------------------------------
  // per-column filters

  /** The filter text set for `key`, if any (the object lookup `columnFilters[key]`). */
  function FilterValue(entries: seq<FilterEntry>, key: string): (r: Option<string>)
    ensures r.None? <==> forall i :: 0 <= i < |entries| ==> entries[i].key != key
    ensures r.Some? ==> exists i :: 0 <= i < |entries| && entries[i] == FilterEntry(key, r.value)
    decreases |entries|
  {
    if |entries| == 0 then None
    else if entries[0].key == key then Some(entries[0].value)
    else
      var r := FilterValue(entries[1..], key);
      assert forall i :: 0 < i < |entries| ==> entries[i] == entries[1..][i - 1];
      r
  }

  predicate UniqueKeys(entries: seq<FilterEntry>) {
    forall i, j :: 0 <= i < j < |entries| ==> entries[i].key != entries[j].key
  }

  /**
   * `{...prev, [key]: value}`: an existing key keeps its place and takes the new text;
   * a new key is added at the end.
   */
  function HandleColumnFilterChange(entries: seq<FilterEntry>, key: string, value: string): (r: seq<FilterEntry>)
    ensures FilterValue(r, key) == Some(value)
    ensures forall k :: k != key ==> FilterValue(r, k) == FilterValue(entries, k)
    ensures UniqueKeys(entries) ==> UniqueKeys(r)
  {
    if FilterValue(entries, key).Some? then
      var r := UpdateWhere(entries, (e: FilterEntry) => e.key == key, (e: FilterEntry) => e.(value := value));
      assert forall i :: 0 <= i < |r| ==> r[i].key == entries[i].key;
      UpdateKeepsOthers(entries, r, key, value);
      r
    else
      var r := entries + [FilterEntry(key, value)];
      AppendKeepsOthers(entries, key, value);
      r
  }

  lemma {:induction false} UpdateKeepsOthers(entries: seq<FilterEntry>, r: seq<FilterEntry>, key: string, value: string)
    requires |r| == |entries|
    requires forall i :: 0 <= i < |r| ==> r[i].key == entries[i].key
    requires forall i :: 0 <= i < |r| && entries[i].key == key ==> r[i].value == value
    requires forall i :: 0 <= i < |r| && entries[i].key != key ==> r[i] == entries[i]
    requires FilterValue(entries, key).Some?
    ensures FilterValue(r, key) == Some(value)
    ensures forall k :: k != key ==> FilterValue(r, k) == FilterValue(entries, k)
    decreases |entries|
  {
    if entries[0].key != key {
      UpdateKeepsOthers(entries[1..], r[1..], key, value);
    } else if |entries| > 1 {
      forall k | k != key
        ensures FilterValue(r[1..], k) == FilterValue(entries[1..], k)
      {
        SameKeysOthers(entries[1..], r[1..], key, k);
      }
    }
  }

  lemma {:induction false} SameKeysOthers(entries: seq<FilterEntry>, r: seq<FilterEntry>, key: string, k: string)
    requires |r| == |entries| && k != key
    requires forall i :: 0 <= i < |r| ==> r[i].key == entries[i].key
    requires forall i :: 0 <= i < |r| && entries[i].key != key ==> r[i] == entries[i]
    ensures FilterValue(r, k) == FilterValue(entries, k)
    decreases |entries|
  {
    if |entries| > 0 && entries[0].key != k {
      SameKeysOthers(entries[1..], r[1..], key, k);
    }
  }

  lemma {:induction false} AppendKeepsOthers(entries: seq<FilterEntry>, key: string, value: string)
    requires FilterValue(entries, key).None?
    ensures FilterValue(entries + [FilterEntry(key, value)], key) == Some(value)
    ensures forall k :: k != key ==> FilterValue(entries + [FilterEntry(key, value)], k) == FilterValue(entries, k)
    decreases |entries|
  {
    var r := entries + [FilterEntry(key, value)];
    if |entries| > 0 {
      assert r[1..] == entries[1..] + [FilterEntry(key, value)];
      AppendKeepsOthers(entries[1..], key, value);
    }
  }

  /** One column filter: an empty text lets every row through, otherwise a case-insensitive substring test. */
  predicate PassesFilter(row: Value, e: FilterEntry) {
    e.value == "" || Contains(SearchText(row, e.key), ToLower(e.value))
  }

  /** The `forEach` over the entries, narrowing the rows once per non-empty filter text. */
  function ApplyColumnFilters(rows: seq<Value>, entries: seq<FilterEntry>): seq<Value>
    decreases |entries|
  {
    if |entries| == 0 then rows
    else
      var e := entries[0];
      var narrowed := if e.value != "" then Filter(rows, (row: Value) => PassesFilter(row, e)) else rows;
      ApplyColumnFilters(narrowed, entries[1..])
  }

  predicate PassesAllFilters(row: Value, entries: seq<FilterEntry>) {
    All(entries, (e: FilterEntry) => PassesFilter(row, e))
  }

  /** The successive narrowing is one filter by the conjunction of all the column filters. */
  lemma {:induction false} ColumnFiltersConjunctive(rows: seq<Value>, entries: seq<FilterEntry>)
    ensures ApplyColumnFilters(rows, entries) == Filter(rows, (row: Value) => PassesAllFilters(row, entries))
    decreases |entries|
  {
    var all := (row: Value) => PassesAllFilters(row, entries);
    if |entries| == 0 {
      FilterKeepsAll(rows, all);
    } else {
      var e := entries[0];
      var tail := (row: Value) => PassesAllFilters(row, entries[1..]);
      var first := (row: Value) => PassesFilter(row, e);
      assert forall row :: all(row) == (first(row) && tail(row)) by {
        forall row: Value
          ensures all(row) == (first(row) && tail(row))
        {
          assert forall i :: 0 < i < |entries| ==> entries[i] == entries[1..][i - 1];
        }
      }
      if e.value != "" {
        var narrowed := Filter(rows, first);
        ColumnFiltersConjunctive(narrowed, entries[1..]);
        FilterConjunction(rows, first, tail, all);
      } else {
        ColumnFiltersConjunctive(rows, entries[1..]);
        FilterExtensional(rows, tail, all);
      }
    }
  }

  // ---------------------------------------------------------------------------
  // the whole pipeline

  /** The rows after search and filtering, before any sort. */
  function FilteredRows(data: seq<Value>, columns: seq<Column>, st: TableState): seq<Value> {
    var searched := GlobalSearch(data, columns, st);
    if st.viewSettings.showColumnFilter then ApplyColumnFilters(searched, st.columnFilters) else searched
  }

  /** Whether a row survives search and filtering, judged on the row alone. */
  predicate RowKept(row: Value, columns: seq<Column>, st: TableState) {
    (!GlobalSearchActive(st) || RowMatchesGlobal(row, columns, st.globalFilter, st.searchMode))
    && (!st.viewSettings.showColumnFilter || PassesAllFilters(row, st.columnFilters))
  }

  function Kept(columns: seq<Column>, st: TableState): Value -> bool {
    (row: Value) => RowKept(row, columns, st)
  }

  /**
   * Search and filtering together keep exactly the rows that pass every active test,
   * in their original order: the result is a subsequence of the data.
   */
  lemma FilteredRowsSpec(data: seq<Value>, columns: seq<Column>, st: TableState)
    ensures FilteredRows(data, columns, st) == Filter(data, Kept(columns, st))
    ensures SubsequenceOf(FilteredRows(data, columns, st), data)
    ensures |FilteredRows(data, columns, st)| <= |data|
  {
    var keep := Kept(columns, st);
    var global := (row: Value) => !GlobalSearchActive(st) || RowMatchesGlobal(row, columns, st.globalFilter, st.searchMode);
    var cols := (row: Value) => !st.viewSettings.showColumnFilter || PassesAllFilters(row, st.columnFilters);
    var searched := GlobalSearch(data, columns, st);
    if GlobalSearchActive(st) {
      FilterExtensional(data, GlobalHit(columns, st), global);
    } else {
      FilterKeepsAll(data, global);
    }
    assert searched == Filter(data, global);
    if st.viewSettings.showColumnFilter {
      ColumnFiltersConjunctive(searched, st.columnFilters);
      FilterExtensional(searched, (row: Value) => PassesAllFilters(row, st.columnFilters), cols);
    } else {
      FilterKeepsAll(searched, cols);
    }
    FilterConjunction(data, global, cols, keep);
    FilterIsSubsequence(data, keep);
  }

  /** The comparator of the sort, as "`a` may come before `b`". */
  function RowLe(key: string, desc: bool): (Value, Value) -> bool {
    (a: Value, b: Value) =>
      if desc then ValueLe(Lookup(b, key), Lookup(a, key)) else ValueLe(Lookup(a, key), Lookup(b, key))
  }

  lemma RowLeTotalPreorder(key: string, desc: bool)
    ensures TotalPreorder(RowLe(key, desc))
  {
    var le := RowLe(key, desc);
    forall a: Value, b: Value
      ensures le(a, b) || le(b, a)
    {
      ValueLeTotal(Lookup(a, key), Lookup(b, key));
    }
    forall a: Value, b: Value, c: Value | le(a, b) && le(b, c)
      ensures le(a, c)
    {
      if desc {
        ValueLeTransitive(Lookup(c, key), Lookup(b, key), Lookup(a, key));
      } else {
        ValueLeTransitive(Lookup(a, key), Lookup(b, key), Lookup(c, key));
      }
    }
  }

  /** `filteredAndSortedData`. */
  function FilteredAndSorted(data: seq<Value>, columns: seq<Column>, st: TableState): (r: seq<Value>)
    ensures |r| <= |data|
    ensures forall row :: row in r <==> row in data && RowKept(row, columns, st)
  {
    FilteredRowsSpec(data, columns, st);
    FilterMembers(data, Kept(columns, st));
    var rows := FilteredRows(data, columns, st);
    match st.sorting
    case None => rows
    case Some(s) =>
      SortByKeepsMembers(rows, RowLe(s.id, s.desc));
      SortBy(rows, RowLe(s.id, s.desc))
  }

  /**
   * With a sort active the rows shown are a rearrangement of the filtered rows, ordered by
   * the key's value, ascending or (when `desc`) descending. Either way no more rows are
   * shown than there are data rows.
   */
  lemma FilteredAndSortedSpec(data: seq<Value>, columns: seq<Column>, st: TableState)
    ensures |FilteredAndSorted(data, columns, st)| <= |data|
    ensures st.sorting.None? ==> FilteredAndSorted(data, columns, st) == FilteredRows(data, columns, st)
    ensures st.sorting.Some? ==>
      multiset(FilteredAndSorted(data, columns, st)) == multiset(FilteredRows(data, columns, st))
    ensures st.sorting.Some? && !st.sorting.value.desc ==>
      var r := FilteredAndSorted(data, columns, st);
      forall i, j :: 0 <= i < j < |r| ==> ValueLe(Lookup(r[i], st.sorting.value.id), Lookup(r[j], st.sorting.value.id))
    ensures st.sorting.Some? && st.sorting.value.desc ==>
      var r := FilteredAndSorted(data, columns, st);
      forall i, j :: 0 <= i < j < |r| ==> ValueLe(Lookup(r[j], st.sorting.value.id), Lookup(r[i], st.sorting.value.id))
  {
    FilteredRowsSpec(data, columns, st);
    if st.sorting.Some? {
      var s := st.sorting.value;
      RowLeTotalPreorder(s.id, s.desc);
      SortBySorted(FilteredRows(data, columns, st), RowLe(s.id, s.desc));
    }
  }

  // ---------------------------------------------------------------------------
  // sort toggling

  /** `handleSort`: a new key sorts ascending; the same key flips between ascending and descending. */
  function HandleSort(prev: Option<SortState>, key: string): (r: SortState)
    ensures r.id == key
  {
    SortState(key, prev.Some? && prev.value.id == key && !prev.value.desc)
  }

  /** Clicking a column that is not the current sort key sorts ascending. */
  lemma NewKeySortsAscending(prev: Option<SortState>, key: string)
    requires prev.None? || prev.value.id != key
    ensures !HandleSort(prev, key).desc
  {
  }

  /** Clicking the current sort key again flips the direction, so two clicks restore it. */
  lemma SameKeyFlips(s: SortState)
    ensures HandleSort(Some(s), s.id).desc == !s.desc
    ensures HandleSort(Some(HandleSort(Some(s), s.id)), s.id) == s
  {
  }

  /** `handleColumnFilterChange` and `handleSort` lifted to the table state. */
  function OnColumnFilterChange(st: TableState, key: string, value: string): (r: TableState)
    ensures r == st.(columnFilters := r.columnFilters)
    ensures FilterValue(r.columnFilters, key) == Some(value)
  {
    st.(columnFilters := HandleColumnFilterChange(st.columnFilters, key, value))
  }

  function OnSort(st: TableState, key: string): (r: TableState)
    ensures r == st.(sorting := r.sorting)
    ensures r.sorting.Some? && r.sorting.value.id == key
  {
    st.(sorting := Some(HandleSort(st.sorting, key)))
  }

  /** `handleApplySettings`: the dialog's output replaces the configuration and the view settings. */
  function OnApplySettings(st: TableState, config: seq<ColumnConfig>, view: ViewSettings): (r: TableState)
    ensures r.columnConfig == config && r.viewSettings == view
    ensures r.globalFilter == st.globalFilter && r.searchMode == st.searchMode
    ensures r.columnFilters == st.columnFilters && r.sorting == st.sorting
  {
    st.(columnConfig := config, viewSettings := view)
  }
}

=== FILE: entities.dfy ===
/**
 * The records the application keeps in its top-level state: users, asset families,
 * asset instances with their assignment history, requests and fulfilment tasks.
 * Only the fields some modelled operation reads or writes are kept. A JavaScript
 * field that may be `undefined` and is only ever tested for truthiness is a string
 * whose empty value stands for "missing", or a sequence whose empty value stands
 * for a missing array. An asset's list of licence assignees is the exception: the
 * asset dialog's user picker tells a missing list from an empty one, so it is an
 * `Option`.
 */
module Entities {
  import opened Wrappers

  datatype Role = Admin | Member

  /** The profile fields the edit dialog reaches by input name, besides first and last name and e-mail. */
  datatype ProfileField =
    | Suffix | JobTitle | Department | Linkedin | Twitter | Facebook | Instagram
    | BusinessPhone | MobileNo | NonPersonalEmail | HomePhone | Skype | Address | City | Notes

  datatype User = User(
    id: string,
    fullName: string,
    firstName: string,
    lastName: string,
    email: string,
    role: Role,
    site: seq<string>,
    details: map<ProfileField, string>,
    modifiedDate: string,
    modifiedBy: string)

  datatype AssetType = License | Hardware

  datatype AssetStatus = Active | Available | Expired | Inactive | InRepair | Pending | Retired | Storage

  datatype AssignmentModel = Single | Multiple

  datatype Family = Family(
    id: string,
    assetType: AssetType,
    name: string,
    productCode: string,
    assignmentModel: Option<AssignmentModel>,
    createdDate: string,
    lastModifiedDate: string)

  datatype HistoryKind = Assigned | Reassigned | UsageUpdate

  /** One line of an asset's assignment history (`AssignmentHistory`). */
  datatype HistoryEntry = HistoryEntry(
    id: string,
    assetId: string,
    assetName: string,
    date: string,
    kind: HistoryKind,
    assignedFrom: Option<string>,
    assignedTo: Option<string>,
    notes: string)

  datatype Asset = Asset(
    id: string,
    assetId: string,
    familyId: string,
    title: string,
    assetType: AssetType,
    status: AssetStatus,
    variantType: string,
    purchaseDate: string,
    cost: int,
    assignedUser: Option<User>,
    assignedUsers: Option<seq<User>>,
    activeUsers: seq<User>,
    history: seq<HistoryEntry>,
    created: string,
    createdBy: string,
    modified: string,
    modifiedBy: string)

  datatype RequestType = HardwareRequest | SoftwareRequest

  datatype RequestStatus = RequestPending | Approved | InProgress | Fulfilled | Rejected

  datatype Request = Request(
    id: string,
    requestType: RequestType,
    item: string,
    requestedBy: User,
    status: RequestStatus,
    requestDate: string,
    notes: string,
    familyId: string,
    linkedTaskId: Option<string>)

  datatype TaskStatus = Todo

  datatype TaskPriority = Low | Medium | High

  datatype Task = Task(
    id: string,
    requestId: string,
    title: string,
    assignedTo: Option<User>,
    status: TaskStatus,
    priority: TaskPriority,
    dueDate: string,
    description: string,
    createdDate: string)

  /**
   * The readings of the clock one handler takes: `new Date().toISOString()`, its date
   * part, `Date.now()` in milliseconds, and the local date `toLocaleDateString` gives.
   */
  datatype Clock = Clock(iso: string, today: string, millis: nat, localDate: string)

  /** `u?.id`: the id of a possibly missing user. */
  function IdOf(u: Option<User>): (r: Option<string>)
    ensures r.Some? <==> u.Some?
    ensures u.Some? ==> r.value == u.value.id
  {
    match u
    case None => None
    case Some(x) => Some(x.id)
  }

  /** `users.map(u => u.id)`. */
  function UserIds(users: seq<User>): (ids: seq<string>)
    ensures |ids| == |users|
    ensures forall i :: 0 <= i < |users| ==> ids[i] == users[i].id
  {
    seq(|users|, i requires 0 <= i < |users| => users[i].id)
  }

  /** `asset.assignedUsers || []`: the licence assignees, none when the list is missing. */
  function Holders(a: Asset): seq<User> {
    a.assignedUsers.GetOr([])
  }

  /** `users.map(u => u.fullName)`. */
  function FullNames(users: seq<User>): (names: seq<string>)
    ensures |names| == |users|
    ensures forall i :: 0 <= i < |users| ==> names[i] == users[i].fullName
  {
    seq(|users|, i requires 0 <= i < |users| => users[i].fullName)
  }

  /** `users.some(u => u.id === id)`. */
  predicate HasUserId(users: seq<User>, id: string) {
    exists i :: 0 <= i < |users| && users[i].id == id
  }
}

=== FILE: history.dfy ===
/**
 * The assignment-history entries `handleSaveAsset` (App.tsx) writes: on an edit, one
 * entry per kind of change (single assignee, licence assignees, active users); on a
 * creation, the initial assignment and the initial active users.
 */
module History {
  import opened Wrappers
  import opened Strings
  import opened Seqs
  import opened Entities
  import Keys

  /** The fields every entry of one save shares: the asset it is about and the day. */
  function Entry(asset: Asset, id: string, today: string, kind: HistoryKind,
                 from: Option<string>, to: Option<string>, notes: string): HistoryEntry {
    HistoryEntry(id, asset.assetId, asset.title, today, kind, from, to, notes)
  }

  /** An entry records a change of `asset` made on `today`. */
  predicate About(e: HistoryEntry, asset: Asset, today: string) {
    e.assetId == asset.assetId && e.assetName == asset.title && e.date == today
  }

  // ---------------------------------------------------------------------------
  // edits

  /** The single-assignee change: nothing when the ids agree, else a reassignment or a first assignment. */
  function SingleAssigneeEntries(oldUser: Option<User>, newUser: Option<User>, asset: Asset, clock: Clock): (r: seq<HistoryEntry>)
    ensures |r| <= 1
    ensures forall e :: e in r ==> About(e, asset, clock.today) && e.kind != UsageUpdate
  {
    var id := "hist-" + NatToString(clock.millis) + "-1";
    if IdOf(oldUser) == IdOf(newUser) then []
    else if oldUser.Some? then
      var newName := if newUser.Some? then newUser.value.fullName else "Inventory";
      var to := if newUser.Some? then OrElse(newUser.value.fullName, "Unassigned") else "Unassigned";
      [Entry(asset, id, clock.today, Reassigned, Some(oldUser.value.fullName), Some(to),
        "Reassigned from " + oldUser.value.fullName + " to " + newName)]
    else if newUser.Some? then
      [Entry(asset, id, clock.today, Assigned, None, Some(newUser.value.fullName),
        "Assigned to " + newUser.value.fullName)]
    else []
  }

  /** The licence-assignee change: one count-only entry when the id lists differ and the new list is not empty. */
  function MultiAssigneeEntries(oldUsers: seq<User>, newUsers: seq<User>, asset: Asset, clock: Clock): (r: seq<HistoryEntry>)
    ensures |r| <= 1
    ensures forall e :: e in r ==> About(e, asset, clock.today) && e.kind == Reassigned
  {
    if Keys.SortedJoin(UserIds(oldUsers)) != Keys.SortedJoin(UserIds(newUsers)) && |newUsers| > 0 then
      [Entry(asset, "hist-" + NatToString(clock.millis) + "-2", clock.today, Reassigned, None, None,
        "License assignment updated. Now assigned to " + NatToString(|newUsers|) + " users.")]
    else []
  }

  /** The users of `a` whose id does not occur in `b`. */
  function Missing(a: seq<User>, b: seq<User>): (r: seq<User>)
    ensures forall u :: u in r <==> u in a && !HasUserId(b, u.id)
  {
    var r := Filter(a, (u: User) => !HasUserId(b, u.id));
    forall u ensures u in r <==> u in a && !HasUserId(b, u.id) {
      FilterMembership(a, (u: User) => !HasUserId(b, u.id), u);
    }
    r
  }

  /** The clauses of the usage note: "Added: ..." and "Removed: ...", each only when not empty. */
  function UsageChanges(oldActive: seq<User>, newActive: seq<User>): (changes: seq<string>)
    ensures |changes| == (if |Missing(newActive, oldActive)| > 0 then 1 else 0)
                       + (if |Missing(oldActive, newActive)| > 0 then 1 else 0)
  {
    var added := Missing(newActive, oldActive);
    var removed := Missing(oldActive, newActive);
    (if |added| > 0 then ["Added: " + Join(FullNames(added), ", ")] else [])
    + (if |removed| > 0 then ["Removed: " + Join(FullNames(removed), ", ")] else [])
  }

  /** The active-user change: one entry listing who was added and who was removed. */
  function UsageEntries(oldActive: seq<User>, newActive: seq<User>, asset: Asset, clock: Clock): (r: seq<HistoryEntry>)
    ensures |r| <= 1
    ensures forall e :: e in r ==> About(e, asset, clock.today) && e.kind == UsageUpdate
  {
    if Keys.SortedJoin(UserIds(oldActive)) != Keys.SortedJoin(UserIds(newActive)) then
      [Entry(asset, "hist-usage-" + NatToString(clock.millis), clock.today, UsageUpdate, None, None,
        "Active users updated. " + Join(UsageChanges(oldActive, newActive), "; "))]
    else []
  }

  /** Everything one edit adds to the history, in the order the handler pushes it. */
  function EditEntries(before: Asset, after: Asset, clock: Clock): (r: seq<HistoryEntry>)
    ensures |r| <= 3
    ensures forall e :: e in r ==> About(e, after, clock.today)
  {
    SingleAssigneeEntries(before.assignedUser, after.assignedUser, after, clock)
    + MultiAssigneeEntries(Holders(before), Holders(after), after, clock)
    + UsageEntries(before.activeUsers, after.activeUsers, after, clock)
  }

  /** The saved copy of an edited asset: the new entries after the existing ones, and the modification stamp. */
  function EditedAsset(before: Asset, after: Asset, clock: Clock): (r: Asset)
    ensures r.history == after.history + EditEntries(before, after, clock)
    ensures r == after.(history := r.history, modified := clock.iso, modifiedBy := "Admin")
  {
    var entries := EditEntries(before, after, clock);
    var history := if |entries| > 0 then after.history + entries else after.history;
    after.(history := history, modified := clock.iso, modifiedBy := "Admin")
  }

  /**
   * The single-assignee rule: equal ids record nothing; a previous assignee gives one
   * reassignment to the new name (or "Unassigned"); no previous assignee and a new one
   * gives one first assignment.
   */
  lemma SingleAssigneeRule(oldUser: Option<User>, newUser: Option<User>, asset: Asset, clock: Clock)
    ensures IdOf(oldUser) == IdOf(newUser) <==> |SingleAssigneeEntries(oldUser, newUser, asset, clock)| == 0
    ensures |SingleAssigneeEntries(oldUser, newUser, asset, clock)| <= 1
    ensures IdOf(oldUser) != IdOf(newUser) && oldUser.Some? ==>
      var e := SingleAssigneeEntries(oldUser, newUser, asset, clock)[0];
      e.kind == Reassigned && e.assignedFrom == Some(oldUser.value.fullName)
      && e.assignedTo == Some(if newUser.Some? && newUser.value.fullName != "" then newUser.value.fullName else "Unassigned")
    ensures IdOf(oldUser) != IdOf(newUser) && oldUser.None? ==>
      var e := SingleAssigneeEntries(oldUser, newUser, asset, clock)[0];
      e.kind == Assigned && e.assignedTo == Some(newUser.value.fullName)
  {
  }

  /**
   * For plain ids the licence rule records an entry exactly when the assignee ids
   * changed as a multiset and the new list is not empty; clearing the list records nothing.
   */
  lemma MultiAssigneeRule(oldUsers: seq<User>, newUsers: seq<User>, asset: Asset, clock: Clock)
    requires Keys.PlainIds(UserIds(oldUsers)) && Keys.PlainIds(UserIds(newUsers))
    ensures |MultiAssigneeEntries(oldUsers, newUsers, asset, clock)| ==
      if multiset(UserIds(oldUsers)) != multiset(UserIds(newUsers)) && |newUsers| > 0 then 1 else 0
    ensures |newUsers| == 0 ==> MultiAssigneeEntries(oldUsers, newUsers, asset, clock) == []
    ensures |MultiAssigneeEntries(oldUsers, newUsers, asset, clock)| == 1 ==>
      MultiAssigneeEntries(oldUsers, newUsers, asset, clock)[0].kind == Reassigned
  {
    Keys.SortedJoinSameIds(UserIds(oldUsers), UserIds(newUsers));
  }

  /** For plain ids a usage entry is recorded exactly when the active ids changed as a multiset. */
  lemma UsageRule(oldActive: seq<User>, newActive: seq<User>, asset: Asset, clock: Clock)
    requires Keys.PlainIds(UserIds(oldActive)) && Keys.PlainIds(UserIds(newActive))
    ensures |UsageEntries(oldActive, newActive, asset, clock)| ==
      if multiset(UserIds(oldActive)) != multiset(UserIds(newActive)) then 1 else 0
    ensures |UsageEntries(oldActive, newActive, asset, clock)| == 1 ==>
      UsageEntries(oldActive, newActive, asset, clock)[0].kind == UsageUpdate
  {
    Keys.SortedJoinSameIds(UserIds(oldActive), UserIds(newActive));
  }

  /**
   * An edit appends at most three entries after the existing history, which it keeps
   * as a prefix: at most one for the single assignee, then at most one licence
   * reassignment, then at most one usage update, every one about the saved asset.
   */
  lemma EditKeepsHistory(before: Asset, after: Asset, clock: Clock)
    ensures after.history <= EditedAsset(before, after, clock).history
    ensures |EditedAsset(before, after, clock).history| <= |after.history| + 3
    ensures EditedAsset(before, after, clock).history[|after.history|..] == EditEntries(before, after, clock)
    ensures forall e :: e in EditEntries(before, after, clock) ==> About(e, after, clock.today)
    ensures var s := |SingleAssigneeEntries(before.assignedUser, after.assignedUser, after, clock)|;
      forall k :: s <= k < |EditEntries(before, after, clock)| ==> EditEntries(before, after, clock)[k].kind != Assigned
  {
    var single := SingleAssigneeEntries(before.assignedUser, after.assignedUser, after, clock);
    var multi := MultiAssigneeEntries(Holders(before), Holders(after), after, clock);
    var usage := UsageEntries(before.activeUsers, after.activeUsers, after, clock);
    var all := EditEntries(before, after, clock);
    assert all == single + multi + usage;
    forall k | |single| <= k < |all|
      ensures all[k].kind != Assigned
    {
      if k < |single| + |multi| {
        assert all[k] == multi[k - |single|];
        assert all[k] in multi;
      } else {
        assert all[k] == usage[k - |single| - |multi|];
        assert all[k] in usage;
      }
    }
    forall e | e in all
      ensures About(e, after, clock.today)
    {
      assert e in single || e in multi || e in usage;
    }
  }

  /**
   * The entries of an edit come in the order the handler pushes them: the
   * single-assignee entry, then the licence entry, then the usage entry, and only the
   * usage entry, when there is one, is a usage update.
   */
  lemma EditRule(before: Asset, after: Asset, clock: Clock)
    ensures var single := SingleAssigneeEntries(before.assignedUser, after.assignedUser, after, clock);
      var multi := MultiAssigneeEntries(Holders(before), Holders(after), after, clock);
      var usage := UsageEntries(before.activeUsers, after.activeUsers, after, clock);
      var r := EditEntries(before, after, clock);
      |r| == |single| + |multi| + |usage|
      && r[..|single|] == single && r[|single|..|single| + |multi|] == multi && r[|single| + |multi|..] == usage
      && (forall k :: 0 <= k < |single| + |multi| ==> r[k].kind != UsageUpdate)
      && (|usage| == 1 ==> r[|r| - 1].kind == UsageUpdate)
  {
    var single := SingleAssigneeEntries(before.assignedUser, after.assignedUser, after, clock);
    var multi := MultiAssigneeEntries(Holders(before), Holders(after), after, clock);
    var usage := UsageEntries(before.activeUsers, after.activeUsers, after, clock);
    ThreeParts(single, multi, usage);
  }

  /**
   * Three runs of entries, the last made of usage updates only and the others of
   * none, stay apart and in order when concatenated.
   */
  lemma ThreeParts(a: seq<HistoryEntry>, b: seq<HistoryEntry>, c: seq<HistoryEntry>)
    requires forall e :: e in a ==> e.kind != UsageUpdate
    requires forall e :: e in b ==> e.kind != UsageUpdate
    requires forall e :: e in c ==> e.kind == UsageUpdate
    ensures var r := a + b + c;
      |r| == |a| + |b| + |c|
      && r[..|a|] == a && r[|a|..|a| + |b|] == b && r[|a| + |b|..] == c
      && (forall k :: 0 <= k < |a| + |b| ==> r[k].kind != UsageUpdate)
      && (|c| > 0 ==> r[|r| - 1].kind == UsageUpdate)
  {
    var r := a + b + c;
    forall k | 0 <= k < |a| + |b|
      ensures r[k].kind != UsageUpdate
    {
      if k < |a| {
        assert r[k] == a[k];
      } else {
        assert r[k] == b[k - |a|];
      }
    }
    if |c| > 0 {
      assert r[|r| - 1] == c[|c| - 1];
    }
  }

  /** Every id list the edit rules compare is plain. */
  predicate PlainAssignees(before: Asset, after: Asset) {
    Keys.PlainIds(UserIds(Holders(before))) && Keys.PlainIds(UserIds(Holders(after)))
    && Keys.PlainIds(UserIds(before.activeUsers)) && Keys.PlainIds(UserIds(after.activeUsers))
  }

  /** For plain ids an edit records one entry per rule that fires. */
  lemma EditRuleCount(before: Asset, after: Asset, clock: Clock)
    requires PlainAssignees(before, after)
    ensures |EditEntries(before, after, clock)| ==
      (if IdOf(before.assignedUser) != IdOf(after.assignedUser) then 1 else 0)
      + (if multiset(UserIds(Holders(before))) != multiset(UserIds(Holders(after))) && |Holders(after)| > 0 then 1 else 0)
      + (if multiset(UserIds(before.activeUsers)) != multiset(UserIds(after.activeUsers)) then 1 else 0)
  {
    SingleAssigneeRule(before.assignedUser, after.assignedUser, after, clock);
    MultiAssigneeRule(Holders(before), Holders(after), after, clock);
    UsageRule(before.activeUsers, after.activeUsers, after, clock);
  }

  /** Saving an edit with no assignment change of any kind leaves the history as it was. */
  lemma UnchangedAssignmentsAddNothing(before: Asset, after: Asset, clock: Clock)
    requires IdOf(before.assignedUser) == IdOf(after.assignedUser)
    requires UserIds(Holders(before)) == UserIds(Holders(after))
    requires UserIds(before.activeUsers) == UserIds(after.activeUsers)
    ensures EditEntries(before, after, clock) == []
    ensures EditedAsset(before, after, clock).history == after.history
  {
  }

  /** The usage note's clauses name exactly the users who appeared and disappeared by id. */
  lemma UsageChangesNameTheDifference(oldActive: seq<User>, newActive: seq<User>, u: User)
    ensures u in Missing(newActive, oldActive) <==> u in newActive && !HasUserId(oldActive, u.id)
    ensures u in Missing(oldActive, newActive) <==> u in oldActive && !HasUserId(newActive, u.id)
    ensures |UsageChanges(oldActive, newActive)| <= 2
  {
  }

  // ---------------------------------------------------------------------------
  // creation

  /** The history a new asset starts with. */
  function CreationEntries(asset: Asset, clock: Clock): (r: seq<HistoryEntry>)
    ensures |r| <= 2
    ensures forall e :: e in r ==> About(e, asset, clock.today) && e.kind != Reassigned
  {
    var initial :=
      if asset.assignedUser.Some? || |Holders(asset)| > 0 then
        var to := if asset.assignedUser.Some? then OrElse(asset.assignedUser.value.fullName, "Multiple Users") else "Multiple Users";
        [Entry(asset, "hist-" + NatToString(clock.millis), clock.today, Assigned, None, Some(to), "Initial Assignment")]
      else [];
    var usage :=
      if |asset.activeUsers| > 0 then
        [Entry(asset, "hist-usage-" + NatToString(clock.millis), clock.today, UsageUpdate, None, None,
          "Initial active users: " + Join(FullNames(asset.activeUsers), ", "))]
      else [];
    initial + usage
  }

  /**
   * A new asset's history is one first assignment when it has any assignee, followed by
   * one usage update when it has active users, and nothing else: never a reassignment.
   */
  lemma CreationRule(asset: Asset, clock: Clock)
    ensures var h := CreationEntries(asset, clock);
      var hasAssignee := asset.assignedUser.Some? || |Holders(asset)| > 0;
      var hasActive := |asset.activeUsers| > 0;
      |h| == (if hasAssignee then 1 else 0) + (if hasActive then 1 else 0)
      && (hasAssignee ==> h[0].kind == Assigned)
      && (hasActive ==> h[|h| - 1].kind == UsageUpdate)
      && forall k :: 0 <= k < |h| ==> h[k].kind != Reassigned
  {
  }
}

=== FILE: idlayout.dfy ===
/**
 * The identifier-layout editor and the picklist helpers of the admin dashboard
 * (components/AdminDashboard.tsx): the sections an identifier is built from, the
 * edits on them, the preview, and adding and removing entries of string picklists.
 */
module IdLayout {
  import opened Wrappers
  import opened Strings
  import opened Seqs

  datatype SectionType = Static | Attribute | Sequence | Date

  /** One part of the identifier layout; `uppercase` and `paddingChar` are absent where the source leaves them out. */
  datatype IdSection = IdSection(
    id: string,
    kind: SectionType,
    value: string,
    caption: string,
    length: Option<nat>,
    uppercase: Option<bool>,
    paddingChar: Option<char>)

  /**
   * The application configuration as far as this editor reads it: the stored layout
   * (absent until first edited), the separator (empty meaning unset), and the
   * configuration keys that hold string lists.
   */
  datatype Config = Config(idConfiguration: Option<seq<IdSection>>, idSeparator: string, lists: map<string, seq<string>>)

  const DefaultSections: seq<IdSection> := [
    IdSection("def-1", Attribute, "prefix", "Prefix", Some(4), Some(true), None),
    IdSection("def-3", Attribute, "productCode", "Product Code", Some(4), Some(true), None),
    IdSection("def-5", Attribute, "version", "Version Code", Some(3), Some(true), None),
    IdSection("def-7", Sequence, "sequence", "Sequence", Some(4), None, Some('0'))
  ]

  /** `config.idConfiguration || DEFAULT_ID_CONFIG`: a stored list, even an empty one, wins. */
  function Sections(c: Config): (s: seq<IdSection>)
    ensures c.idConfiguration.Some? ==> s == c.idConfiguration.value
    ensures c.idConfiguration.None? ==> s == DefaultSections
  {
    c.idConfiguration.GetOr(DefaultSections)
  }

  /** `config.idSeparator || '-'`. */
  function Separator(c: Config): (sep: string)
    ensures sep != ""
    ensures c.idSeparator != "" ==> sep == c.idSeparator
  {
    OrElse(c.idSeparator, "-")
  }

  function SectionIds(s: seq<IdSection>): (ids: seq<string>)
    ensures |ids| == |s|
    ensures forall i :: 0 <= i < |s| ==> ids[i] == s[i].id
  {
    seq(|s|, i requires 0 <= i < |s| => s[i].id)
  }

  // ---------------------------------------------------------------------------
  // edits on the sections

  /** The fields an update may carry; an absent field is left as it is. */
  datatype SectionPatch = SectionPatch(
    kind: Option<SectionType>,
    value: Option<string>,
    caption: Option<string>,
    length: Option<nat>,
    uppercase: Option<bool>,
    paddingChar: Option<char>)

  /** `{ ...s, ...updates }` for the fields the patch carries. */
  function Merge(s: IdSection, p: SectionPatch): (r: IdSection)
    ensures r.id == s.id
    ensures p.caption.Some? ==> r.caption == p.caption.value
    ensures p.caption.None? ==> r.caption == s.caption
  {
    IdSection(s.id,
      p.kind.GetOr(s.kind),
      p.value.GetOr(s.value),
      p.caption.GetOr(s.caption),
      if p.length.Some? then p.length else s.length,
      if p.uppercase.Some? then p.uppercase else s.uppercase,
      if p.paddingChar.Some? then p.paddingChar else s.paddingChar)
  }

  /** `updateSection`. */
  function UpdateSection(c: Config, id: string, p: SectionPatch): (r: Config)
    ensures r.idSeparator == c.idSeparator && r.lists == c.lists
  {
    c.(idConfiguration := Some(UpdateWhere(Sections(c), (s: IdSection) => s.id == id, (s: IdSection) => Merge(s, p))))
  }

  /**
   * An update merges the patch into the sections with that id, and only those: the
   * list keeps its length, its ids and their order.
   */
  lemma UpdateSectionSpec(c: Config, id: string, p: SectionPatch)
    ensures var s := Sections(UpdateSection(c, id, p));
      |s| == |Sections(c)| && SectionIds(s) == SectionIds(Sections(c))
      && forall i :: 0 <= i < |s| ==> s[i] == if Sections(c)[i].id == id then Merge(Sections(c)[i], p) else Sections(c)[i]
  {
  }

  /** An update that carries nothing changes no section. */
  lemma EmptyPatchChangesNothing(c: Config, id: string)
    ensures Sections(UpdateSection(c, id, SectionPatch(None, None, None, None, None, None))) == Sections(c)
  {
    var s := Sections(UpdateSection(c, id, SectionPatch(None, None, None, None, None, None)));
    assert forall i :: 0 <= i < |s| ==> s[i] == Sections(c)[i];
  }

  /** `updateSeparator`. */
  function UpdateSeparator(c: Config, separator: string): (r: Config)
    ensures Sections(r) == Sections(c)
    ensures separator != "" ==> Separator(r) == separator
    ensures separator == "" ==> Separator(r) == "-"
  {
    c.(idSeparator := separator)
  }

  /** The section `addSection` creates. */
  function NewSection(kind: SectionType, value: string, caption: string, millis: nat): IdSection {
    IdSection("sec-" + NatToString(millis), kind, value, caption,
      if kind == Static then None else Some(4),
      Some(true),
      if kind == Sequence then Some('0') else None)
  }

  /** `addSection`. */
  function AddSection(c: Config, kind: SectionType, value: string, caption: string, millis: nat): (r: Config)
    ensures |Sections(r)| == |Sections(c)| + 1
    ensures Sections(r)[..|Sections(c)|] == Sections(c)
  {
    c.(idConfiguration := Some(Sections(c) + [NewSection(kind, value, caption, millis)]))
  }

  /**
   * The added section goes last and is upper-cased; a static one has no length and
   * every other kind has length 4; only a sequence is padded, with zeros.
   */
  lemma AddSectionSpec(c: Config, kind: SectionType, value: string, caption: string, millis: nat)
    ensures var s := Sections(AddSection(c, kind, value, caption, millis))[|Sections(c)|];
      s.kind == kind && s.value == value && s.caption == caption && s.uppercase == Some(true)
      && (s.length.None? <==> kind == Static) && (s.length.Some? ==> s.length.value == 4)
      && (s.paddingChar.Some? <==> kind == Sequence) && (s.paddingChar.Some? ==> s.paddingChar.value == '0')
  {
  }

  function NotId(id: string): IdSection -> bool {
    (s: IdSection) => s.id != id
  }

  /** `removeSection`. */
  function RemoveSection(c: Config, id: string): (r: Config)
    ensures |Sections(r)| <= |Sections(c)|
  {
    c.(idConfiguration := Some(Filter(Sections(c), NotId(id))))
  }

  /**
   * Removing drops every section with that id and keeps the others, in order; removing
   * an id no section has leaves the sections as they were.
   */
  lemma RemoveSectionSpec(c: Config, id: string, x: IdSection)
    ensures x in Sections(RemoveSection(c, id)) <==> x in Sections(c) && x.id != id
    ensures SubsequenceOf(Sections(RemoveSection(c, id)), Sections(c))
    ensures (forall i :: 0 <= i < |Sections(c)| ==> Sections(c)[i].id != id) ==> Sections(RemoveSection(c, id)) == Sections(c)
  {
    FilterMembership(Sections(c), NotId(id), x);
    FilterIsSubsequence(Sections(c), NotId(id));
    if forall i :: 0 <= i < |Sections(c)| ==> Sections(c)[i].id != id {
      FilterKeepsAll(Sections(c), NotId(id));
    }
  }

  /** Exchanges the elements at two positions. */
  function Swap<T>(s: seq<T>, i: nat, j: nat): (r: seq<T>)
    requires i < |s| && j < |s|
    ensures |r| == |s|
    ensures r[i] == s[j] && r[j] == s[i]
    ensures forall k :: 0 <= k < |s| && k != i && k != j ==> r[k] == s[k]
  {
    s[i := s[j]][j := s[i]]
  }

  /** The neighbour a move aims at. */
  function Target(index: nat, up: bool): int {
    if up then index - 1 else index + 1
  }

  /**
   * `moveSection`, for the index of a listed section: the section changes place with
   * its neighbour above or below, and when there is none the configuration is not updated.
   */
  function MoveSection(c: Config, index: nat, up: bool): (r: Config)
    requires index < |Sections(c)|
    ensures |Sections(r)| == |Sections(c)|
    ensures !(0 <= Target(index, up) < |Sections(c)|) ==> r == c
  {
    var t := Target(index, up);
    if 0 <= t < |Sections(c)| then c.(idConfiguration := Some(Swap(Sections(c), index, t))) else c
  }

  /** Swapping two positions keeps every element as often as before. */
  lemma SwapPermutes<T>(s: seq<T>, i: nat, j: nat)
    requires i < |s| && j < |s|
    ensures multiset(Swap(s, i, j)) == multiset(s)
  {
    var t := s[i := s[j]];
    assert multiset(t) == multiset(s) - multiset{s[i]} + multiset{s[j]};
    assert multiset(t[j := s[i]]) == multiset(t) - multiset{t[j]} + multiset{s[i]};
  }

  /**
   * A move is a permutation that exchanges the section with its neighbour and leaves
   * every other position alone.
   */
  lemma MoveSectionSpec(c: Config, index: nat, up: bool)
    requires index < |Sections(c)|
    ensures multiset(Sections(MoveSection(c, index, up))) == multiset(Sections(c))
    ensures var t := Target(index, up);
      0 <= t < |Sections(c)| ==>
        Sections(MoveSection(c, index, up))[t] == Sections(c)[index]
        && Sections(MoveSection(c, index, up))[index] == Sections(c)[t]
        && forall k :: 0 <= k < |Sections(c)| && k != index && k != t ==> Sections(MoveSection(c, index, up))[k] == Sections(c)[k]
  {
    var t := Target(index, up);
    if 0 <= t < |Sections(c)| {
      SwapPermutes(Sections(c), index, t);
    }
  }

  /** Moving a section up and then moving it back down gives back the same sections. */
  lemma MoveUpThenDown(c: Config, index: nat)
    requires 0 < index < |Sections(c)|
    ensures Sections(MoveSection(MoveSection(c, index, true), index - 1, false)) == Sections(c)
  {
    var once := Sections(MoveSection(c, index, true));
    var twice := Sections(MoveSection(MoveSection(c, index, true), index - 1, false));
    assert |twice| == |Sections(c)|;
    forall k | 0 <= k < |twice|
      ensures twice[k] == Sections(c)[k]
    {
    }
  }

  /** `resetToDefault`, once the reset is confirmed. */
  function ResetToDefault(c: Config, confirmed: bool): (r: Config)
    ensures confirmed ==> Sections(r) == DefaultSections && Separator(r) == "-"
    ensures !confirmed ==> r == c
    ensures r.lists == c.lists
  {
    if confirmed then c.(idConfiguration := Some(DefaultSections), idSeparator := "-") else c
  }

  // ---------------------------------------------------------------------------
  // preview

  /** What the preview shows for one section. */
  function Placeholder(s: IdSection): string {
    match s.kind
    case Static => s.value
    case Attribute => "ATTR"
    case Sequence => "0012"
    case Date => "2025"
  }

  function Placeholders(sections: seq<IdSection>): (r: seq<string>)
    ensures |r| == |sections|
    ensures forall i :: 0 <= i < |sections| ==> r[i] == Placeholder(sections[i])
  {
    seq(|sections|, i requires 0 <= i < |sections| => Placeholder(sections[i]))
  }

  /** `previewId`. */
  function Preview(c: Config): (r: string)
    ensures |Sections(c)| >= 1 ==>
      |r| == SumLengths(Placeholders(Sections(c))) + (|Sections(c)| - 1) * |Separator(c)|
  {
    var parts := Placeholders(Sections(c));
    if |parts| >= 1 then
      JoinLength(parts, Separator(c));
      Join(parts, Separator(c))
    else Join(parts, Separator(c))
  }

  /** The separators the editor offers. */
  predicate OfferedSeparator(sep: string) {
    sep == "-" || sep == "_" || sep == "/"
  }

  /** None of the offered separators occurs in a placeholder other than a static value. */
  lemma FixedPlaceholdersAvoidSeparators(s: IdSection, sep: string)
    requires OfferedSeparator(sep) && s.kind != Static
    ensures sep[0] !in Placeholder(s)
  {
    var p := Placeholder(s);
    assert p == "ATTR" || p == "0012" || p == "2025";
    assert forall k :: 0 <= k < |p| ==> p[k] != '-' && p[k] != '_' && p[k] != '/';
  }

  /** No static section's text contains `ch`. */
  predicate StaticValuesAvoid(sections: seq<IdSection>, ch: char) {
    forall i :: 0 <= i < |sections| && sections[i].kind == Static ==> ch !in sections[i].value
  }

  /**
   * The preview is one placeholder per section with the separator between neighbours:
   * its length is the placeholders' plus one separator fewer than there are sections,
   * and, for an offered separator that no static value contains, cutting it at the
   * separator gives back the placeholders.
   */
  lemma PreviewSpec(c: Config)
    requires |Sections(c)| >= 1
    ensures |Preview(c)| == SumLengths(Placeholders(Sections(c))) + (|Sections(c)| - 1) * |Separator(c)|
    ensures OfferedSeparator(Separator(c)) && StaticValuesAvoid(Sections(c), Separator(c)[0]) ==>
      Split(Preview(c), Separator(c)[0]) == Placeholders(Sections(c))
  {
    JoinLength(Placeholders(Sections(c)), Separator(c));
    var sep := Separator(c);
    if OfferedSeparator(sep) && StaticValuesAvoid(Sections(c), sep[0]) {
      var ps := Placeholders(Sections(c));
      forall k | 0 <= k < |ps|
        ensures sep[0] !in ps[k]
      {
        if Sections(c)[k].kind != Static {
          FixedPlaceholdersAvoidSeparators(Sections(c)[k], sep);
        }
      }
      assert sep == [sep[0]];
      SplitJoin(ps, sep[0]);
    }
  }

  /** With the default layout and separator the preview is ATTR-ATTR-ATTR-0012. */
  lemma DefaultPreview(lists: map<string, seq<string>>)
    ensures Preview(Config(None, "", lists)) == "ATTR-ATTR-ATTR-0012"
  {
    var c := Config(None, "", lists);
    assert Sections(c) == DefaultSections && Separator(c) == "-";
    var ps := Placeholders(DefaultSections);
    assert ps == ["ATTR", "ATTR", "ATTR", "0012"];
    var last: seq<string> := ["0012"];
    assert Join(last, "-") == "0012";
    assert Join(["ATTR"] + last, "-") == "ATTR-0012" by {
      assert (["ATTR"] + last)[1..] == last;
    }
    assert Join(["ATTR", "ATTR"] + last, "-") == "ATTR-ATTR-0012" by {
      assert (["ATTR", "ATTR"] + last)[1..] == ["ATTR"] + last;
    }
    assert ps[1..] == ["ATTR", "ATTR"] + last;
  }

  // ---------------------------------------------------------------------------
  // picklists

  /** `handleAddSimpleItem`: appends the item to the list under `key` unless the list already has it. */
  function AddItem(c: Config, key: string, item: string): (r: Config)
    ensures r.idConfiguration == c.idConfiguration && r.idSeparator == c.idSeparator
    ensures r.lists.Keys == c.lists.Keys
    ensures forall k :: k in c.lists && k != key ==> r.lists[k] == c.lists[k]
    ensures key in c.lists ==> item in r.lists[key]
  {
    if key in c.lists && item !in c.lists[key] then c.(lists := c.lists[key := c.lists[key] + [item]]) else c
  }

  /** `handleRemoveSimpleItem`: drops every copy of the item from the list under `key`. */
  function RemoveItem(c: Config, key: string, item: string): (r: Config)
    ensures r.idConfiguration == c.idConfiguration && r.idSeparator == c.idSeparator
    ensures r.lists.Keys == c.lists.Keys
    ensures forall k :: k in c.lists && k != key ==> r.lists[k] == c.lists[k]
    ensures key in c.lists ==> item !in r.lists[key]
  {
    if key in c.lists then c.(lists := c.lists[key := RemoveAll(c.lists[key], item)]) else c
  }

  /**
   * Adding is the duplicate-free append: adding twice is adding once, and a list
   * without duplicates keeps none.
   */
  lemma AddItemSpec(c: Config, key: string, item: string)
    ensures key in c.lists ==> AddItem(c, key, item).lists[key] == AddIfAbsent(c.lists[key], item)
    ensures AddItem(AddItem(c, key, item), key, item) == AddItem(c, key, item)
    ensures key in c.lists && NoDuplicates(c.lists[key]) ==> NoDuplicates(AddItem(c, key, item).lists[key])
  {
    if key in c.lists && NoDuplicates(c.lists[key]) {
      AddIfAbsentNoDuplicates(c.lists[key], item);
    }
  }

  /**
   * Removing keeps the other entries, each as often as before and in order, and
   * undoes an add of an item the list did not have.
   */
  lemma RemoveItemSpec(c: Config, key: string, item: string)
    requires key in c.lists
    ensures forall x :: x != item ==> multiset(RemoveItem(c, key, item).lists[key])[x] == multiset(c.lists[key])[x]
    ensures SubsequenceOf(RemoveItem(c, key, item).lists[key], c.lists[key])
    ensures item !in c.lists[key] ==> RemoveItem(AddItem(c, key, item), key, item) == c
  {
    if item !in c.lists[key] {
      RemoveAllAfterAppend(c.lists[key], item);
      assert RemoveItem(AddItem(c, key, item), key, item).lists == c.lists;
    }
  }
}

=== FILE: inventory.dfy ===
/**
 * The asset bookkeeping of the top-level App.tsx state: saving a family, creating
 * instances one at a time or in bulk, saving an edited instance with its history,
 * propagating an edited user into the assets that hold a copy of it, and the
 * per-family counts the family list shows.
 */
module Inventory {
  import opened Wrappers
  import opened Strings
  import opened Seqs
  import opened Entities
  import opened AssetIds
  import opened History

  // ---------------------------------------------------------------------------
  // families

  /**
   * `handleSaveFamily`: an edit replaces the families with the same id and stamps the
   * modification time; a new family gets its id from the clock and its product code
   * from the first four letters of its name, upper-cased, and goes last.
   */
  function SaveFamily(families: seq<Family>, family: Family, editing: bool, clock: Clock): (r: seq<Family>)
    ensures editing ==> |r| == |families|
    ensures editing ==> forall i :: 0 <= i < |families| && families[i].id != family.id ==> r[i] == families[i]
    ensures editing ==> forall i :: 0 <= i < |families| && families[i].id == family.id ==>
      r[i] == family.(lastModifiedDate := clock.iso)
    ensures !editing ==> |r| == |families| + 1 && r[..|families|] == families
    ensures !editing ==> r[|families|].name == family.name && r[|families|].assetType == family.assetType
    ensures !editing ==> r[|families|].productCode == ProductCode(family.name, 4)
  {
    if editing then
      UpdateWhere(families, (f: Family) => f.id == family.id, (f: Family) => family.(lastModifiedDate := clock.iso))
    else
      var code := ProductCode(family.name, 4);
      families + [family.(id := "fam-" + clock.iso, productCode := code, createdDate := clock.iso, lastModifiedDate := clock.iso)]
  }

  /** Editing a family never changes which ids the list holds, nor their order. */
  lemma SaveFamilyEditKeepsIds(families: seq<Family>, family: Family, clock: Clock)
    ensures var r := SaveFamily(families, family, true, clock);
      |r| == |families| && forall i :: 0 <= i < |families| ==> r[i].id == families[i].id
  {
  }

  /**
   * The first instance of a newly saved family, whose name has no dash, is numbered 1
   * and carries the family's own code: the upper-cased first four letters of its
   * name, or GEN for an unnamed family.
   */
  lemma NewFamilyFirstInstance(families: seq<Family>, family: Family, clock: Clock, assets: seq<Asset>)
    requires '-' !in family.name
    requires forall a :: a in assets ==> a.familyId != "fam-" + clock.iso
    ensures var f := SaveFamily(families, family, false, clock)[|families|];
      ParseAssetId(NextAssetId(assets, f))
        == Some(IdParts(FamilyPrefix(family.assetType), if family.name == "" then "GEN" else ProductCode(family.name, 4), 1))
  {
    var f := SaveFamily(families, family, false, clock)[|families|];
    var code := ProductCode(family.name, 4);
    ProductCodeDashFree(family.name, 4);
    NewFamilyFields(families, family, clock);
    FilterKeepsNone(assets, InFamily(f.id));
    assert FamilyCount(assets, f.id) == 0;
    assert CodeOf(f, "GEN") == if family.name == "" then "GEN" else code;
    AssetIdRoundTrip(FamilyPrefix(family.assetType), CodeOf(f, "GEN"), 1);
  }

  /** A new family gets its id from the clock, its code from its name, and keeps its type. */
  lemma NewFamilyFields(families: seq<Family>, family: Family, clock: Clock)
    ensures var f := SaveFamily(families, family, false, clock)[|families|];
      f.id == "fam-" + clock.iso && f.productCode == ProductCode(family.name, 4) && f.assetType == family.assetType
  {
  }

  /** The code taken from a dash-free name has no dash. */
  lemma ProductCodeDashFree(name: string, n: nat)
    requires '-' !in name
    ensures '-' !in ProductCode(name, n)
  {
    var code := ProductCode(name, n);
    forall k | 0 <= k < |code|
      ensures code[k] != '-'
    {
      assert code[k] == UpperChar(name[k]);
    }
  }

  /** A filter that no element passes is empty. */
  lemma FilterKeepsNone(s: seq<Asset>, p: Asset -> bool)
    requires forall x :: x in s ==> !p(x)
    ensures |Filter(s, p)| == 0
  {
    if |Filter(s, p)| > 0 {
      var x := Filter(s, p)[0];
      FilterMembership(s, p, x);
    }
  }

  // ---------------------------------------------------------------------------
  // bulk creation

  /** The fields of the bulk dialog's common data the handler gives a default for. */
  datatype BulkCommon = BulkCommon(purchaseDate: Option<string>, cost: Option<int>)

  /** The `k`-th asset of a bulk creation, numbered `n`. */
  function BulkAsset(family: Family, variantName: string, n: nat, k: nat, common: BulkCommon, clock: Clock): Asset {
    Asset(
      id := "inst-" + NatToString(clock.millis + k),
      assetId := ComposeAssetId(FamilyPrefix(family.assetType), CodeOf(family, "GEN"), n),
      familyId := family.id,
      title := family.name + " " + NatToString(n),
      assetType := family.assetType,
      status := Available,
      variantType := variantName,
      purchaseDate := common.purchaseDate.GetOr(clock.today),
      cost := common.cost.GetOr(0),
      assignedUser := None,
      assignedUsers := None,
      activeUsers := [],
      history := [],
      created := clock.iso,
      createdBy := "Admin (Bulk)",
      modified := clock.iso,
      modifiedBy := "Admin (Bulk)")
  }

  /** The number the first asset of a bulk creation gets: the family's count plus one. */
  function BulkStart(assets: seq<Asset>, family: Family): nat {
    FamilyCount(assets, family.id) + 1
  }

  /** `handleBulkCreate`: `quantity` new assets numbered on from the family's count, after the existing ones. */
  function BulkCreate(assets: seq<Asset>, family: Family, variantName: string, quantity: int, common: BulkCommon, clock: Clock): (r: seq<Asset>)
    ensures |r| == |assets| + (if quantity > 0 then quantity else 0)
    ensures r[..|assets|] == assets
  {
    var count := if quantity > 0 then quantity else 0;
    var start := BulkStart(assets, family);
    assets + seq(count, k requires 0 <= k < count => BulkAsset(family, variantName, start + k, k, common, clock))
  }

  /**
   * Each new asset belongs to the family, is Available, and is titled and numbered
   * with consecutive numbers from the family's count plus one; for a dash-free
   * product code its identifier reads back to that number.
   */
  lemma BulkCreateSpec(assets: seq<Asset>, family: Family, variantName: string, quantity: int, common: BulkCommon, clock: Clock)
    ensures var r := BulkCreate(assets, family, variantName, quantity, common, clock);
      forall k :: |assets| <= k < |r| ==>
        r[k].familyId == family.id && r[k].status == Available && r[k].assetType == family.assetType
        && r[k].variantType == variantName
        && r[k].title == family.name + " " + NatToString(BulkStart(assets, family) + (k - |assets|))
    ensures var r := BulkCreate(assets, family, variantName, quantity, common, clock);
      '-' !in family.productCode ==>
        forall k :: |assets| <= k < |r| ==>
          ParseAssetId(r[k].assetId)
            == Some(IdParts(FamilyPrefix(family.assetType), CodeOf(family, "GEN"), BulkStart(assets, family) + (k - |assets|)))
  {
    var r := BulkCreate(assets, family, variantName, quantity, common, clock);
    forall k | |assets| <= k < |r|
      ensures r[k].familyId == family.id && r[k].status == Available && r[k].assetType == family.assetType
        && r[k].variantType == variantName
        && r[k].title == family.name + " " + NatToString(BulkStart(assets, family) + (k - |assets|))
      ensures '-' !in family.productCode ==>
        ParseAssetId(r[k].assetId)
          == Some(IdParts(FamilyPrefix(family.assetType), CodeOf(family, "GEN"), BulkStart(assets, family) + (k - |assets|)))
    {
      BulkAssetSpec(assets, family, variantName, quantity, common, clock, k);
    }
  }

  /** One asset of a bulk creation: its family, status, title and identifier. */
  lemma BulkAssetSpec(assets: seq<Asset>, family: Family, variantName: string, quantity: int, common: BulkCommon, clock: Clock, k: nat)
    requires |assets| <= k < |BulkCreate(assets, family, variantName, quantity, common, clock)|
    ensures var a := BulkCreate(assets, family, variantName, quantity, common, clock)[k];
      var n := BulkStart(assets, family) + (k - |assets|);
      a.familyId == family.id && a.status == Available && a.assetType == family.assetType
      && a.variantType == variantName && a.title == family.name + " " + NatToString(n)
      && ('-' !in family.productCode ==> ParseAssetId(a.assetId) == Some(IdParts(FamilyPrefix(family.assetType), CodeOf(family, "GEN"), n)))
  {
    var n := BulkStart(assets, family) + (k - |assets|);
    BulkElement(assets, family, variantName, quantity, common, clock, k);
    if '-' !in family.productCode {
      AssetIdRoundTrip(FamilyPrefix(family.assetType), CodeOf(family, "GEN"), n);
    }
  }

  /** Position `k` past the existing assets holds the `k - |assets|`-th bulk asset. */
  lemma BulkElement(assets: seq<Asset>, family: Family, variantName: string, quantity: int, common: BulkCommon, clock: Clock, k: nat)
    requires |assets| <= k < |BulkCreate(assets, family, variantName, quantity, common, clock)|
    ensures BulkCreate(assets, family, variantName, quantity, common, clock)[k]
      == BulkAsset(family, variantName, BulkStart(assets, family) + (k - |assets|), k - |assets|, common, clock)
  {
  }

  /** Instance ids made from different clock readings differ. */
  lemma InstanceIdInjective(prefix: string, m: nat, n: nat)
    requires prefix + NatToString(m) == prefix + NatToString(n)
    ensures m == n
  {
    var a := NatToString(m);
    var b := NatToString(n);
    assert a == (prefix + a)[|prefix|..];
    assert b == (prefix + b)[|prefix|..];
    ParseNatToString(m);
    ParseNatToString(n);
  }

  /** The assets of one bulk creation have pairwise different ids. */
  lemma BulkCreateDistinctIds(assets: seq<Asset>, family: Family, variantName: string, quantity: int, common: BulkCommon, clock: Clock)
    ensures var r := BulkCreate(assets, family, variantName, quantity, common, clock);
      forall i, j :: |assets| <= i < j < |r| ==> r[i].id != r[j].id
  {
    var r := BulkCreate(assets, family, variantName, quantity, common, clock);
    forall i, j | |assets| <= i < j < |r|
      ensures r[i].id != r[j].id
    {
      BulkElement(assets, family, variantName, quantity, common, clock, i);
      BulkElement(assets, family, variantName, quantity, common, clock, j);
      if r[i].id == r[j].id {
        InstanceIdInjective("inst-", clock.millis + (i - |assets|), clock.millis + (j - |assets|));
      }
    }
  }

  /** For a dash-free product code the assets of one bulk creation have pairwise different asset ids. */
  lemma BulkCreateDistinctAssetIds(assets: seq<Asset>, family: Family, variantName: string, quantity: int, common: BulkCommon, clock: Clock)
    requires '-' !in family.productCode
    ensures var r := BulkCreate(assets, family, variantName, quantity, common, clock);
      forall i, j :: |assets| <= i < j < |r| ==> r[i].assetId != r[j].assetId
  {
    BulkCreateSpec(assets, family, variantName, quantity, common, clock);
  }

  /**
   * After a bulk creation the family's count has grown by the quantity, so the next
   * single creation continues the numbering where the bulk one stopped.
   */
  lemma {:induction false} BulkCreateContinuesNumbering(assets: seq<Asset>, family: Family, variantName: string, quantity: int, common: BulkCommon, clock: Clock)
    requires quantity >= 0
    ensures FamilyCount(BulkCreate(assets, family, variantName, quantity, common, clock), family.id)
      == FamilyCount(assets, family.id) + quantity
    ensures NextAssetId(BulkCreate(assets, family, variantName, quantity, common, clock), family)
      == ComposeAssetId(FamilyPrefix(family.assetType), CodeOf(family, "GEN"), BulkStart(assets, family) + quantity)
  {
    var r := BulkCreate(assets, family, variantName, quantity, common, clock);
    var added := r[|assets|..];
    assert r == assets + added;
    FamilyCountAppend(assets, added, family.id);
    forall x | x in added
      ensures InFamily(family.id)(x)
    {
      var k :| 0 <= k < |added| && added[k] == x;
      BulkElement(assets, family, variantName, quantity, common, clock, |assets| + k);
    }
    FilterKeepsAll(added, InFamily(family.id));
  }

  // ---------------------------------------------------------------------------
  // saving one asset

  /** `handleSaveAsset` on an edit: the asset with the same id is replaced by the edited copy with its history. */
  function SaveEdit(assets: seq<Asset>, before: Asset, after: Asset, clock: Clock): (r: seq<Asset>)
    ensures |r| == |assets|
    ensures forall i :: 0 <= i < |assets| && assets[i].id != after.id ==> r[i] == assets[i]
    ensures forall i :: 0 <= i < |assets| && assets[i].id == after.id ==>
      after.history <= r[i].history && |r[i].history| <= |after.history| + 3
    ensures forall i :: 0 <= i < |assets| && assets[i].id == after.id ==> r[i] == EditedAsset(before, after, clock)
  {
    var saved := EditedAsset(before, after, clock);
    EditKeepsHistory(before, after, clock);
    UpdateWhere(assets, (a: Asset) => a.id == after.id, (a: Asset) => saved)
  }

  /** The identifier `handleSaveAsset` generates for a new asset, from the family found by id. */
  function GeneratedAssetId(assets: seq<Asset>, families: seq<Family>, familyId: string): string {
    var family := Find(families, (f: Family) => f.id == familyId);
    var prefix := if family.Some? && family.value.assetType == License then "SOFT" else "HARD";
    var code := if family.Some? then CodeOf(family.value, "GEN") else "GEN";
    ComposeAssetId(prefix, code, FamilyCount(assets, familyId) + 1)
  }

  /** The new asset as stored: stamped, its identifier defaulted, its history started. */
  function CreatedAsset(assets: seq<Asset>, families: seq<Family>, asset: Asset, clock: Clock): Asset {
    var stamped := asset.(
      id := "inst-" + clock.iso,
      assetId := OrElse(asset.assetId, GeneratedAssetId(assets, families, asset.familyId)),
      created := clock.iso, modified := clock.iso, createdBy := "Admin", modifiedBy := "Admin");
    stamped.(history := CreationEntries(stamped, clock))
  }

  /** `handleSaveAsset` on a creation: the new asset goes last. */
  function SaveCreate(assets: seq<Asset>, families: seq<Family>, asset: Asset, clock: Clock): (r: seq<Asset>)
    ensures |r| == |assets| + 1 && r[..|assets|] == assets
  {
    assets + [CreatedAsset(assets, families, asset, clock)]
  }

  /** A created asset keeps a caller-supplied identifier, its family and title, and starts its history afresh. */
  lemma SaveCreateKeeps(assets: seq<Asset>, families: seq<Family>, asset: Asset, clock: Clock)
    ensures var c := SaveCreate(assets, families, asset, clock)[|assets|];
      c.familyId == asset.familyId && c.title == asset.title && c.history == CreationEntries(c, clock)
    ensures asset.assetId != "" ==> SaveCreate(assets, families, asset, clock)[|assets|].assetId == asset.assetId
  {
  }

  /**
   * Without a caller-supplied identifier, a new asset of a known family gets the same
   * identifier the form proposes for the family's next instance: the first family with
   * that id decides the prefix and the code.
   */
  lemma SaveCreateKnownFamily(assets: seq<Asset>, families: seq<Family>, asset: Asset, clock: Clock, i: nat)
    requires asset.assetId == ""
    requires i < |families| && families[i].id == asset.familyId
    requires forall j :: 0 <= j < i ==> families[j].id != asset.familyId
    ensures SaveCreate(assets, families, asset, clock)[|assets|].assetId == NextAssetId(assets, families[i])
  {
    FindFirst(families, (f: Family) => f.id == asset.familyId, i);
  }

  /** With no family of that id the identifier falls back to HARD and GEN, whatever the asset's type. */
  lemma SaveCreateUnknownFamily(assets: seq<Asset>, families: seq<Family>, asset: Asset, clock: Clock)
    requires asset.assetId == ""
    requires forall i :: 0 <= i < |families| ==> families[i].id != asset.familyId
    ensures SaveCreate(assets, families, asset, clock)[|assets|].assetId
      == ComposeAssetId("HARD", "GEN", FamilyCount(assets, asset.familyId) + 1)
  {
  }

  // ---------------------------------------------------------------------------
  // users

  /** The parts of the App state a saved profile touches. */
  datatype Directory = Directory(users: seq<User>, assets: seq<Asset>, currentUser: Option<User>, selectedUser: Option<User>)

  /** The selector of the entries that carry a given user id. */
  function SameUserId(id: string): User -> bool {
    (u: User) => u.id == id
  }

  /** The copy of `user` an asset holds is replaced: in a licence's assignees, or as a hardware item's assignee. */
  function RefreshHolder(asset: Asset, user: User): Asset {
    if asset.assetType == License && HasUserId(Holders(asset), user.id) then
      asset.(assignedUsers := Some(UpdateWhere(Holders(asset), SameUserId(user.id), (u: User) => user)))
    else if asset.assetType == Hardware && IdOf(asset.assignedUser) == Some(user.id) then
      asset.(assignedUser := Some(user))
    else asset
  }

  function RefreshSelection(u: Option<User>, user: User): Option<User> {
    if IdOf(u) == Some(user.id) then Some(user) else u
  }

  /** `handleSaveUser`. */
  function SaveUser(d: Directory, user: User): (r: Directory)
    ensures |r.users| == |d.users| && forall i :: 0 <= i < |d.users| ==> r.users[i].id == d.users[i].id
    ensures |r.assets| == |d.assets| && forall i :: 0 <= i < |d.assets| ==> r.assets[i].id == d.assets[i].id
    ensures HasUserId(d.users, user.id) ==> user in r.users
  {
    Directory(
      UpdateWhere(d.users, SameUserId(user.id), (u: User) => user),
      seq(|d.assets|, i requires 0 <= i < |d.assets| => RefreshHolder(d.assets[i], user)),
      RefreshSelection(d.currentUser, user),
      RefreshSelection(d.selectedUser, user))
  }

  /**
   * What one asset becomes when a profile is saved: a licence keeps its single
   * assignee and its assignee list, position by position, with every entry of the
   * saved id replaced by the profile; a hardware item keeps its list and has its
   * single assignee replaced when it is the saved user; an asset holding the user in
   * neither way is unchanged, and no other field of any asset changes.
   */
  lemma RefreshHolderSpec(a: Asset, user: User)
    ensures var b := RefreshHolder(a, user);
      b.(assignedUsers := a.assignedUsers, assignedUser := a.assignedUser) == a
    ensures var b := RefreshHolder(a, user);
      a.assetType == License ==>
        b.assignedUser == a.assignedUser && (b.assignedUsers.Some? <==> a.assignedUsers.Some?)
        && |Holders(b)| == |Holders(a)|
        && forall k :: 0 <= k < |Holders(a)| ==>
             Holders(b)[k] == if Holders(a)[k].id == user.id then user else Holders(a)[k]
    ensures var b := RefreshHolder(a, user);
      a.assetType == Hardware ==>
        b.assignedUsers == a.assignedUsers
        && b.assignedUser == if IdOf(a.assignedUser) == Some(user.id) then Some(user) else a.assignedUser
    ensures !HasUserId(Holders(a), user.id) && IdOf(a.assignedUser) != Some(user.id) ==> RefreshHolder(a, user) == a
  {
    var b := RefreshHolder(a, user);
    if a.assetType == License && !HasUserId(Holders(a), user.id) {
      assert b == a;
      assert forall k :: 0 <= k < |Holders(a)| ==> Holders(a)[k].id != user.id;
    }
  }

  /**
   * After saving a profile every user entry with its id is the saved profile, each
   * asset is refreshed as `RefreshHolderSpec` describes, and the current and selected
   * users are replaced by the profile exactly when they are that user.
   */
  lemma SaveUserSpec(d: Directory, user: User)
    ensures var r := SaveUser(d, user);
      |r.users| == |d.users| && forall i :: 0 <= i < |d.users| ==>
        r.users[i] == if d.users[i].id == user.id then user else d.users[i]
    ensures var r := SaveUser(d, user);
      |r.assets| == |d.assets| && forall i :: 0 <= i < |d.assets| ==> r.assets[i] == RefreshHolder(d.assets[i], user)
    ensures var r := SaveUser(d, user);
      (IdOf(d.currentUser) == Some(user.id) ==> r.currentUser == Some(user))
      && (IdOf(d.currentUser) != Some(user.id) ==> r.currentUser == d.currentUser)
    ensures var r := SaveUser(d, user);
      (IdOf(d.selectedUser) == Some(user.id) ==> r.selectedUser == Some(user))
      && (IdOf(d.selectedUser) != Some(user.id) ==> r.selectedUser == d.selectedUser)
  {
  }

  /** A saved profile is not copied into any asset's active users: those keep the copies they had. */
  lemma SaveUserKeepsActiveUsers(d: Directory, user: User)
    ensures forall i :: 0 <= i < |d.assets| ==> SaveUser(d, user).assets[i].activeUsers == d.assets[i].activeUsers
  {
  }

  // ---------------------------------------------------------------------------
  // counts

  /** A family row of the family list with its three counts. */
  datatype FamilyCounts = FamilyCounts(family: Family, total: nat, assignedCount: nat, available: int)

  /** An instance counts as assigned when it has a single assignee or a non-empty assignee list. */
  function IsAssigned(): Asset -> bool {
    (a: Asset) => a.assignedUser.Some? || |Holders(a)| > 0
  }

  function IsUnassigned(): Asset -> bool {
    (a: Asset) => !(a.assignedUser.Some? || |Holders(a)| > 0)
  }

  function Counts(family: Family, assets: seq<Asset>): FamilyCounts {
    var instances := Filter(assets, InFamily(family.id));
    var n := |Filter(instances, IsAssigned())|;
    FamilyCounts(family, |instances|, n, |instances| - n)
  }

  /** `familiesWithCounts`. */
  function FamiliesWithCounts(families: seq<Family>, assets: seq<Asset>): (r: seq<FamilyCounts>)
    ensures |r| == |families|
  {
    seq(|families|, i requires 0 <= i < |families| => Counts(families[i], assets))
  }

  /**
   * Each row keeps its family and counts its instances; the available count is the
   * number of its instances with no assignee, so it is never negative and the
   * assigned and available counts add up to the total.
   */
  lemma FamiliesWithCountsSpec(families: seq<Family>, assets: seq<Asset>)
    ensures forall i :: 0 <= i < |families| ==>
      var c := FamiliesWithCounts(families, assets)[i];
      c.family == families[i] && c.total == FamilyCount(assets, families[i].id)
      && c.assignedCount + c.available == c.total
      && c.available == |Filter(Filter(assets, InFamily(families[i].id)), IsUnassigned())|
      && 0 <= c.available
  {
    forall i | 0 <= i < |families|
      ensures var c := FamiliesWithCounts(families, assets)[i];
        c.available == |Filter(Filter(assets, InFamily(families[i].id)), IsUnassigned())|
    {
      FilterPartition(Filter(assets, InFamily(families[i].id)), IsAssigned(), IsUnassigned());
    }
  }
}

=== FILE: jsvalues.dfy ===
/**
 * The slice of JavaScript's dynamic values that the generic table touches: row
 * objects reached through dot paths, their stringification for searching and
 * display, and the loose `<` the sort comparator applies to them.
 */
module JsValues {
  import opened Strings
  import Sorting
  import opened Wrappers

  /** A JavaScript value. Numbers are integers here; see README "Left out". */
  datatype Value =
    | Undefined
    | Null
    | Bool(b: bool)
    | Num(n: int)
    | Str(s: string)
    | Arr(items: seq<Value>)
    | Obj(fields: map<string, Value>)

  /** JavaScript truthiness: everything except `undefined`, `null`, `false`, `0` and `""`. */
  predicate Truthy(v: Value) {
    match v
    case Undefined => false
    case Null => false
    case Bool(b) => b
    case Num(n) => n != 0
    case Str(s) => s != ""
    case _ => true
  }

  /** `key` is the canonical decimal text of an index below `n`, as array and string indexing reads it. */
  predicate IsIndex(key: string, n: nat) {
    |key| >= 1 && AllDigits(key) && (|key| == 1 || key[0] != '0') && ParseDigits(key) < n
  }

  /** `key` names an own property of `v`: a field of an object, or the length or an index of a string or array. */
  predicate HasOwn(v: Value, key: string) {
    match v
    case Obj(m) => key in m
    case Str(s) => key == "length" || IsIndex(key, |s|)
    case Arr(items) => key == "length" || IsIndex(key, |items|)
    case _ => false
  }

  /**
   * `v[key]` on a truthy value: an object's field, a string's or array's length or
   * indexed element, and `undefined` for anything else.
   */
  function Property(v: Value, key: string): (r: Value)
    ensures !HasOwn(v, key) ==> r == Undefined
  {
    match v
    case Obj(m) => if key in m then m[key] else Undefined
    case Str(s) =>
      if key == "length" then Num(|s|)
      else if IsIndex(key, |s|) then Str([s[ParseDigits(key)]])
      else Undefined
    case Arr(items) =>
      if key == "length" then Num(|items|)
      else if IsIndex(key, |items|) then items[ParseDigits(key)]
      else Undefined
    case _ => Undefined
  }

  /**
   * Indexing reads what JavaScript reads: the length of a string or array, and the
   * element at a position written in decimal.
   */
  lemma IndexedProperty(items: seq<Value>, s: string, i: nat)
    ensures Property(Arr(items), "length") == Num(|items|) && Property(Str(s), "length") == Num(|s|)
    ensures i < |items| ==> Property(Arr(items), NatToString(i)) == items[i]
    ensures i < |s| ==> Property(Str(s), NatToString(i)) == Str([s[i]])
  {
    ParseNatToString(i);
  }

  /** One step of the reducer `(acc, part) => acc && acc[part]`: a falsy accumulator is returned as it is. */
  function Step(acc: Value, part: string): Value {
    if Truthy(acc) then Property(acc, part) else acc
  }

  /** `parts.reduce(Step, v)`: a left fold over the path segments. */
  function LookupParts(v: Value, parts: seq<string>): Value
    decreases |parts|
  {
    if |parts| == 0 then v else LookupParts(Step(v, parts[0]), parts[1..])
  }

  /** `getNestedValue(obj, path)`: split the path on '.' and walk it. */
  function Lookup(v: Value, path: string): (r: Value)
    ensures Resolve(v, Split(path, '.')).Some? ==> r == Resolve(v, Split(path, '.')).value
    ensures Resolve(v, Split(path, '.')).None? ==> !Truthy(r)
  {
    LookupMatchesResolve(v, Split(path, '.'));
    LookupParts(v, Split(path, '.'))
  }

  /**
   * The path as an exact walk through own properties: `Some(x)` when each segment
   * names an own property of a truthy value, `None` as soon as one does not.
   */
  function Resolve(v: Value, parts: seq<string>): Option<Value>
    decreases |parts|
  {
    if |parts| == 0 then Some(v)
    else if Truthy(v) && HasOwn(v, parts[0]) then Resolve(Property(v, parts[0]), parts[1..])
    else None
  }

  /** Walking a path in two pieces is walking it at once: the fold over a concatenation. */
  lemma {:induction false} LookupPartsAppend(v: Value, p: seq<string>, q: seq<string>)
    ensures LookupParts(v, p + q) == LookupParts(LookupParts(v, p), q)
    decreases |p|
  {
    if |p| == 0 {
      assert p + q == q;
    } else {
      assert (p + q)[0] == p[0];
      assert (p + q)[1..] == p[1..] + q;
      LookupPartsAppend(Step(v, p[0]), p[1..], q);
    }
  }

  /** Once the accumulator is falsy it is carried to the end unchanged. */
  lemma {:induction false} FalsyAbsorbs(v: Value, parts: seq<string>)
    requires !Truthy(v)
    ensures LookupParts(v, parts) == v
    decreases |parts|
  {
    if |parts| > 0 {
      FalsyAbsorbs(v, parts[1..]);
    }
  }

  /**
   * The fold never fails and agrees with the exact walk: it finds the nested value
   * whenever every segment exists, and otherwise yields a falsy value.
   */
  lemma {:induction false} LookupMatchesResolve(v: Value, parts: seq<string>)
    ensures Resolve(v, parts).Some? ==> LookupParts(v, parts) == Resolve(v, parts).value
    ensures Resolve(v, parts).None? ==> !Truthy(LookupParts(v, parts))
    decreases |parts|
  {
    if |parts| > 0 {
      var next := Step(v, parts[0]);
      if Truthy(v) && HasOwn(v, parts[0]) {
        LookupMatchesResolve(next, parts[1..]);
      } else {
        assert !Truthy(next);
        FalsyAbsorbs(next, parts[1..]);
      }
    }
  }

  /** A path without dots is a single property access. */
  lemma LookupSingleSegment(v: Value, key: string)
    requires '.' !in key
    ensures Lookup(v, key) == Step(v, key)
  {
    assert Split(key, '.') == [key];
    assert [key][1..] == [];
    assert LookupParts(v, [key]) == LookupParts(Step(v, key), []);
  }

  // ---------------------------------------------------------------------------
  // String(v)

  /** The decimal text of an integer, as `String(n)` prints it. */
  function IntToString(n: int): (r: string)
    ensures |r| >= 1
    ensures n >= 0 ==> r == NatToString(n)
    ensures n < 0 ==> r == "-" + NatToString(-n)
  {
    if n >= 0 then NatToString(n) else "-" + NatToString(-n)
  }

  /** `String(v)`. An array prints its elements joined by ',', with `null`/`undefined` elements as "". */
  function JsString(v: Value): string
    decreases v
  {
    match v
    case Undefined => "undefined"
    case Null => "null"
    case Bool(b) => if b then "true" else "false"
    case Num(n) => IntToString(n)
    case Str(s) => s
    case Obj(_) => "[object Object]"
    case Arr(items) =>
      Join(seq(|items|, i requires 0 <= i < |items| =>
        if items[i].Undefined? || items[i].Null? then "" else JsString(items[i])), ",")
  }

  /** `String(v ?? '')`: what a table cell shows. */
  function DisplayString(v: Value): (r: string)
    ensures v.Undefined? || v.Null? ==> r == ""
    ensures !v.Undefined? && !v.Null? ==> r == JsString(v)
  {
    match v
    case Undefined => ""
    case Null => ""
    case _ => JsString(v)
  }

  /**
   * The search text of a missing value is the word "undefined", while its display
   * text is empty: a missing cell can match a search it does not show.
   */
  lemma MissingValueSearchText(v: Value, path: string)
    requires Lookup(v, path) == Undefined
    ensures JsString(Lookup(v, path)) == "undefined"
    ensures DisplayString(Lookup(v, path)) == ""
  {
  }

  // ---------------------------------------------------------------------------
  // the order the sort comparator uses

  /** Kinds in the order the model sorts mixed values. */
  function Rank(v: Value): nat {
    match v
    case Undefined => 0
    case Null => 1
    case Bool(_) => 2
    case Num(_) => 3
    case Str(_) => 4
    case Arr(_) => 5
    case Obj(_) => 6
  }

  /**
   * "`a` may come before `b`". Within one kind this is JavaScript's `a <= b`
   * (`false < true`, numeric order, code-unit order on strings, arrays by their
   * text, every object equal to every other); across kinds it follows `Rank`.
   */
  predicate ValueLe(a: Value, b: Value) {
    if Rank(a) != Rank(b) then Rank(a) < Rank(b)
    else match (a, b)
      case (Bool(x), Bool(y)) => !x || y
      case (Num(x), Num(y)) => x <= y
      case (Str(x), Str(y)) => LexLe(x, y)
      case (Arr(_), Arr(_)) => LexLe(JsString(a), JsString(b))
      case _ => true
  }

  /** JavaScript's `a < b` on two values of the same kind that the model orders. */
  predicate LessThan(a: Value, b: Value) {
    ValueLe(a, b) && !ValueLe(b, a)
  }

  /** On numbers and strings, the model's strict order is JavaScript's `<`. */
  lemma LessThanAgrees(a: Value, b: Value)
    ensures a.Num? && b.Num? ==> (LessThan(a, b) <==> a.n < b.n)
    ensures a.Str? && b.Str? ==> (LessThan(a, b) <==> LexLe(a.s, b.s) && a.s != b.s)
  {
    if a.Str? && b.Str? && LexLe(a.s, b.s) && a.s != b.s && LexLe(b.s, a.s) {
      LexLeAntisymmetric(a.s, b.s);
    }
  }

  lemma ValueLeTotal(a: Value, b: Value)
    ensures ValueLe(a, b) || ValueLe(b, a)
  {
    if a.Str? && b.Str? {
      LexLeTotal(a.s, b.s);
    } else if a.Arr? && b.Arr? {
      LexLeTotal(JsString(a), JsString(b));
    }
  }

  lemma ValueLeTransitive(a: Value, b: Value, c: Value)
    requires ValueLe(a, b) && ValueLe(b, c)
    ensures ValueLe(a, c)
  {
    if Rank(a) == Rank(b) == Rank(c) {
      if a.Str? {
        LexLeTransitive(a.s, b.s, c.s);
      } else if a.Arr? {
        LexLeTransitive(JsString(a), JsString(b), JsString(c));
      }
    }
  }

  /** `ValueLe` is a total preorder, so a sort by it is well defined. */
  lemma ValueLeTotalPreorder()
    ensures Sorting.TotalPreorder((a: Value, b: Value) => ValueLe(a, b))
  {
    forall a: Value, b: Value
      ensures ValueLe(a, b) || ValueLe(b, a)
    {
      ValueLeTotal(a, b);
    }
    forall a: Value, b: Value, c: Value | ValueLe(a, b) && ValueLe(b, c)
      ensures ValueLe(a, c)
    {
      ValueLeTransitive(a, b, c);
    }
  }
}

=== FILE: keys.dfy ===
/**
 * The idiom `ids.sort().join(',')` that the application uses to ask whether two
 * lists of identifiers hold the same identifiers, and what that comparison means.
 */
module Keys {
  import opened Strings
  import opened Sorting

  /** The default `sort()` order on strings. */
  function LexOrder(): (string, string) -> bool {
    (a: string, b: string) => LexLe(a, b)
  }

  /** `ids.sort().join(',')`. */
  function SortedJoin(ids: seq<string>): string {
    Join(SortBy(ids, LexOrder()), ",")
  }

  /** Identifiers the comparison can tell apart: non-empty and free of commas. */
  predicate PlainIds(ids: seq<string>) {
    forall k :: 0 <= k < |ids| ==> ids[k] != "" && ',' !in ids[k]
  }

  lemma LexOrderIsLinear()
    ensures TotalPreorder(LexOrder()) && Antisymmetric(LexOrder())
  {
    forall a: string, b: string
      ensures LexLe(a, b) || LexLe(b, a)
    {
      LexLeTotal(a, b);
    }
    forall a: string, b: string, c: string | LexLe(a, b) && LexLe(b, c)
      ensures LexLe(a, c)
    {
      LexLeTransitive(a, b, c);
    }
    forall a: string, b: string | LexLe(a, b) && LexLe(b, a)
      ensures a == b
    {
      LexLeAntisymmetric(a, b);
    }
  }

  /** Sorting keeps the elements, so it keeps any property every element has. */
  lemma SortedPlain(ids: seq<string>)
    requires PlainIds(ids)
    ensures PlainIds(SortBy(ids, LexOrder()))
  {
    var s := SortBy(ids, LexOrder());
    forall k | 0 <= k < |s|
      ensures s[k] != "" && ',' !in s[k]
    {
      assert s[k] in multiset(s);
      assert s[k] in multiset(ids);
      var m :| 0 <= m < |ids| && ids[m] == s[k];
    }
  }

  lemma JoinNonEmpty(parts: seq<string>, sep: string)
    requires |parts| > 0 && parts[0] != ""
    ensures Join(parts, sep) != ""
  {
    if |parts| > 1 {
      assert Join(parts, sep)[0] == parts[0][0];
    }
  }

  /**
   * For plain identifiers, the two sorted-and-joined texts are equal exactly when the
   * lists hold the same identifiers the same number of times, whatever their order.
   */
  lemma {:induction false} SortedJoinSameIds(a: seq<string>, b: seq<string>)
    requires PlainIds(a) && PlainIds(b)
    ensures SortedJoin(a) == SortedJoin(b) <==> multiset(a) == multiset(b)
  {
    var sa := SortBy(a, LexOrder());
    var sb := SortBy(b, LexOrder());
    LexOrderIsLinear();
    SortBySorted(a, LexOrder());
    SortBySorted(b, LexOrder());
    if multiset(a) == multiset(b) {
      SortedUnique(sa, sb, LexOrder());
    }
    if SortedJoin(a) == SortedJoin(b) {
      SortedPlain(a);
      SortedPlain(b);
      if |sa| == 0 || |sb| == 0 {
        if |sa| > 0 {
          JoinNonEmpty(sa, ",");
        }
        if |sb| > 0 {
          JoinNonEmpty(sb, ",");
        }
        assert |sa| == 0 && |sb| == 0;
      } else {
        SplitJoin(sa, ',');
        SplitJoin(sb, ',');
        assert sa == sb;
      }
    }
  }
}

=== FILE: profileform.dfy ===
/**
 * The profile dialog of components/EditProfileModal.tsx: the partial user record it
 * edits, the two ways a field changes, and the user record it hands back on save.
 */
module ProfileForm {
  import opened Wrappers
  import opened Strings
  import opened Seqs
  import opened Entities

  /** The `name` of an input the dialog's `handleChange` receives. */
  datatype FieldName = FirstName | LastName | Email | Detail(field: ProfileField)

  /**
   * The dialog's `formData`, a `Partial<User>`: a field that is None has never been
   * set, and a detail missing from the map likewise.
   */
  datatype FormData = FormData(
    firstName: Option<string>,
    lastName: Option<string>,
    email: Option<string>,
    site: Option<seq<string>>,
    details: map<ProfileField, string>)

  /** The form data before the dialog is first opened. */
  const Blank := FormData(None, None, None, None, map[])

  /** The form data holding every field of a user. */
  function FromUser(u: User): (f: FormData)
    ensures f.site == Some(u.site) && f.details == u.details
  {
    FormData(Some(u.firstName), Some(u.lastName), Some(u.email), Some(u.site), u.details)
  }

  /** Opening the dialog on a user loads that user; otherwise the form data stays as it was. */
  function Open(form: FormData, user: Option<User>, isOpen: bool): (r: FormData)
    ensures user.Some? && isOpen ==> r == FromUser(user.value)
    ensures user.None? || !isOpen ==> r == form
  {
    if user.Some? && isOpen then FromUser(user.value) else form
  }

  /** The value the form holds for a named input. */
  function Get(f: FormData, n: FieldName): Option<string> {
    match n
    case FirstName => f.firstName
    case LastName => f.lastName
    case Email => f.email
    case Detail(p) => if p in f.details then Some(f.details[p]) else None
  }

  /** The value a user record holds for a named input. */
  function FieldOf(u: User, n: FieldName): Option<string> {
    match n
    case FirstName => Some(u.firstName)
    case LastName => Some(u.lastName)
    case Email => Some(u.email)
    case Detail(p) => if p in u.details then Some(u.details[p]) else None
  }

  /** `handleChange`: the named input takes the typed value; nothing else changes. */
  function Change(f: FormData, n: FieldName, v: string): (r: FormData)
    ensures Get(r, n) == Some(v)
    ensures forall m :: m != n ==> Get(r, m) == Get(f, m)
    ensures r.site == f.site
  {
    match n
    case FirstName => f.(firstName := Some(v))
    case LastName => f.(lastName := Some(v))
    case Email => f.(email := Some(v))
    case Detail(p) => f.(details := f.details[p := v])
  }

  /**
   * `handleSiteChange`: on the sites held so far (none counting as an empty list) a
   * ticked site loses every copy and an unticked one is appended.
   */
  function SiteChange(f: FormData, site: string): (r: FormData)
    ensures r.site.Some?
    ensures site in r.site.value <==> site !in f.site.GetOr([])
    ensures forall s :: s != site ==> multiset(r.site.value)[s] == multiset(f.site.GetOr([]))[s]
    ensures site !in f.site.GetOr([]) ==> r.site.value == f.site.GetOr([]) + [site]
    ensures site in f.site.GetOr([]) ==> SubsequenceOf(r.site.value, f.site.GetOr([]))
    ensures forall m :: Get(r, m) == Get(f, m)
  {
    f.(site := Some(Toggle(f.site.GetOr([]), site)))
  }

  /**
   * Ticking a site twice on a duplicate-free list gives back the same sites, and the
   * very same list when the site was not ticked or was ticked last.
   */
  lemma SiteChangeTwice(f: FormData, site: string)
    requires NoDuplicates(f.site.GetOr([]))
    ensures var sites := f.site.GetOr([]);
      var r := SiteChange(SiteChange(f, site), site).site.value;
      multiset(r) == multiset(sites)
      && (site !in sites ==> r == sites)
      && (|sites| > 0 && sites[|sites| - 1] == site ==> r == sites)
  {
    var sites := f.site.GetOr([]);
    ToggleTwiceSameElements(sites, site);
    if site !in sites {
      ToggleTwiceAbsent(sites, site);
    } else if sites[|sites| - 1] == site {
      ToggleTwiceLast(sites, site);
    }
  }

  /** `{...user, ...formData}`: every field the form holds replaces the user's. */
  function Overlay(u: User, f: FormData): (r: User)
    ensures r.id == u.id && r.role == u.role
    ensures forall n :: FieldOf(r, n) == if Get(f, n).Some? then Get(f, n) else FieldOf(u, n)
    ensures r.site == f.site.GetOr(u.site)
  {
    u.(firstName := f.firstName.GetOr(u.firstName),
       lastName := f.lastName.GetOr(u.lastName),
       email := f.email.GetOr(u.email),
       site := f.site.GetOr(u.site),
       details := u.details + f.details)
  }

  /** The full name the dialog derives from the form's first and last names. */
  function FullName(f: FormData): string {
    Trim(f.firstName.GetOr("") + " " + f.lastName.GetOr(""))
  }

  /**
   * `handleSubmit`: without a user nothing is saved; otherwise the user overlaid with
   * the form, its full name rebuilt from the names and the edit stamped.
   */
  function Submit(user: Option<User>, f: FormData, clock: Clock): (r: Option<User>)
    ensures r.Some? <==> user.Some?
    ensures r.Some? ==> r.value.id == user.value.id && r.value.role == user.value.role
    ensures r.Some? ==> r.value.modifiedBy == "Admin" && r.value.modifiedDate == clock.iso
    ensures r.Some? ==> r.value.fullName == Trim(f.firstName.GetOr("") + " " + f.lastName.GetOr(""))
    ensures r.Some? ==> r.value.site == f.site.GetOr(user.value.site)
    ensures r.Some? ==> forall n :: FieldOf(r.value, n) == if Get(f, n).Some? then Get(f, n) else FieldOf(user.value, n)
  {
    if user.None? then None
    else Some(Overlay(user.value, f).(fullName := FullName(f), modifiedDate := clock.iso, modifiedBy := "Admin"))
  }

  /**
   * Saving right after opening gives the user back with only the full name rebuilt
   * and the edit stamped.
   */
  lemma SubmitUnchanged(u: User, clock: Clock)
    ensures Submit(Some(u), FromUser(u), clock)
      == Some(u.(fullName := Trim(u.firstName + " " + u.lastName), modifiedDate := clock.iso, modifiedBy := "Admin"))
  {
    assert u.details + u.details == u.details;
  }

  /**
   * Opening a user, typing one value and saving changes exactly that field of the
   * user; every other input keeps the user's value, and so do the sites.
   */
  lemma SubmitAfterChange(u: User, n: FieldName, v: string, clock: Clock)
    ensures var r := Submit(Some(u), Change(FromUser(u), n, v), clock).value;
      FieldOf(r, n) == Some(v)
      && (forall m :: m != n ==> FieldOf(r, m) == FieldOf(u, m))
      && r.site == u.site && r.id == u.id
  {
    var f := Change(FromUser(u), n, v);
    var r := Submit(Some(u), f, clock).value;
    assert FieldOf(r, n) == Get(f, n);
    forall m | m != n
      ensures FieldOf(r, m) == FieldOf(u, m)
    {
      assert Get(f, m) == Get(FromUser(u), m);
    }
  }

  /**
   * The full name is the two names joined by one space when both are present and free
   * of surrounding whitespace, the one name when only one is, and empty when neither is.
   */
  lemma FullNameSpec(first: string, last: string)
    requires first != "" ==> !IsWhitespace(first[0]) && !IsWhitespace(first[|first| - 1])
    requires last != "" ==> !IsWhitespace(last[0]) && !IsWhitespace(last[|last| - 1])
    ensures first != "" && last != "" ==> Trim(first + " " + last) == first + " " + last
    ensures first != "" && last == "" ==> Trim(first + " " + last) == first
    ensures first == "" && last != "" ==> Trim(first + " " + last) == last
    ensures first == "" && last == "" ==> Trim(first + " " + last) == ""
  {
    var s := first + " " + last;
    if first != "" && last != "" {
      TrimNoop(s);
    } else if first != "" {
      assert s == first + " ";
      assert TrimStart(s) == s;
      assert s[..|s| - 1] == first;
      assert TrimEnd(s) == TrimEnd(first);
      TrimNoop(first);
    } else if last != "" {
      assert s == " " + last;
      assert s[1..] == last;
      assert TrimStart(s) == TrimStart(last);
      TrimNoop(last);
    } else {
      assert s == " ";
      assert s[1..] == "";
    }
  }
}

=== FILE: requests.dfy ===
/**
 * Requests and their fulfilment tasks in App.tsx: submitting a request for a family,
 * acting on a request, linking a submitted task back to its request, and the
 * role-scoped views of assets and requests.
 */
module Requests {
  import opened Wrappers
  import opened Strings
  import opened Seqs
  import opened Entities

  // ---------------------------------------------------------------------------
  // submitting

  function RequestTypeOf(t: AssetType): RequestType {
    match t
    case Hardware => HardwareRequest
    case License => SoftwareRequest
  }

  function FamilyIdIs(id: string): Family -> bool {
    (f: Family) => f.id == id
  }

  /**
   * `handleSubmitRequest`: with a known family and a requesting user, a pending request
   * for the family goes first; otherwise nothing changes.
   */
  function SubmitRequest(requests: seq<Request>, families: seq<Family>, familyId: string, notes: string,
                         requester: Option<User>, clock: Clock): (r: seq<Request>)
    ensures |r| == |requests| || |r| == |requests| + 1
    ensures r[|r| - |requests|..] == requests
  {
    var family := Find(families, FamilyIdIs(familyId));
    if family.None? || requester.None? then requests
    else
      var req := Request("req-" + NatToString(clock.millis), RequestTypeOf(family.value.assetType),
        family.value.name, requester.value, RequestPending, clock.localDate, notes, family.value.id, None);
      [req] + requests
  }

  /**
   * A submission adds a request exactly when a family with that id exists and someone
   * is requesting; the request is pending, not linked to a task, made by the requester,
   * for the first family with that id, of the matching type.
   */
  lemma SubmitRequestSpec(requests: seq<Request>, families: seq<Family>, familyId: string, notes: string,
                          requester: Option<User>, clock: Clock)
    ensures var r := SubmitRequest(requests, families, familyId, notes, requester, clock);
      |r| == |requests| + 1 <==> requester.Some? && exists i :: 0 <= i < |families| && families[i].id == familyId
    ensures var r := SubmitRequest(requests, families, familyId, notes, requester, clock);
      |r| == |requests| + 1 ==>
        r[0].status == RequestPending && r[0].linkedTaskId == None && r[0].requestedBy == requester.value
        && r[0].familyId == familyId && r[0].notes == notes
        && (exists i :: 0 <= i < |families| && families[i].id == familyId && (forall j :: 0 <= j < i ==> families[j].id != familyId)
                           && r[0].item == families[i].name && r[0].requestType == RequestTypeOf(families[i].assetType))
  {
    var family := Find(families, FamilyIdIs(familyId));
    if family.Some? {
      var k :| 0 <= k < |families| && families[k] == family.value && forall j :: 0 <= j < k ==> !FamilyIdIs(familyId)(families[j]);
      FamilyFound(families, familyId, k);
    } else {
      assert forall i :: 0 <= i < |families| ==> !FamilyIdIs(familyId)(families[i]);
    }
  }

  /** The first family the lookup passes has the id, and no earlier family has it. */
  lemma FamilyFound(families: seq<Family>, familyId: string, k: nat)
    requires k < |families| && FamilyIdIs(familyId)(families[k])
    requires forall j :: 0 <= j < k ==> !FamilyIdIs(familyId)(families[j])
    ensures families[k].id == familyId && forall j :: 0 <= j < k ==> families[j].id != familyId
  {
  }

  // ---------------------------------------------------------------------------
  // acting on a request

  /** What an action on a request leads to: the new request list, and the request the task dialog opens for, if any. */
  datatype ActionOutcome = ActionOutcome(requests: seq<Request>, taskFor: Option<Request>)

  function HasRequestId(id: string): Request -> bool {
    (r: Request) => r.id == id
  }

  /**
   * `handleRequestAction`: approving changes no request and opens the task dialog for
   * the request, when it exists; every other action sets the status of the requests
   * with that id.
   */
  function RequestAction(requests: seq<Request>, id: string, status: RequestStatus): (o: ActionOutcome)
    ensures |o.requests| == |requests|
    ensures status == Approved ==> o.requests == requests
    ensures status != Approved ==> o.taskFor == None
  {
    if status == Approved then ActionOutcome(requests, Find(requests, HasRequestId(id)))
    else ActionOutcome(UpdateWhere(requests, HasRequestId(id), (r: Request) => r.(status := status)), None)
  }

  /**
   * A non-approving action touches only the status of the requests with that id, and
   * only those; approving opens the task dialog exactly when a request with that id
   * exists, for the first one.
   */
  lemma RequestActionSpec(requests: seq<Request>, id: string, status: RequestStatus)
    ensures status != Approved ==> forall i :: 0 <= i < |requests| ==>
      RequestAction(requests, id, status).requests[i]
        == if requests[i].id == id then requests[i].(status := status) else requests[i]
    ensures status == Approved ==>
      (RequestAction(requests, id, status).taskFor.Some? <==> exists i :: 0 <= i < |requests| && requests[i].id == id)
    ensures status == Approved && RequestAction(requests, id, status).taskFor.Some? ==>
      RequestAction(requests, id, status).taskFor.value.id == id
  {
  }

  /** `handleTaskSubmit`: the task goes first, and the requests it fulfils move to InProgress, linked to it. */
  function TaskSubmit(requests: seq<Request>, tasks: seq<Task>, task: Task): (r: (seq<Request>, seq<Task>))
    ensures r.1 == [task] + tasks
    ensures |r.0| == |requests|
  {
    (UpdateWhere(requests, HasRequestId(task.requestId), (q: Request) => q.(status := InProgress, linkedTaskId := Some(task.id))), [task] + tasks)
  }

  /**
   * Submitting a task changes nothing but the status and task link of the requests
   * whose id is the task's request id; each of those is then in progress and points
   * back to the task.
   */
  lemma TaskSubmitSpec(requests: seq<Request>, tasks: seq<Task>, task: Task)
    ensures forall i :: 0 <= i < |requests| && requests[i].id != task.requestId ==>
      TaskSubmit(requests, tasks, task).0[i] == requests[i]
    ensures forall i :: 0 <= i < |requests| && requests[i].id == task.requestId ==>
      var q := TaskSubmit(requests, tasks, task).0[i];
      q.status == InProgress && q.linkedTaskId == Some(task.id)
      && q.(status := requests[i].status, linkedTaskId := requests[i].linkedTaskId) == requests[i]
  {
  }

  /**
   * The approval path end to end: approving a request leaves it as it was and opens
   * the dialog for it; submitting a task for that request then puts every request with
   * its id in progress, linked to the task.
   */
  lemma ApprovalLinksTask(requests: seq<Request>, tasks: seq<Task>, id: string, task: Task)
    requires exists i :: 0 <= i < |requests| && requests[i].id == id
    requires task.requestId == id
    ensures var o := RequestAction(requests, id, Approved);
      o.taskFor.Some? && o.taskFor.value.id == id && o.requests == requests
    ensures var o := RequestAction(requests, id, Approved);
      var after := TaskSubmit(o.requests, tasks, task);
      after.1[0] == task
      && forall i :: 0 <= i < |requests| && requests[i].id == id ==>
        after.0[i].status == InProgress && after.0[i].linkedTaskId == Some(task.id)
  {
    RequestActionSpec(requests, id, Approved);
  }

  // ---------------------------------------------------------------------------
  // what a user sees

  /** `isAdmin`: a signed-in administrator. */
  predicate IsAdmin(current: Option<User>) {
    current.Some? && current.value.role == Admin
  }

  /** The test `visibleAssets` applies for someone who is not an administrator. */
  function HeldBy(current: Option<User>): Asset -> bool {
    (a: Asset) => IdOf(a.assignedUser) == IdOf(current) || Any(Holders(a), (u: User) => Some(u.id) == IdOf(current))
  }

  function RequestedBy(current: Option<User>): Request -> bool {
    (r: Request) => Some(r.requestedBy.id) == IdOf(current)
  }

  function VisibleAssets(assets: seq<Asset>, current: Option<User>): (r: seq<Asset>)
    ensures |r| <= |assets|
  {
    if IsAdmin(current) then assets else Filter(assets, HeldBy(current))
  }

  function VisibleRequests(requests: seq<Request>, current: Option<User>): (r: seq<Request>)
    ensures |r| <= |requests|
  {
    if IsAdmin(current) then requests else Filter(requests, RequestedBy(current))
  }

  /**
   * An administrator sees every asset; a signed-in user who is not one sees, in the
   * original order, exactly the assets they are the single assignee of or one of the
   * licence assignees of.
   */
  lemma VisibleAssetsSpec(assets: seq<Asset>, current: Option<User>, a: Asset)
    ensures IsAdmin(current) ==> VisibleAssets(assets, current) == assets
    ensures SubsequenceOf(VisibleAssets(assets, current), assets)
    ensures current.Some? && !IsAdmin(current) ==>
      (a in VisibleAssets(assets, current) <==>
        a in assets && (IdOf(a.assignedUser) == Some(current.value.id) || HasUserId(Holders(a), current.value.id)))
  {
    if !IsAdmin(current) {
      FilterMembership(assets, HeldBy(current), a);
      FilterIsSubsequence(assets, HeldBy(current));
    } else {
      FilterKeepsAll(assets, (x: Asset) => true);
      FilterIsSubsequence(assets, (x: Asset) => true);
      assert Filter(assets, (x: Asset) => true) == assets;
    }
  }

  /**
   * With nobody signed in the comparison of two missing ids succeeds, so the view shows
   * exactly the assets without a single assignee, licences held by many users included.
   */
  lemma GuestSeesUnassigned(assets: seq<Asset>, a: Asset)
    ensures a in VisibleAssets(assets, None) <==> a in assets && a.assignedUser.None?
  {
    FilterMembership(assets, HeldBy(None), a);
  }

  /** An administrator sees every request; anyone else exactly the requests they submitted, in order. */
  lemma VisibleRequestsSpec(requests: seq<Request>, current: Option<User>, r: Request)
    ensures IsAdmin(current) ==> VisibleRequests(requests, current) == requests
    ensures SubsequenceOf(VisibleRequests(requests, current), requests)
    ensures !IsAdmin(current) ==>
      (r in VisibleRequests(requests, current) <==> r in requests && current.Some? && r.requestedBy.id == current.value.id)
  {
    if !IsAdmin(current) {
      FilterMembership(requests, RequestedBy(current), r);
      FilterIsSubsequence(requests, RequestedBy(current));
    } else {
      FilterKeepsAll(requests, (x: Request) => true);
      FilterIsSubsequence(requests, (x: Request) => true);
    }
  }
}

=== FILE: seqs.dfy ===
/**
 * The array idioms the application builds everything from: `filter`, the
 * map-that-replaces-matching-entries pattern, and the add/remove/toggle edits
 * on lists of identifiers.
 */
module Seqs {
  import opened Wrappers

  /** `a` can be obtained from `b` by deleting elements: order kept, nothing added. */
  ghost predicate SubsequenceOf<T(!new)>(a: seq<T>, b: seq<T>)
    decreases |b|
  {
    if |a| == 0 then true
    else if |b| == 0 then false
    else (a[0] == b[0] && SubsequenceOf(a[1..], b[1..])) || SubsequenceOf(a, b[1..])
  }

  predicate NoDuplicates<T(==,!new)>(s: seq<T>) {
    forall i, j :: 0 <= i < j < |s| ==> s[i] != s[j]
  }

  /** `s.filter(p)`: every element satisfying `p`, each as often as in `s`, and nothing else. */
  function Filter<T(!new)>(s: seq<T>, p: T -> bool): (r: seq<T>)
    ensures |r| <= |s|
  {
    if |s| == 0 then []
    else (if p(s[0]) then [s[0]] else []) + Filter(s[1..], p)
  }

  /** The filter keeps each element satisfying `p` as often as it occurs, and no other element. */
  lemma {:induction false} FilterCounts<T(!new)>(s: seq<T>, p: T -> bool)
    ensures forall x :: multiset(Filter(s, p))[x] == if p(x) then multiset(s)[x] else 0
    decreases |s|
  {
    if |s| > 0 {
      assert s == [s[0]] + s[1..];
      FilterCounts(s[1..], p);
    }
  }

  lemma {:induction false} FilterMembership<T(!new)>(s: seq<T>, p: T -> bool, x: T)
    ensures x in Filter(s, p) <==> x in s && p(x)
    decreases |s|
  {
    if |s| > 0 {
      assert s == [s[0]] + s[1..];
      FilterMembership(s[1..], p, x);
    }
  }

  /** `FilterMembership` for every element at once. */
  lemma FilterMembers<T(!new)>(s: seq<T>, p: T -> bool)
    ensures forall x :: x in Filter(s, p) <==> x in s && p(x)
  {
    forall x
      ensures x in Filter(s, p) <==> x in s && p(x)
    {
      FilterMembership(s, p, x);
    }
  }

  lemma {:induction false} FilterIsSubsequence<T(!new)>(s: seq<T>, p: T -> bool)
    ensures SubsequenceOf(Filter(s, p), s)
    decreases |s|
  {
    if |s| > 0 {
      FilterIsSubsequence(s[1..], p);
      var rest := Filter(s[1..], p);
      if p(s[0]) {
        assert Filter(s, p) == [s[0]] + rest;
      } else {
        assert Filter(s, p) == rest;
        if |rest| > 0 {
          assert SubsequenceOf(rest, s[1..]);
        }
      }
    }
  }

  /** Filtering by `p` and then by `q` is one filter by their conjunction. */
  lemma {:induction false} FilterConjunction<T(!new)>(s: seq<T>, p: T -> bool, q: T -> bool, pq: T -> bool)
    requires forall x :: x in s ==> pq(x) == (p(x) && q(x))
    ensures Filter(Filter(s, p), q) == Filter(s, pq)
    decreases |s|
  {
    if |s| > 0 {
      var t := s[1..];
      assert s[0] in s;
      assert forall x :: x in t ==> x in s;
      FilterConjunction(t, p, q, pq);
      if p(s[0]) {
        var fp := Filter(s, p);
        assert fp == [s[0]] + Filter(t, p);
        assert fp[0] == s[0] && fp[1..] == Filter(t, p);
        assert Filter(fp, q) == (if q(s[0]) then [s[0]] else []) + Filter(Filter(t, p), q);
      } else {
        assert Filter(s, p) == Filter(t, p);
      }
      assert Filter(s, pq) == (if pq(s[0]) then [s[0]] else []) + Filter(t, pq);
    }
  }

  /** Filters by predicates that agree on the elements give the same result. */
  lemma {:induction false} FilterExtensional<T(!new)>(s: seq<T>, p: T -> bool, q: T -> bool)
    requires forall x :: x in s ==> p(x) == q(x)
    ensures Filter(s, p) == Filter(s, q)
    decreases |s|
  {
    if |s| > 0 {
      assert s[0] in s;
      assert forall x :: x in s[1..] ==> x in s;
      FilterExtensional(s[1..], p, q);
    }
  }

  /** A filter that every element passes keeps the sequence as it is. */
  lemma {:induction false} FilterKeepsAll<T(!new)>(s: seq<T>, p: T -> bool)
    requires forall x :: x in s ==> p(x)
    ensures Filter(s, p) == s
    decreases |s|
  {
    if |s| > 0 {
      assert s[0] in s;
      assert forall x :: x in s[1..] ==> x in s;
      FilterKeepsAll(s[1..], p);
      assert s == [s[0]] + s[1..];
    }
  }

  lemma {:induction false} FilterPreservesNoDuplicates<T(!new)>(s: seq<T>, p: T -> bool)
    requires NoDuplicates(s)
    ensures NoDuplicates(Filter(s, p))
    decreases |s|
  {
    if |s| > 0 {
      var rest := Filter(s[1..], p);
      FilterPreservesNoDuplicates(s[1..], p);
      if p(s[0]) {
        FilterMembership(s[1..], p, s[0]);
        assert s[0] !in rest;
        var r := [s[0]] + rest;
        forall i, j | 0 <= i < j < |r|
          ensures r[i] != r[j]
        {
          if i == 0 {
            assert r[j] == rest[j - 1];
          } else {
            assert r[i] == rest[i - 1] && r[j] == rest[j - 1];
          }
        }
      }
    }
  }

  /** Every element passes exactly one of a predicate and its negation. */
  lemma {:induction false} FilterPartition<T(!new)>(s: seq<T>, p: T -> bool, q: T -> bool)
    requires forall x :: q(x) == !p(x)
    ensures |Filter(s, p)| + |Filter(s, q)| == |s|
    decreases |s|
  {
    if |s| > 0 {
      FilterPartition(s[1..], p, q);
    }
  }

  /** `s.some(p)`. */
  function Any<T>(s: seq<T>, p: T -> bool): (r: bool)
    ensures r <==> exists i :: 0 <= i < |s| && p(s[i])
    decreases |s|
  {
    if |s| == 0 then false
    else
      var rest := Any(s[1..], p);
      assert forall i :: 0 < i < |s| ==> s[i] == s[1..][i - 1];
      p(s[0]) || rest
  }

  /** `s.every(p)`. */
  function All<T>(s: seq<T>, p: T -> bool): (r: bool)
    ensures r <==> forall i :: 0 <= i < |s| ==> p(s[i])
    decreases |s|
  {
    if |s| == 0 then true
    else
      var rest := All(s[1..], p);
      assert forall i :: 0 < i < |s| ==> s[i] == s[1..][i - 1];
      p(s[0]) && rest
  }

  /** `s.findIndex(p)`, with None for -1: the position of the first element satisfying `p`. */
  function FirstIndex<T>(s: seq<T>, p: T -> bool): (r: Option<nat>)
    ensures r.None? <==> forall i :: 0 <= i < |s| ==> !p(s[i])
    ensures r.Some? ==> r.value < |s| && p(s[r.value])
    ensures r.Some? ==> forall j :: 0 <= j < r.value ==> !p(s[j])
    decreases |s|
  {
    if |s| == 0 then None
    else if p(s[0]) then Some(0)
    else
      var r := FirstIndex(s[1..], p);
      assert forall i :: 0 < i < |s| ==> s[i] == s[1..][i - 1];
      if r.Some? then Some(r.value + 1) else None
  }

  /** `s.find(p)`: the first element satisfying `p`, if any. */
  function Find<T>(s: seq<T>, p: T -> bool): (r: Option<T>)
    ensures r.None? <==> forall i :: 0 <= i < |s| ==> !p(s[i])
    ensures r.Some? ==> p(r.value)
    ensures r.Some? ==> exists i :: 0 <= i < |s| && s[i] == r.value && forall j :: 0 <= j < i ==> !p(s[j])
  {
    match FirstIndex(s, p)
    case None => None
    case Some(i) => Some(s[i])
  }

  /** `find` yields the element at the first position satisfying `p`. */
  lemma FindFirst<T>(s: seq<T>, p: T -> bool, i: nat)
    requires i < |s| && p(s[i])
    requires forall j :: 0 <= j < i ==> !p(s[j])
    ensures Find(s, p) == Some(s[i])
  {
    var r := FirstIndex(s, p);
    assert r.Some?;
    assert r.value == i;
  }

  /** `s.map(x => sel(x) ? f(x) : x)`: the edit of the matching entries, the rest passed through. */
  function UpdateWhere<T(!new)>(s: seq<T>, sel: T -> bool, f: T -> T): (r: seq<T>)
    ensures |r| == |s|
    ensures forall i :: 0 <= i < |s| && !sel(s[i]) ==> r[i] == s[i]
    ensures forall i :: 0 <= i < |s| && sel(s[i]) ==> r[i] == f(s[i])
  {
    seq(|s|, i requires 0 <= i < |s| => if sel(s[i]) then f(s[i]) else s[i])
  }

  /** `s.filter(x => x !== v)`. */
  function RemoveAll<T(==,!new)>(s: seq<T>, v: T): (r: seq<T>)
    ensures v !in r
    ensures forall x :: x != v ==> multiset(r)[x] == multiset(s)[x]
    ensures SubsequenceOf(r, s)
  {
    var r := Filter(s, x => x != v);
    FilterMembership(s, x => x != v, v);
    FilterCounts(s, x => x != v);
    FilterIsSubsequence(s, x => x != v);
    r
  }

  lemma RemoveAllAbsent<T(!new)>(s: seq<T>, v: T)
    requires v !in s
    ensures RemoveAll(s, v) == s
  {
    FilterKeepsAll(s, x => x != v);
  }

  /** Append `v` unless it is already present. */
  function AddIfAbsent<T(==,!new)>(s: seq<T>, v: T): (r: seq<T>)
    ensures v in r
    ensures v in s ==> r == s
    ensures v !in s ==> r == s + [v]
  {
    if v in s then s else s + [v]
  }

  lemma AddIfAbsentIdempotent<T(!new)>(s: seq<T>, v: T)
    ensures AddIfAbsent(AddIfAbsent(s, v), v) == AddIfAbsent(s, v)
  {
  }

  lemma AddIfAbsentNoDuplicates<T(!new)>(s: seq<T>, v: T)
    requires NoDuplicates(s)
    ensures NoDuplicates(AddIfAbsent(s, v))
  {
  }

  /** Remove every occurrence of a present `v`, or append an absent one. */
  function Toggle<T(==,!new)>(s: seq<T>, v: T): (r: seq<T>)
    ensures v in r <==> v !in s
    ensures forall x :: x != v ==> multiset(r)[x] == multiset(s)[x]
    ensures v !in s ==> r == s + [v]
    ensures v in s ==> r == RemoveAll(s, v) && SubsequenceOf(r, s)
  {
    if v in s then RemoveAll(s, v) else s + [v]
  }

  /** Toggling an absent value on and off again restores the list. */
  lemma ToggleTwiceAbsent<T(!new)>(s: seq<T>, v: T)
    requires v !in s
    ensures Toggle(Toggle(s, v), v) == s
  {
    assert v in s + [v];
    var r := RemoveAll(s + [v], v);
    RemoveAllAfterAppend(s, v);
  }

  /** Removing a value just appended to a list that lacked it gives the list back. */
  lemma RemoveAllAfterAppend<T(!new)>(s: seq<T>, v: T)
    requires v !in s
    ensures RemoveAll(s + [v], v) == s
  {
    FilterAppend(s, [v], x => x != v);
    RemoveAllAbsent(s, v);
    assert Filter([v], x => x != v) == [];
  }

  lemma {:induction false} FilterAppend<T(!new)>(a: seq<T>, b: seq<T>, p: T -> bool)
    ensures Filter(a + b, p) == Filter(a, p) + Filter(b, p)
    decreases |a|
  {
    if |a| == 0 {
      assert a + b == b;
    } else {
      var head := if p(a[0]) then [a[0]] else [];
      assert (a + b)[0] == a[0];
      assert (a + b)[1..] == a[1..] + b;
      assert Filter(a + b, p) == head + Filter(a[1..] + b, p);
      assert Filter(a, p) == head + Filter(a[1..], p);
      FilterAppend(a[1..], b, p);
    }
  }

  /** Toggling a present value twice keeps the same members but moves that value to the end. */
  lemma ToggleTwicePresent<T(!new)>(s: seq<T>, v: T)
    requires v in s
    ensures Toggle(Toggle(s, v), v) == RemoveAll(s, v) + [v]
  {
  }

  /** In a list without duplicates a present value occurs exactly once. */
  lemma {:induction false} CountOnce<T(!new)>(s: seq<T>, v: T)
    requires NoDuplicates(s) && v in s
    ensures multiset(s)[v] == 1
    decreases |s|
  {
    assert s == [s[0]] + s[1..];
    if s[0] == v {
      assert v !in s[1..] by {
        forall j | 0 <= j < |s[1..]|
          ensures s[1..][j] != v
        {
          assert s[1..][j] == s[j + 1];
        }
      }
    } else {
      assert NoDuplicates(s[1..]) by {
        forall i, j | 0 <= i < j < |s[1..]|
          ensures s[1..][i] != s[1..][j]
        {
          assert s[1..][i] == s[i + 1] && s[1..][j] == s[j + 1];
        }
      }
      CountOnce(s[1..], v);
    }
  }

  /** On a list without duplicates, toggling a value twice gives back the same elements. */
  lemma ToggleTwiceSameElements<T(!new)>(s: seq<T>, v: T)
    requires NoDuplicates(s)
    ensures multiset(Toggle(Toggle(s, v), v)) == multiset(s)
  {
    if v !in s {
      ToggleTwiceAbsent(s, v);
    } else {
      ToggleTwicePresent(s, v);
      CountOnce(s, v);
      var r := RemoveAll(s, v) + [v];
      assert multiset(r) == multiset(RemoveAll(s, v)) + multiset{v};
      assert forall x :: multiset(r)[x] == multiset(s)[x];
    }
  }

  /** Toggling the last value of a list without duplicates twice gives back the very same list. */
  lemma ToggleTwiceLast<T(!new)>(s: seq<T>, v: T)
    requires NoDuplicates(s) && |s| > 0 && s[|s| - 1] == v
    ensures Toggle(Toggle(s, v), v) == s
  {
    var front := s[..|s| - 1];
    assert s == front + [v];
    assert v !in front by {
      forall j | 0 <= j < |front|
        ensures front[j] != v
      {
        assert front[j] == s[j];
      }
    }
    ToggleTwicePresent(s, v);
    RemoveAllAfterAppend(front, v);
  }

  lemma ToggleNoDuplicates<T(!new)>(s: seq<T>, v: T)
    requires NoDuplicates(s)
    ensures NoDuplicates(Toggle(s, v))
  {
    if v in s {
      FilterPreservesNoDuplicates(s, x => x != v);
    }
  }
}

=== FILE: settings.dfy ===
/**
 * The column-settings dialog of components/SmartTableSettings.tsx: a local copy of
 * the configuration sorted by `order`, per-column edits on it, and the apply step
 * that hands a re-sorted configuration and the view flags back to the table.
 */
module TableSettings {
  import opened Seqs
  import opened Sorting
  import opened DataTable

  /** The dialog's local state. */
  datatype SettingsForm = SettingsForm(
    localColumns: seq<ColumnConfig>,
    showHeader: bool,
    showColumnFilter: bool,
    showAdvancedSearch: bool,
    tableHeight: TableHeight)

  /** The state before the dialog is first opened. */
  const InitialForm := SettingsForm([], true, false, true, Flexible)

  /** The four view flags the form holds. */
  function FormView(f: SettingsForm): ViewSettings {
    ViewSettings(f.showHeader, f.showColumnFilter, f.showAdvancedSearch, f.tableHeight)
  }

  /** The effect run on opening: the incoming configuration sorted by order, the view flags copied. */
  function Open(columns: seq<ColumnConfig>, view: ViewSettings): (f: SettingsForm)
    ensures FormView(f) == view
    ensures multiset(f.localColumns) == multiset(columns)
    ensures SortedBy(f.localColumns, OrderLe())
  {
    OrderLeTotalPreorder();
    SortBySorted(columns, OrderLe());
    SettingsForm(SortBy(columns, OrderLe()), view.showHeader, view.showColumnFilter, view.showAdvancedSearch, view.tableHeight)
  }

  function HasId(id: string): ColumnConfig -> bool {
    (c: ColumnConfig) => c.id == id
  }

  /** `handleToggleColumn`. */
  function ToggleColumn(f: SettingsForm, id: string): (r: SettingsForm)
    ensures r == f.(localColumns := r.localColumns)
    ensures |r.localColumns| == |f.localColumns|
    ensures forall i :: 0 <= i < |f.localColumns| ==>
      var c := f.localColumns[i];
      r.localColumns[i] == if c.id == id then c.(isVisible := !c.isVisible) else c
  {
    f.(localColumns := UpdateWhere(f.localColumns, HasId(id), (c: ColumnConfig) => c.(isVisible := !c.isVisible)))
  }

  /** `handleWidthChange`. */
  function WidthChange(f: SettingsForm, id: string, width: int): (r: SettingsForm)
    ensures r == f.(localColumns := r.localColumns)
    ensures |r.localColumns| == |f.localColumns|
    ensures forall i :: 0 <= i < |f.localColumns| ==>
      var c := f.localColumns[i];
      r.localColumns[i] == if c.id == id then c.(width := width) else c
  {
    f.(localColumns := UpdateWhere(f.localColumns, HasId(id), (c: ColumnConfig) => c.(width := width)))
  }

  /** `handleOrderChange`. */
  function OrderChange(f: SettingsForm, id: string, order: int): (r: SettingsForm)
    ensures r == f.(localColumns := r.localColumns)
    ensures |r.localColumns| == |f.localColumns|
    ensures forall i :: 0 <= i < |f.localColumns| ==>
      var c := f.localColumns[i];
      r.localColumns[i] == if c.id == id then c.(order := order) else c
  {
    f.(localColumns := UpdateWhere(f.localColumns, HasId(id), (c: ColumnConfig) => c.(order := order)))
  }

  /** Toggling a column twice gives back the dialog as it was. */
  lemma ToggleTwice(f: SettingsForm, id: string)
    ensures ToggleColumn(ToggleColumn(f, id), id) == f
  {
    var once := ToggleColumn(f, id);
    var twice := ToggleColumn(once, id);
    assert twice.localColumns == f.localColumns;
  }

  /** A width or order edit touches one field of the matching columns: the ids, titles and visibility stay. */
  lemma EditsKeepIdentity(f: SettingsForm, id: string, width: int, order: int)
    ensures ConfigIds(WidthChange(f, id, width).localColumns) == ConfigIds(f.localColumns)
    ensures ConfigIds(OrderChange(f, id, order).localColumns) == ConfigIds(f.localColumns)
    ensures ConfigIds(ToggleColumn(f, id).localColumns) == ConfigIds(f.localColumns)
    ensures forall i :: 0 <= i < |f.localColumns| ==>
      var w := WidthChange(f, id, width).localColumns[i];
      var o := OrderChange(f, id, order).localColumns[i];
      var c := f.localColumns[i];
      w.title == c.title && w.isVisible == c.isVisible && w.order == c.order
      && o.title == c.title && o.isVisible == c.isVisible && o.width == c.width
  {
  }

  /** `handleApply`: the local columns re-sorted by order, and view settings built from the flags. */
  function Apply(f: SettingsForm): (r: (seq<ColumnConfig>, ViewSettings))
    ensures multiset(r.0) == multiset(f.localColumns)
    ensures SortedBy(r.0, OrderLe())
    ensures r.1 == FormView(f)
  {
    OrderLeTotalPreorder();
    SortBySorted(f.localColumns, OrderLe());
    (SortBy(f.localColumns, OrderLe()), FormView(f))
  }

  /**
   * Reopening the dialog on what it applied shows the same list and flags: applying
   * sorts, and sorting a sorted list leaves it as it is.
   */
  lemma {:induction false} ReopenAfterApply(f: SettingsForm)
    ensures Open(Apply(f).0, Apply(f).1).localColumns == Apply(f).0
    ensures FormView(Open(Apply(f).0, Apply(f).1)) == FormView(f)
  {
    SortBySortedInput(Apply(f).0, OrderLe());
  }

  /** Applying without edits, right after opening, gives back the opened configuration sorted. */
  lemma ApplyAfterOpen(columns: seq<ColumnConfig>, view: ViewSettings)
    ensures Apply(Open(columns, view)).0 == SortBy(columns, OrderLe())
    ensures Apply(Open(columns, view)).1 == view
  {
    OrderLeTotalPreorder();
    SortBySorted(columns, OrderLe());
    SortBySortedInput(SortBy(columns, OrderLe()), OrderLe());
  }

  /** The whole round trip through the dialog, as the table sees it. */
  function ApplyToTable(st: TableState, f: SettingsForm): (r: TableState)
    ensures multiset(r.columnConfig) == multiset(f.localColumns)
    ensures SortedBy(r.columnConfig, OrderLe())
    ensures r.viewSettings == FormView(f)
    ensures r.sorting == st.sorting && r.columnFilters == st.columnFilters
    ensures r.globalFilter == st.globalFilter && r.searchMode == st.searchMode
  {
    var out := Apply(f);
    OnApplySettings(st, out.0, out.1)
  }
}

=== FILE: sorting.dfy ===
/**
 * A stable sort by a comparison relation, standing in for `Array.prototype.sort`
 * (stable since ES2019). `le(a, b)` means "a may come before b".
 */
module Sorting {
  import opened Seqs

  ghost predicate Total<T(!new)>(le: (T, T) -> bool) {
    forall a, b :: le(a, b) || le(b, a)
  }

  ghost predicate Transitive<T(!new)>(le: (T, T) -> bool) {
    forall a, b, c :: le(a, b) && le(b, c) ==> le(a, c)
  }

  ghost predicate Antisymmetric<T(!new)>(le: (T, T) -> bool) {
    forall a, b :: le(a, b) && le(b, a) ==> a == b
  }

  ghost predicate TotalPreorder<T(!new)>(le: (T, T) -> bool) {
    Total(le) && Transitive(le)
  }

  ghost predicate SortedBy<T(!new)>(s: seq<T>, le: (T, T) -> bool) {
    forall i, j :: 0 <= i < j < |s| ==> le(s[i], s[j])
  }

  /** Insert `x` before the first element it may precede. */
  function Insert<T(!new)>(x: T, s: seq<T>, le: (T, T) -> bool): (r: seq<T>)
    ensures |r| == |s| + 1
    ensures multiset(r) == multiset(s) + multiset{x}
  {
    if |s| == 0 then [x]
    else if le(x, s[0]) then [x] + s
    else
      assert s == [s[0]] + s[1..];
      [s[0]] + Insert(x, s[1..], le)
  }

  /** Insertion sort: the first element goes in front of every later element it may precede, which keeps ties in input order. */
  function SortBy<T(!new)>(s: seq<T>, le: (T, T) -> bool): (r: seq<T>)
    ensures |r| == |s|
    ensures multiset(r) == multiset(s)
  {
    if |s| == 0 then []
    else
      assert s == [s[0]] + s[1..];
      Insert(s[0], SortBy(s[1..], le), le)
  }
  /** Sorting neither adds nor loses an element. */
  lemma SortByKeepsMembers<T(!new)>(s: seq<T>, le: (T, T) -> bool)
    ensures forall x :: x in SortBy(s, le) <==> x in s
  {
    var r := SortBy(s, le);
    forall x
      ensures x in r <==> x in s
    {
      assert x in r <==> x in multiset(r);
      assert x in s <==> x in multiset(s);
    }
  }


  lemma {:induction false} InsertSorted<T(!new)>(x: T, s: seq<T>, le: (T, T) -> bool)
    requires TotalPreorder(le)
    requires SortedBy(s, le)
    ensures SortedBy(Insert(x, s, le), le)
    decreases |s|
  {
    if |s| > 0 && !le(x, s[0]) {
      assert le(s[0], x);
      var t := s[1..];
      assert SortedBy(t, le);
      InsertSorted(x, t, le);
      var it := Insert(x, t, le);
      var r := [s[0]] + it;
      forall k | 0 <= k < |it|
        ensures le(s[0], it[k])
      {
        assert it[k] in multiset(it);
        assert it[k] == x || it[k] in multiset(t);
        if it[k] != x {
          var m :| 0 <= m < |t| && t[m] == it[k];
          assert s[m + 1] == t[m];
        }
      }
      forall i, j | 0 <= i < j < |r|
        ensures le(r[i], r[j])
      {
        if i == 0 {
          assert r[j] == it[j - 1];
        } else {
          assert r[i] == it[i - 1] && r[j] == it[j - 1];
        }
      }
    } else if |s| > 0 {
      var r := [x] + s;
      forall i, j | 0 <= i < j < |r|
        ensures le(r[i], r[j])
      {
        if i == 0 && j > 1 {
          assert le(s[0], s[j - 1]);
        }
      }
    }
  }

  /** The sort's output is ordered by `le`. */
  lemma {:induction false} SortBySorted<T(!new)>(s: seq<T>, le: (T, T) -> bool)
    requires TotalPreorder(le)
    ensures SortedBy(SortBy(s, le), le)
    decreases |s|
  {
    if |s| > 0 {
      SortBySorted(s[1..], le);
      InsertSorted(s[0], SortBy(s[1..], le), le);
    }
  }

  /** The elements `le` cannot tell apart from `x`: each may come before the other. */
  function Tie<T>(le: (T, T) -> bool, x: T): T -> bool {
    (y: T) => le(x, y) && le(y, x)
  }

  /**
   * Inserting `x` never passes an element tied with it, so the elements of any tie
   * class keep their order, with `x` in front of its own class.
   */
  lemma {:induction false} InsertKeepsTies<T(!new)>(x: T, t: seq<T>, le: (T, T) -> bool, z: T)
    requires Transitive(le)
    ensures Filter(Insert(x, t, le), Tie(le, z)) == (if Tie(le, z)(x) then [x] else []) + Filter(t, Tie(le, z))
    decreases |t|
  {
    if |t| == 0 {
    } else if le(x, t[0]) {
      assert ([x] + t)[1..] == t;
    } else {
      InsertKeepsTies(x, t[1..], le, z);
      var r := [t[0]] + Insert(x, t[1..], le);
      assert r[1..] == Insert(x, t[1..], le);
    }
  }

  /**
   * The sort is stable: the elements tied with any `x` come out in the order they went
   * in.
   */
  lemma {:induction false} SortByStable<T(!new)>(s: seq<T>, le: (T, T) -> bool, x: T)
    requires Transitive(le)
    ensures Filter(SortBy(s, le), Tie(le, x)) == Filter(s, Tie(le, x))
    decreases |s|
  {
    if |s| > 0 {
      SortByStable(s[1..], le, x);
      InsertKeepsTies(s[0], SortBy(s[1..], le), le, x);
    }
  }

  /** Under an antisymmetric order, there is only one sorted arrangement of a multiset. */
  lemma {:induction false} SortedUnique<T(!new)>(a: seq<T>, b: seq<T>, le: (T, T) -> bool)
    requires Antisymmetric(le)
    requires SortedBy(a, le) && SortedBy(b, le)
    requires multiset(a) == multiset(b)
    ensures a == b
    decreases |a|
  {
    if |a| > 0 {
      assert |b| == |multiset(b)| == |multiset(a)| == |a|;
      SortedHeadsEqual(a, b, le);
      assert a == [a[0]] + a[1..];
      assert b == [b[0]] + b[1..];
      assert multiset(a[1..]) == multiset(a) - multiset{a[0]};
      assert multiset(b[1..]) == multiset(b) - multiset{b[0]};
      SortedUnique(a[1..], b[1..], le);
    }
  }

  /** Two sorted arrangements of one multiset under an antisymmetric order start alike. */
  lemma SortedHeadsEqual<T(!new)>(a: seq<T>, b: seq<T>, le: (T, T) -> bool)
    requires Antisymmetric(le)
    requires SortedBy(a, le) && SortedBy(b, le)
    requires multiset(a) == multiset(b) && |a| > 0
    ensures |b| > 0 && a[0] == b[0]
  {
    assert a[0] in multiset(b);
    var i :| 0 <= i < |b| && b[i] == a[0];
    assert b[0] in multiset(a);
    var j :| 0 <= j < |a| && a[j] == b[0];
    if i > 0 {
      assert le(b[0], b[i]);
    }
    if j > 0 {
      assert le(a[0], a[j]);
    }
  }

  /** A sorted sequence is left as it is. */
  lemma {:induction false} SortBySortedInput<T(!new)>(s: seq<T>, le: (T, T) -> bool)
    requires SortedBy(s, le)
    ensures SortBy(s, le) == s
    decreases |s|
  {
    if |s| > 0 {
      assert SortedBy(s[1..], le);
      SortBySortedInput(s[1..], le);
      if |s| > 1 {
        assert le(s[0], s[1]);
      }
      assert s == [s[0]] + s[1..];
    }
  }

  /** Dropping elements from a sorted sequence leaves it sorted. */
  lemma {:induction false} FilterSorted<T(!new)>(s: seq<T>, p: T -> bool, le: (T, T) -> bool)
    requires SortedBy(s, le)
    ensures SortedBy(Filter(s, p), le)
    decreases |s|
  {
    if |s| > 0 {
      var rest := Filter(s[1..], p);
      assert SortedBy(s[1..], le);
      FilterSorted(s[1..], p, le);
      if p(s[0]) {
        var r := [s[0]] + rest;
        forall k | 0 <= k < |rest|
          ensures le(s[0], rest[k])
        {
          assert rest[k] in rest;
          FilterMembership(s[1..], p, rest[k]);
          var m :| 0 <= m < |s[1..]| && s[1..][m] == rest[k];
          assert s[m + 1] == rest[k];
        }
        forall i, j | 0 <= i < j < |r|
          ensures le(r[i], r[j])
        {
          if i == 0 {
            assert r[j] == rest[j - 1];
          } else {
            assert r[i] == rest[i - 1] && r[j] == rest[j - 1];
          }
        }
      }
    }
  }
}

=== FILE: strings.dfy ===
/**
 * ASCII models of the JavaScript string operations the application relies on:
 * case mapping, `includes`, `split`, `join`, `trim`, `padStart`, `substring(0, n)`,
 * number-to-string conversion and the default string ordering used by `sort()`.
 */
module Strings {

  /** Whitespace as matched by the regular expression `\s` and removed by `trim()` (ASCII part only). */
  predicate IsWhitespace(c: char) {
    c == ' ' || 9 <= c as int <= 13
  }

  predicate NoWhitespace(s: string) {
    forall k :: 0 <= k < |s| ==> !IsWhitespace(s[k])
  }

  predicate AllWhitespace(s: string) {
    forall k :: 0 <= k < |s| ==> IsWhitespace(s[k])
  }

  /** Every character of `s` at an index in `[i, j)` is whitespace. */
  predicate WhitespaceBetween(s: string, i: int, j: int) {
    forall k :: i <= k < j && 0 <= k < |s| ==> IsWhitespace(s[k])
  }

  /** `s || fallback` on a string. */
  function OrElse(s: string, fallback: string): (r: string)
    ensures s != "" ==> r == s
    ensures s == "" ==> r == fallback
  {
    if s != "" then s else fallback
  }

  predicate IsUpper(c: char) { 'A' <= c <= 'Z' }

  predicate IsLower(c: char) { 'a' <= c <= 'z' }

  function LowerChar(c: char): char {
    if IsUpper(c) then (c as int + 32) as char else c
  }

  function UpperChar(c: char): char {
    if IsLower(c) then (c as int - 32) as char else c
  }

  /** `s.toLowerCase()` over ASCII letters. */
  function ToLower(s: string): (r: string)
    ensures |r| == |s|
    ensures forall k :: 0 <= k < |r| ==> !IsUpper(r[k])
  {
    seq(|s|, k requires 0 <= k < |s| => LowerChar(s[k]))
  }

  /** `s.toUpperCase()` over ASCII letters. */
  function ToUpper(s: string): (r: string)
    ensures |r| == |s|
    ensures forall k :: 0 <= k < |r| ==> !IsLower(r[k])
  {
    seq(|s|, k requires 0 <= k < |s| => UpperChar(s[k]))
  }

  /** Lower-casing is idempotent: comparing lower-cased strings is an equivalence on the lower-cased forms. */
  lemma ToLowerIdempotent(s: string)
    ensures ToLower(ToLower(s)) == ToLower(s)
  {
  }

  lemma ToLowerAppend(a: string, b: string)
    ensures ToLower(a + b) == ToLower(a) + ToLower(b)
  {
  }

  // ---------------------------------------------------------------------------
  // includes

  ghost predicate OccursAt(hay: string, needle: string, i: int) {
    0 <= i && i + |needle| <= |hay| && hay[i..i + |needle|] == needle
  }

  /** `hay.includes(needle)`. */
  function Contains(hay: string, needle: string): bool
    decreases |hay|
  {
    if |needle| > |hay| then false
    else if hay[..|needle|] == needle then true
    else Contains(hay[1..], needle)
  }

  /** `Contains` holds exactly when the needle occurs at some position of the haystack. */
  lemma {:induction false} ContainsIff(hay: string, needle: string)
    ensures Contains(hay, needle) <==> exists i :: OccursAt(hay, needle, i)
    decreases |hay|
  {
    if |needle| > |hay| {
    } else if hay[..|needle|] == needle {
      assert OccursAt(hay, needle, 0);
    } else {
      ContainsIff(hay[1..], needle);
      if Contains(hay[1..], needle) {
        var i :| OccursAt(hay[1..], needle, i);
        assert hay[i + 1..i + 1 + |needle|] == hay[1..][i..i + |needle|];
        assert OccursAt(hay, needle, i + 1);
      } else {
        forall i | OccursAt(hay, needle, i)
          ensures false
        {
          assert i != 0;
          assert hay[1..][i - 1..i - 1 + |needle|] == hay[i..i + |needle|];
          assert OccursAt(hay[1..], needle, i - 1);
        }
      }
    }
  }

  /** The empty string occurs in every string, which is why an empty search word matches every value. */
  lemma ContainsEmpty(hay: string)
    ensures Contains(hay, "")
  {
    assert hay[..0] == "";
  }

  // ---------------------------------------------------------------------------
  // split / join on a single character

  /** Position of the first `c` in `s`. */
  function IndexOf(s: string, c: char): (i: nat)
    requires c in s
    ensures i < |s| && s[i] == c && c !in s[..i]
  {
    if s[0] == c then 0
    else
      assert s == [s[0]] + s[1..];
      var j := IndexOf(s[1..], c);
      assert s[..j + 1] == [s[0]] + s[1..][..j];
      j + 1
  }

  /** `s.split(c)` for a one-character separator. */
  function Split(s: string, c: char): (parts: seq<string>)
    ensures |parts| >= 1
    ensures forall k :: 0 <= k < |parts| ==> c !in parts[k]
    decreases |s|
  {
    if c !in s then [s]
    else
      var i := IndexOf(s, c);
      [s[..i]] + Split(s[i + 1..], c)
  }

  /** `parts.join(sep)`. */
  function Join(parts: seq<string>, sep: string): string
    decreases |parts|
  {
    if |parts| == 0 then ""
    else if |parts| == 1 then parts[0]
    else parts[0] + sep + Join(parts[1..], sep)
  }

  /** Joining the pieces of a split with the same character gives back the string. */
  lemma {:induction false} JoinSplit(s: string, c: char)
    ensures Join(Split(s, c), [c]) == s
    decreases |s|
  {
    if c in s {
      var i := IndexOf(s, c);
      var rest := Split(s[i + 1..], c);
      JoinSplit(s[i + 1..], c);
      assert Split(s, c) == [s[..i]] + rest;
      assert Join(Split(s, c), [c]) == s[..i] + [c] + Join(rest, [c]);
      assert s == s[..i] + [c] + s[i + 1..];
    }
  }

  lemma {:induction false} IndexOfAfter(a: string, c: char, b: string)
    requires c !in a
    ensures c in a + [c] + b
    ensures IndexOf(a + [c] + b, c) == |a|
    decreases |a|
  {
    var s := a + [c] + b;
    assert s[|a|] == c;
    if |a| > 0 {
      assert s[1..] == a[1..] + [c] + b;
      IndexOfAfter(a[1..], c, b);
    }
  }

  /** Splitting a join of separator-free pieces gives back the pieces. */
  lemma {:induction false} SplitJoin(parts: seq<string>, c: char)
    requires |parts| >= 1
    requires forall k :: 0 <= k < |parts| ==> c !in parts[k]
    ensures Split(Join(parts, [c]), c) == parts
    decreases |parts|
  {
    if |parts| > 1 {
      var tail := Join(parts[1..], [c]);
      assert Join(parts, [c]) == parts[0] + [c] + tail;
      SplitAfter(parts[0], c, tail);
      SplitJoin(parts[1..], c);
      assert parts == [parts[0]] + parts[1..];
    }
  }

  /** Splitting text that starts with a piece free of `c` and then `c` cuts off exactly that piece. */
  lemma SplitAfter(a: string, c: char, b: string)
    requires c !in a
    ensures Split(a + [c] + b, c) == [a] + Split(b, c)
  {
    var s := a + [c] + b;
    IndexOfAfter(a, c, b);
    assert s[..|a|] == a;
    assert s[|a| + 1..] == b;
  }

  /** The length of a join: the pieces plus one separator between each neighbouring pair. */
  function SumLengths(parts: seq<string>): nat {
    if |parts| == 0 then 0 else |parts[0]| + SumLengths(parts[1..])
  }

  lemma {:induction false} JoinLength(parts: seq<string>, sep: string)
    requires |parts| >= 1
    ensures |Join(parts, sep)| == SumLengths(parts) + (|parts| - 1) * |sep|
    decreases |parts|
  {
    if |parts| > 1 {
      JoinLength(parts[1..], sep);
    }
  }

  // ---------------------------------------------------------------------------
  // split on whitespace runs

  /** Index of the first whitespace character of `s`, or `|s|` when there is none. */
  function WsIndex(s: string): (i: nat)
    ensures i <= |s|
    ensures NoWhitespace(s[..i])
    ensures i < |s| ==> IsWhitespace(s[i])
  {
    if |s| == 0 || IsWhitespace(s[0]) then 0
    else
      var j := WsIndex(s[1..]);
      assert s[..j + 1] == [s[0]] + s[1..][..j];
      j + 1
  }

  /** Index just past the run of whitespace that starts at `i`. */
  function RunEnd(s: string, i: nat): (j: nat)
    requires i <= |s|
    ensures i <= j <= |s|
    ensures AllWhitespace(s[i..j])
    ensures j < |s| ==> !IsWhitespace(s[j])
    ensures i < |s| && IsWhitespace(s[i]) ==> i < j
    decreases |s| - i
  {
    if i < |s| && IsWhitespace(s[i]) then
      var j := RunEnd(s, i + 1);
      assert s[i..j] == [s[i]] + s[i + 1..j];
      j
    else i
  }

  /**
   * `s.split(/\s+/)`: the pieces between maximal whitespace runs. A leading or
   * trailing run produces an empty first or last piece, and `""` splits to `[""]`.
   */
  function SplitWs(s: string): (words: seq<string>)
    ensures |words| >= 1
    ensures forall k :: 0 <= k < |words| ==> NoWhitespace(words[k])
    decreases |s|
  {
    var i := WsIndex(s);
    if i == |s| then
      assert s[..i] == s;
      [s]
    else
      var j := RunEnd(s, i);
      var rest := SplitWs(s[j..]);
      var words := [s[..i]] + rest;
      assert forall k :: 1 <= k < |words| ==> words[k] == rest[k - 1];
      words
  }

  /** `s` with every whitespace character deleted: the independent description of what a whitespace split keeps. */
  function RemoveWhitespace(s: string): string {
    if |s| == 0 then ""
    else (if IsWhitespace(s[0]) then "" else [s[0]]) + RemoveWhitespace(s[1..])
  }

  function Concat(parts: seq<string>): string {
    if |parts| == 0 then "" else parts[0] + Concat(parts[1..])
  }

  lemma {:induction false} RemoveWhitespaceAppend(a: string, b: string)
    ensures RemoveWhitespace(a + b) == RemoveWhitespace(a) + RemoveWhitespace(b)
    decreases |a|
  {
    if |a| > 0 {
      assert (a + b)[0] == a[0];
      assert (a + b)[1..] == a[1..] + b;
      RemoveWhitespaceAppend(a[1..], b);
    } else {
      assert a + b == b;
    }
  }

  lemma {:induction false} RemoveWhitespaceNone(s: string)
    requires NoWhitespace(s)
    ensures RemoveWhitespace(s) == s
    decreases |s|
  {
    if |s| > 0 {
      RemoveWhitespaceNone(s[1..]);
    }
  }

  lemma {:induction false} RemoveWhitespaceAll(s: string)
    requires AllWhitespace(s)
    ensures RemoveWhitespace(s) == ""
    decreases |s|
  {
    if |s| > 0 {
      RemoveWhitespaceAll(s[1..]);
    }
  }

  /** The words of a whitespace split, put back together, are the input without its whitespace. */
  lemma {:induction false} SplitWsKeepsNonWhitespace(s: string)
    ensures Concat(SplitWs(s)) == RemoveWhitespace(s)
    decreases |s|
  {
    var i := WsIndex(s);
    if i == |s| {
      assert s[..i] == s;
      RemoveWhitespaceNone(s);
    } else {
      var j := RunEnd(s, i);
      var rest := SplitWs(s[j..]);
      assert SplitWs(s) == [s[..i]] + rest;
      assert Concat(SplitWs(s)) == s[..i] + Concat(rest);
      SplitWsKeepsNonWhitespace(s[j..]);
      RemoveWhitespaceWordRun(s, i, j);
    }
  }

  /** Deleting whitespace from a word, a whitespace run and a tail leaves the word and the tail's remainder. */
  lemma RemoveWhitespaceWordRun(s: string, i: nat, j: nat)
    requires i <= j <= |s|
    requires NoWhitespace(s[..i]) && AllWhitespace(s[i..j])
    ensures RemoveWhitespace(s) == s[..i] + RemoveWhitespace(s[j..])
  {
    var a, b, c := s[..i], s[i..j], s[j..];
    assert s == a + b + c;
    RemoveWhitespaceAppend(a + b, c);
    RemoveWhitespaceAppend(a, b);
    RemoveWhitespaceNone(a);
    RemoveWhitespaceAll(b);
  }

  /** A string without whitespace is a single word. */
  lemma SplitWsSingleWord(s: string)
    requires NoWhitespace(s)
    ensures SplitWs(s) == [s]
  {
    var i := WsIndex(s);
    assert i == |s|;
  }

  // ---------------------------------------------------------------------------
  // trim

  function TrimStart(s: string): (r: string)
    ensures |r| <= |s| && r == s[|s| - |r|..]
    ensures WhitespaceBetween(s, 0, |s| - |r|)
    ensures |r| > 0 ==> !IsWhitespace(r[0])
  {
    if |s| > 0 && IsWhitespace(s[0]) then
      TrimStart(s[1..])
    else s
  }

  function TrimEnd(s: string): (r: string)
    ensures |r| <= |s| && r == s[..|r|]
    ensures WhitespaceBetween(s, |r|, |s|)
    ensures |r| > 0 ==> !IsWhitespace(r[|r| - 1])
  {
    if |s| > 0 && IsWhitespace(s[|s| - 1]) then
      TrimEnd(s[..|s| - 1])
    else s
  }

  /** `s.trim()`: the middle slice of `s` left after removing whitespace at both ends. */
  function Trim(s: string): (r: string)
    ensures exists a, b :: TrimmedAt(s, r, a, b)
    ensures |r| > 0 ==> !IsWhitespace(r[0]) && !IsWhitespace(r[|r| - 1])
  {
    var t := TrimStart(s);
    var r := TrimEnd(t);
    TrimWitness(s, t, r);
    r
  }

  /** `r` is `s[a..b]` and only whitespace lies outside that slice. */
  ghost predicate TrimmedAt(s: string, r: string, a: int, b: int) {
    0 <= a <= b <= |s| && r == s[a..b] && WhitespaceBetween(s, 0, a) && WhitespaceBetween(s, b, |s|)
  }

  lemma TrimWitness(s: string, t: string, r: string)
    requires t == TrimStart(s) && r == TrimEnd(t)
    ensures exists a, b :: TrimmedAt(s, r, a, b)
  {
    var a := |s| - |t|;
    var b := a + |r|;
    assert t == s[a..];
    assert r == t[..|r|];
    assert r == s[a..b] by {
      assert t[..|r|] == s[a..b];
    }
    forall k | b <= k < |s|
      ensures IsWhitespace(s[k])
    {
      assert s[k] == t[k - a];
    }
    assert TrimmedAt(s, r, a, b);
  }

  /** Trimming changes nothing when both ends are already non-whitespace. */
  lemma TrimNoop(s: string)
    requires |s| > 0 ==> !IsWhitespace(s[0]) && !IsWhitespace(s[|s| - 1])
    ensures Trim(s) == s
  {
  }

  // ---------------------------------------------------------------------------
  // numbers as text

  predicate IsDigit(c: char) { '0' <= c <= '9' }

  predicate AllDigits(s: string) {
    forall k :: 0 <= k < |s| ==> IsDigit(s[k])
  }

  function DigitChar(d: nat): (c: char)
    requires d < 10
    ensures IsDigit(c)
  {
    ('0' as int + d) as char
  }

  function DigitValue(c: char): (d: nat)
    requires IsDigit(c)
    ensures d < 10 && DigitChar(d) == c
  {
    c as int - '0' as int
  }

  /** `String(n)` for a non-negative integer: its decimal digits, without leading zeros. */
  function NatToString(n: nat): (r: string)
    ensures |r| >= 1 && AllDigits(r)
    ensures n == 0 ==> r == "0"
    ensures n > 0 ==> r[0] != '0'
  {
    if n < 10 then [DigitChar(n)]
    else NatToString(n / 10) + [DigitChar(n % 10)]
  }

  /** The number a string of decimal digits denotes (leading zeros allowed). */
  function ParseDigits(s: string): nat
    requires AllDigits(s)
  {
    if |s| == 0 then 0 else 10 * ParseDigits(s[..|s| - 1]) + DigitValue(s[|s| - 1])
  }

  lemma {:induction false} ParseNatToString(n: nat)
    ensures ParseDigits(NatToString(n)) == n
  {
    if n >= 10 {
      var r := NatToString(n);
      assert r[..|r| - 1] == NatToString(n / 10);
      ParseNatToString(n / 10);
    }
  }

  /** Leading zeros do not change the number a digit string denotes. */
  lemma {:induction false} ParseLeadingZeros(k: nat, s: string)
    requires AllDigits(s)
    ensures AllDigits(Repeat('0', k) + s)
    ensures ParseDigits(Repeat('0', k) + s) == ParseDigits(s)
    decreases |s|
  {
    var z := Repeat('0', k) + s;
    if |s| == 0 {
      assert z == Repeat('0', k);
      ParseZeros(k);
    } else {
      assert z[..|z| - 1] == Repeat('0', k) + s[..|s| - 1];
      ParseLeadingZeros(k, s[..|s| - 1]);
    }
  }

  lemma {:induction false} ParseZeros(k: nat)
    ensures AllDigits(Repeat('0', k))
    ensures ParseDigits(Repeat('0', k)) == 0
  {
    if k > 0 {
      assert Repeat('0', k)[..k - 1] == Repeat('0', k - 1);
      ParseZeros(k - 1);
    }
  }

  function Repeat(c: char, k: nat): (r: string)
    ensures |r| == k
    ensures forall i :: 0 <= i < k ==> r[i] == c
  {
    if k == 0 then "" else Repeat(c, k - 1) + [c]
  }

  /** `s.padStart(width, c)`: pads on the left up to `width`, and never truncates a longer string. */
  function PadStart(s: string, width: nat, c: char): (r: string)
    ensures |r| == if |s| >= width then |s| else width
    ensures r[|r| - |s|..] == s
    ensures forall k :: 0 <= k < |r| - |s| ==> r[k] == c
  {
    if |s| >= width then s else Repeat(c, width - |s|) + s
  }

  /** `s.replace(/^0+/, '')`. */
  function StripLeadingZeros(s: string): (r: string)
    ensures |r| <= |s| && r == s[|s| - |r|..]
    ensures forall k :: 0 <= k < |s| - |r| ==> s[k] == '0'
    ensures |r| > 0 ==> r[0] != '0'
  {
    if |s| > 0 && s[0] == '0' then StripLeadingZeros(s[1..]) else s
  }

  /** Stripping the zeros that `padStart` added gives back the decimal form of a positive number. */
  lemma StripPaddedNumber(n: nat, width: nat)
    requires n > 0
    ensures StripLeadingZeros(PadStart(NatToString(n), width, '0')) == NatToString(n)
  {
  }

  /** `s.substring(0, n)`: at most the first `n` characters. */
  function Prefix(s: string, n: nat): (r: string)
    ensures |r| == if |s| < n then |s| else n
    ensures r <= s
  {
    if |s| < n then s else s[..n]
  }

  // ---------------------------------------------------------------------------
  // ordering

  /**
   * JavaScript's `a <= b` on strings: lexicographic by character code, a proper
   * prefix before its extensions. This is the order `Array.prototype.sort()` uses
   * when given no comparator.
   */
  predicate LexLe(a: string, b: string)
    decreases |a|
  {
    |a| == 0 || (|b| > 0 && (a[0] < b[0] || (a[0] == b[0] && LexLe(a[1..], b[1..]))))
  }

  lemma {:induction false} LexLeTotal(a: string, b: string)
    ensures LexLe(a, b) || LexLe(b, a)
    decreases |a|
  {
    if |a| > 0 && |b| > 0 && a[0] == b[0] {
      LexLeTotal(a[1..], b[1..]);
    }
  }

  lemma {:induction false} LexLeTransitive(a: string, b: string, c: string)
    requires LexLe(a, b) && LexLe(b, c)
    ensures LexLe(a, c)
    decreases |a|
  {
    if |a| > 0 && a[0] == b[0] && b[0] == c[0] {
      LexLeTransitive(a[1..], b[1..], c[1..]);
    }
  }

  lemma {:induction false} LexLeAntisymmetric(a: string, b: string)
    requires LexLe(a, b) && LexLe(b, a)
    ensures a == b
    decreases |a|
  {
    if |a| > 0 {
      LexLeAntisymmetric(a[1..], b[1..]);
      assert a == [a[0]] + a[1..];
      assert b == [b[0]] + b[1..];
    }
  }
}

=== FILE: taskform.dfy ===
/**
 * The fulfilment-task dialog of components/TaskModal.tsx: the defaults it fills in
 * when it opens for a request and the task it builds on submit.
 */
module TaskForm {
  import opened Wrappers
  import opened Strings
  import opened Seqs
  import opened Entities
  import Requests

  /** The dialog's editable state. */
  datatype TaskDraft = TaskDraft(assignedToId: string, priority: TaskPriority, dueDate: string, description: string)

  /** The state before the dialog first opens: nobody chosen, Medium priority, blank texts. */
  const Initial := TaskDraft("", Medium, "", "")

  /** The text a request's `type` holds. */
  function TypeText(t: RequestType): string {
    match t
    case HardwareRequest => "Hardware"
    case SoftwareRequest => "Software"
  }

  /** The first line of the default description. */
  function WhatLine(request: Request): string {
    "Fulfillment required for " + TypeText(request.requestType) + ": " + request.item + "."
  }

  /** The second line of the default description. */
  function WhoLine(request: Request): string {
    "Requested by: " + request.requestedBy.fullName
  }

  /** The default description: what to fulfil, then on a new line who asked. */
  function Description(request: Request): string {
    WhatLine(request) + "\n" + WhoLine(request)
  }

  /**
   * Opening the dialog: the due date (three days ahead, read from the clock by the
   * caller) and the description are filled in, and the first administrator is chosen
   * when there is one; a closed dialog keeps its state.
   */
  function Open(d: TaskDraft, isOpen: bool, request: Request, admins: seq<User>, dueDate: string): (r: TaskDraft)
    ensures !isOpen ==> r == d
    ensures isOpen ==> r.dueDate == dueDate && r.description == Description(request) && r.priority == d.priority
    ensures isOpen && |admins| > 0 ==> r.assignedToId == admins[0].id
    ensures isOpen && |admins| == 0 ==> r.assignedToId == d.assignedToId
  {
    if !isOpen then d
    else d.(assignedToId := if |admins| > 0 then admins[0].id else d.assignedToId,
            dueDate := dueDate, description := Description(request))
  }

  /**
   * When neither the item nor the requester's name holds a line break, the default
   * description is exactly two lines: the item line and the requester line.
   */
  lemma DescriptionLines(request: Request)
    requires '\n' !in request.item && '\n' !in request.requestedBy.fullName
    ensures Split(Description(request), '\n') == [WhatLine(request), WhoLine(request)]
  {
    var t := TypeText(request.requestType);
    assert '\n' !in t;
    var w := WhatLine(request);
    assert '\n' !in w by {
      assert w == "Fulfillment required for " + t + ": " + request.item + ".";
    }
    var v := WhoLine(request);
    assert '\n' !in v by {
      assert v == "Requested by: " + request.requestedBy.fullName;
    }
    assert Join([w, v], "\n") == Description(request) by {
      assert [w, v][1..] == [v];
    }
    SplitJoin([w, v], '\n');
  }

  function HasId(id: string): User -> bool {
    (u: User) => u.id == id
  }

  /** `handleSubmit`: the task for the request, assigned to the chosen administrator if one has that id. */
  function Submit(d: TaskDraft, request: Request, admins: seq<User>, clock: Clock): (t: Task)
    ensures t.requestId == request.id && t.title == "Fulfill: " + request.item && t.status == Todo
    ensures t.priority == d.priority && t.dueDate == d.dueDate && t.description == d.description
    ensures t.createdDate == clock.iso
  {
    Task("task-" + NatToString(clock.millis), request.id, "Fulfill: " + request.item,
      Find(admins, HasId(d.assignedToId)), Todo, d.priority, d.dueDate, d.description, clock.iso)
  }

  /**
   * The task is assigned exactly when some administrator has the chosen id, and then
   * to the first such administrator.
   */
  lemma SubmitAssignee(d: TaskDraft, request: Request, admins: seq<User>, clock: Clock)
    ensures var t := Submit(d, request, admins, clock);
      (t.assignedTo.Some? <==> HasUserId(admins, d.assignedToId))
      && (t.assignedTo.Some? ==> exists i :: 0 <= i < |admins| && admins[i] == t.assignedTo.value
                                             && admins[i].id == d.assignedToId
                                             && forall j :: 0 <= j < i ==> admins[j].id != d.assignedToId)
  {
    var t := Submit(d, request, admins, clock);
    if HasUserId(admins, d.assignedToId) {
      var i :| 0 <= i < |admins| && admins[i].id == d.assignedToId;
      assert HasId(d.assignedToId)(admins[i]);
    }
  }

  /**
   * Submitting straight after opening with at least one administrator assigns the
   * task to the first administrator, with the default description.
   */
  lemma OpenThenSubmit(d: TaskDraft, request: Request, admins: seq<User>, dueDate: string, clock: Clock)
    requires |admins| > 0
    ensures var t := Submit(Open(d, true, request, admins, dueDate), request, admins, clock);
      t.assignedTo == Some(admins[0]) && t.description == Description(request) && t.dueDate == dueDate
  {
    var o := Open(d, true, request, admins, dueDate);
    FindFirst(admins, HasId(o.assignedToId), 0);
  }

  /**
   * Handing the submitted task to the application puts the request it was made for in
   * progress, linked to the task, and lists the task first.
   */
  lemma SubmittedTaskLinksRequest(requests: seq<Request>, tasks: seq<Task>, d: TaskDraft, request: Request,
                                  admins: seq<User>, clock: Clock, i: nat)
    requires i < |requests| && requests[i].id == request.id
    ensures var t := Submit(d, request, admins, clock);
      var after := Requests.TaskSubmit(requests, tasks, t);
      after.1[0] == t
      && after.0[i].status == InProgress && after.0[i].linkedTaskId == Some("task-" + NatToString(clock.millis))
  {
    Requests.TaskSubmitSpec(requests, tasks, Submit(d, request, admins, clock));
  }
}

=== FILE: wrappers.dfy ===
/** Optional values, standing in for JavaScript's `undefined`/`null` fields. */
module Wrappers {

  datatype Option<+T> = None | Some(value: T) {

    /** The wrapped value, or `default` when there is none (JavaScript's `x ?? default`). */
    function GetOr(default: T): T {
      match this
      case Some(v) => v
      case None => default
    }
  }

  /** The outcome of an operation that can throw: a value, or the reason it failed. */
  datatype Result<+T> = Ok(value: T) | Err(reason: string)
}
